=== FILE: README.md ===
# Engine568 in Dafny

This project models Engine568, the interpreter of the "568" picture language. A program
is an image. A cursor walks the pixel grid and skips every cell whose colour is not one
of six signal colours: red, yellow, green, cyan, blue and magenta. Each signal starts a
grammar rule. The rules cover:

- direction changes (red) and conditional branches (yellow);
- binary literals and register or array reads (green);
- heap allocation blocks (cyan);
- tier-1 operators, which are arithmetic and logical not (blue);
- tier-2 operators (magenta): comparisons, print, assignment and compound assignment.

The machine has six registers. Each holds an integer and an optional pointer to an
array. It also keeps the last operand, a deferred "pending" operator that is applied to
the next operand, and a sticky error.

The model is functional:

- every parser takes an immutable `State` and returns the new state and its result;
- the C++ closures become the closed `Pending` datatype;
- a register's array pointer is an index into a six-slot arena, so the aliasing that
  comes from copying whole registers is modelled faithfully;
- `run` and the heap initialiser loop get a `fuel` bound.

The project also models two smaller parts of the same repository:

- the packed-pixel integer helpers of `CNGE::Util` (module `ImageUtil`);
- the older Java interpreter `Program` (module `LegacyProgram`). Its pixels are
  instructions: the red byte gives the type and the green and blue bytes the
  parameters. It runs a search mode and then a terminating mode.

Modules:

| module | models |
|---|---|
| `Base` | `Option`, and `Fuelled` (a result, or out of fuel) |
| `Signals` | the six signal colours and `colorIndex` |
| `CInt` | C++ `int` semantics: truncating `/` and `%`, `!`, comparisons as 0/1, the `int`-to-`size_t` conversion, `char(...)` |
| `Machine` | the engine's fields, `load`, `pushInt`, `pushArray`, `assignArray`, `getRGB`, reads and writes through operand handles |
| `Cursor` | `moveUntil` and `outOfBounds` |
| `Operators` | the tier-1 and tier-2 operator lambdas and the pending operator |
| `Grammar` | `parseDir`, `parseBranch`, `parseVal`, `parseHeap`, `parseOperator1`, `parseOperator2` |
| `Interpreter` | `run` |
| `Encoding` | how literals, directions and heap blocks are laid out as colours, and the round trips of the parsers over those layouts |
| `Programs` | whole programs run through `run`, including the two undefined-behaviour programs listed under Findings |
| `ImageUtil` | `src/image/imageUtil.cpp` |
| `LegacyProgram` | `src/Program.java` |

In these places the code's behaviour is easy to misread; the model follows the code:

- A negative array index is rejected. The check at `src/engine568.cpp:222` compares the
  `int` index with the `size_t` size, so a negative index becomes a huge unsigned value
  and fails `>= size`. `Grammar.IndexCheckExact` proves the check is exactly
  `0 <= index < size` for every 32-bit index.
- Assigning a plain value to a register changes only its integer and keeps the target's
  array pointer (`src/engine568.cpp:365-367`). It does not clear the array.
- An assignment yields the new operand's value, which is the target's value from before
  the write (`src/engine568.cpp:378`). It does not yield the written value.
- Arrays are not owned exclusively. Copying a whole register copies its pointer
  (`src/engine568.cpp:362`). Reallocating register i always reuses arena slot i
  (`src/engine568.cpp:148`), so every alias sees the new array.
- When an operand fails to parse, the pending operator is still applied to the
  placeholder operand (`src/engine568.cpp:438-443`).
- `load` and `run` do not clear the pending operator. The model loads into a fresh
  engine, where it is empty.
- Direction changes can make the cursor cycle forever, hence the fuel bound.

## Model

| member | source | states |
|---|---|---|
| Signals.Classify | src/engine568.cpp:102-104 | a colour is a signal exactly when it is one of the six signal constants, and the signal's colour is that colour |
| Signals.ClassifyRgb | src/engine568.h:52-57 | each of the six colour constants is classified as its own signal |
| Signals.ColorIndex | src/engine568.cpp:123-133 | a signal's register index is below 6 and maps back to the same signal |
| Signals.IndexColorRoundTrip | src/engine568.cpp:123-133 | register index to colour to register index is the identity on 0..5 |
| CInt.Quot | src/engine568.cpp:315-318 | C++ `/` truncates: the remainder is smaller in magnitude than the divisor and has the dividend's sign |
| CInt.QuotUnique | src/engine568.cpp:315-318 | those remainder conditions determine the quotient uniquely |
| CInt.Rem | src/engine568.cpp:319-322 | C++ `%`: dividend = quotient * divisor + remainder, with the remainder smaller than the divisor and carrying the dividend's sign |
| CInt.BoolToInt | src/engine568.cpp:337-351 | a comparison evaluates to 1 exactly when it holds and to 0 exactly when it fails |
| CInt.LogicalNot | src/engine568.cpp:323-326 | `!a` is 1 exactly when a is 0 and 0 exactly when a is nonzero |
| CInt.ToSizeT | src/engine568.cpp:222 | converting an `int` to `size_t` keeps non-negative values and adds 2^64 to negative ones |
| CInt.LowByte | src/engine568.cpp:353 | the printed `char(lastValue)` is below 256 and congruent to the value modulo 256 |
| Machine.CellIndex | src/engine568.cpp:87-89 | the row-major index of an in-bounds cursor lies inside the image |
| Machine.CellAtRowMajor | src/engine568.cpp:87-104 | every pixel index is the row-major index of exactly one in-bounds cell, whose colour is that pixel and whose signal is its classification |
| Machine.Load | src/engine568.cpp:49-66 | after loading, the state is valid and error-free, the next seed goes to register 1, and all registers are 0 with no array |
| Machine.AssignArray | src/engine568.cpp:139-151 | the register gets integer 0 and views the new contents; registers aliasing its slot see them too; every other register and view is unchanged |
| Machine.PushInt | src/engine568.cpp:68-72 | the next register gets the value and keeps its array pointer, the next-register counter advances, nothing else changes |
| Machine.PushArray | src/engine568.cpp:74-81 | fails exactly when all five operand registers are seeded (the `std::out_of_range` of `registers.at`, :140); otherwise the next register gets integer 0 and views the data, the counter advances, other registers are unchanged |
| Machine.WriteHandle | src/engine568.cpp:370-371 | a write through a live handle reads back the written value; disjoint handles, array pointers and array lengths are unchanged |
| Cursor.MoveUntil | src/engine568.cpp:91-108 | the scan reports no signal exactly when it stops off the grid; otherwise it stops on the signal it reports; only the position changes |
| Cursor.MoveUntilWalksStraight | src/engine568.cpp:92-106 | the scan moves n >= 1 steps in the current direction and every cell it skips is inside the grid and inert |
| Grammar.DirectionOf | src/engine568.cpp:179-185 | blue and magenta name no direction; the other four each name a unit direction |
| Grammar.DirectionSignal | src/engine568.cpp:180-183 | each unit direction has a signal naming it |
| Grammar.DirectionSignalInverts | src/engine568.cpp:180-183 | signal to direction to signal is the identity on the four direction signals |
| Grammar.ParseDir | src/engine568.cpp:174-186 | "out of bounds" exactly when the scan leaves the grid; an invalid direction only on blue or magenta; otherwise the unit direction of the signal found; (0,0) on error |
| Grammar.ParseBranch | src/engine568.cpp:188-195 | always consumes a direction but adopts it only when the last value is nonzero |
| Grammar.ParseVal | src/engine568.cpp:197-245 | only position and error change; off the grid is "out of bounds"; blue at once reads 1 and magenta 0; red reads the register named by the next colour with a register handle; yellow reads the element of the named register's array; an error yields the empty operand; success yields an operand whose handle reads back its value |
| Grammar.ParseValFrom | src/engine568.cpp:201-244 | for any accumulator: blue ends the literal with it; magenta succeeds exactly before any bit and otherwise fails with ZeroEndOnNonzero; red or yellow after a bit fail with RegisterAfterLiteral or ArrayAfterLiteral; success ends on the grid |
| Grammar.ReadElement | src/engine568.cpp:213-224 | "no array" exactly when the register has none; an index error only when the `size_t` index is at least the size; otherwise the element at that index with an element handle |
| Grammar.IndexCheckExact | src/engine568.cpp:222 | for a 32-bit index, the unsigned comparison accepts exactly 0 <= index < size |
| Grammar.ParseHeap | src/engine568.cpp:247-296 | the first colour names the register; a size that fails to parse is wrapped in WhileSizing and a negative size gives NegativeSize, both allocating nothing; success leaves that register with integer 0 owning its own array of exactly the parsed size, changes no other array, and ends on cyan |
| Grammar.Allocate | src/engine568.cpp:259-263 | the register is set to integer 0 pointing at its own slot, which gets exactly `size` elements; other slots are unchanged |
| Grammar.HeapInit | src/engine568.cpp:265-295 | only the cursor and the allocated array change; the length stays fixed and filled elements are kept; a green after the last slot is TooManyElements; cyan ends the block where it stands; other errors are heap errors |
| Grammar.Op1Signal | src/engine568.cpp:302-326 | each tier-1 operator has a signal that the grammar reads back as that operator |
| Grammar.ParseOperator1 | src/engine568.cpp:298-330 | fails, with "out of bounds", exactly when the scan leaves the grid; otherwise it returns the operator of the signal found |
| Grammar.Tier2Of | src/engine568.cpp:338-378 | red, yellow, green and blue defer equality, less-than, greater-than and assignment, each read back by its signal |
| Grammar.ParseOperator2 | src/engine568.cpp:332-407 | off the grid is "out of bounds"; red, yellow, green and blue make their comparison or assignment pending and change no storage; cyan appends `char(lastValue)` and keeps the pending operator; magenta reads a tier-1 operator and makes it a pending compound assignment, or applies logical not at once |
| Operators.Arith | src/engine568.cpp:303-322 | undefined exactly for division or modulo by zero; otherwise the C++ result, with truncating division and matching remainder |
| Operators.ArithAsWritten | src/engine568.cpp:303-322 | as written, `+` and `-` invert each other, `*` is undone by truncating division, and `/` and `%` satisfy the truncating quotient and remainder laws |
| Operators.ApplyPending | src/engine568.cpp:338-401 | comparisons give 0/1; arithmetic fails only on a zero divisor; assignment copies the whole register or stores the value, fails on a literal target and yields the new operand's value; compound assignment stores op(last, new) through the handle; disjoint handles are unchanged |
| Operators.UnaryAsWritten | src/engine568.cpp:386-387 | with a target present, `*lastRef = !lastValue` writes the logical not through the last operand's handle |
| Operators.ApplyUnary | src/engine568.cpp:455-457 | a unary operator with no target is the error UnaryWithoutTarget; otherwise it is the as-written write; the last operand and the pending operator are kept |
| Operators.AssignSharesArray | src/engine568.cpp:358-363 | after a whole-register assignment, a write to an element of the shared array is seen through both registers |
| Interpreter.Start | src/engine568.cpp:409-424 | register 0 holds the number of seeded operands, the cursor is at (-1,0) heading right, the last operand is cleared, nothing else changes |
| Interpreter.ConsumeOperand | src/engine568.cpp:437-450 | the new operand becomes the last operand, or the pending result does; the pending operator is cleared; with an operator pending, the registers, arrays and error are those the operator leaves, so an assignment's or compound assignment's store reaches the run |
| Interpreter.Tier1Statement | src/engine568.cpp:454-461 | a failed operator read is its error; a binary operator becomes the pending `Arith` operator and changes no storage; logical not with no handle is UnaryWithoutTarget, and with a handle writes `!lastValue` through it and keeps the pending operator |
| Interpreter.Dispatch | src/engine568.cpp:427-465 | red adopts the direction and error `parseDir` gives; yellow is exactly `parseBranch`, turning only on a nonzero last value, and changes nothing but the cursor and error; cyan is exactly `parseHeap`, allocation and initialisers included; green clears the pending operator and takes the handle of the operand read; cyan keeps the last operand, pending operator and output; blue keeps the last operand and output; magenta keeps the last operand; every signal except cyan finishes without fuel |
| Interpreter.Loop | src/engine568.cpp:426-468 | the loop stops at once on an error or off the grid; an error-free stop is off the grid |
| Interpreter.Run | src/engine568.cpp:409-469 | a completed run keeps the grid, and ends off the grid unless it ends in an error |
| Interpreter.RunWithoutSignalsHalts | src/engine568.cpp:423-426 | a first row without signals ends the run at once, without error, just past the row |
| Interpreter.DirectionAtEdgeFails | src/engine568.cpp:428-433 | a direction signal with nothing after it before the edge stops the run with "out of bounds" |
| Encoding.Bits | src/engine568.cpp:225-233 | the binary layout of a positive literal uses only the bit signals green and cyan |
| Encoding.AccumulateBits | src/engine568.cpp:225-233 | folding those bits into an accumulator that starts at 1 gives the number back |
| Encoding.ReadsBits | src/engine568.cpp:198-236 | on a row of bits ended by blue, the literal loop stops on the blue cell with the accumulated value and no handle |
| Encoding.SkipsBits | src/engine568.cpp:225-233 | reading bits doubles the accumulator and adds each bit, so a row of bits leaves the literal loop where the bits end with the accumulated value |
| Encoding.BitsThenNonLiteral | src/engine568.cpp:197-245 | after at least one bit, red fails with RegisterAfterLiteral, yellow with ArrayAfterLiteral and magenta with ZeroEndOnNonzero |
| Encoding.LiteralRoundTrip | src/engine568.cpp:197-245 | `parseVal` reads the laid-out encoding of any natural number back as that number, with no handle |
| Encoding.DirectionRoundTrip | src/engine568.cpp:174-186 | `parseDir` reads the signal of any unit direction back as that direction |
| Encoding.InitsRead | src/engine568.cpp:266-290 | the initialiser loop stores a laid-out list of green-prefixed values into consecutive slots, keeps the zeros after them, and ends on cyan, or with TooManyElements on a green after the last slot |
| Encoding.HeapRoundTrip | src/engine568.cpp:247-296 | `parseHeap` on a laid-out block gives exactly `assignArray` of the listed values, with the cursor at the block's end |
| Encoding.HeapPartialRoundTrip | src/engine568.cpp:247-296 | a block of `size` elements listing fewer values leaves the register owning those values followed by zeros up to `size` |
| Encoding.HeapTooManyElements | src/engine568.cpp:278-286 | a green after `size` listed values fails with TooManyElements, the array holding the listed values |
| Programs.RegisterOperand | src/engine568.cpp:205-211 | red then a register colour reads that register's integer with a whole-register handle |
| Programs.RunStarts | src/engine568.cpp:409-426 | the first scan of a run stops on the first cell of a one-row program |
| Programs.DivisionByZero | src/engine568.cpp:315-318 | the program `a / 0` makes C++ divide by zero; in the model it stops with DivideByZero |
| Programs.AssignLiteral | src/engine568.cpp:355-379 | the program "literal v, assign, register j" ends with register j holding v, and the target's former value is the last operand |
| Programs.CopyRegisterRun | src/engine568.cpp:358-363 | "register i, assign, register j" ends with register j holding the whole of register i, the former value of j being the last operand |
| Programs.CopyRegister | src/engine568.cpp:358-363 | after "register i, assign, register j" both registers view the same array |
| Programs.NotWithoutOperand | src/engine568.cpp:454-457 | logical not as the first instruction dereferences a null `lastRef` in C++; in the model it stops with UnaryWithoutTarget |
| Programs.CompoundNotWithoutOperand | src/engine568.cpp:382-387 | the same for compound assignment with logical not |
| ImageUtil.ToU32 | src/image/imageUtil.cpp:40-42 | the `u32` cast keeps 0..2^32-1 and adds 2^32 to negative 32-bit values |
| ImageUtil.ToI32 | src/image/imageUtil.cpp:63-66 | converting `unsigned` to `int` is two's complement: it inverts the `u32` cast and is the identity up to INT_MAX |
| ImageUtil.ChannelsCompose | src/image/imageUtil.cpp:7-21 | the four extracted bytes, weighted by 2^24, 2^16, 2^8 and 1, sum to the pixel |
| ImageUtil.Red | src/image/imageUtil.cpp:7-9 | the red byte b of a pixel p satisfies b * 2^24 <= p < (b + 1) * 2^24 |
| ImageUtil.Gre | src/image/imageUtil.cpp:11-13 | the green byte b satisfies b * 2^16 <= p mod 2^24 < (b + 1) * 2^16 |
| ImageUtil.Blu | src/image/imageUtil.cpp:15-17 | the blue byte b satisfies b * 2^8 <= p mod 2^16 < (b + 1) * 2^8 |
| ImageUtil.Alp | src/image/imageUtil.cpp:19-21 | the alpha byte is p modulo 256 |
| ImageUtil.PackedChannels | src/image/imageUtil.cpp:7-25 | packing four bytes gives a 32-bit value from which each extractor recovers its byte |
| ImageUtil.Pix | src/image/imageUtil.cpp:23-25 | `red`, `gre`, `blu` and `alp` of `pix(r, g, b, a)` are r, g, b and a |
| ImageUtil.PixOfChannels | src/image/imageUtil.cpp:7-25 | repacking a pixel's four channels gives the pixel |
| ImageUtil.ChannelsDetermine | src/image/imageUtil.cpp:7-21 | two pixels with the same four channels are equal |
| ImageUtil.PixOpaque | src/image/imageUtil.cpp:27-29 | the three-argument `pix` keeps the colour channels and has alpha 0xff |
| ImageUtil.PixOpaqueFull | src/image/imageUtil.cpp:23-29 | the three-argument `pix` is the four-argument one with alpha 0xff |
| ImageUtil.Split | src/image/imageUtil.cpp:31-38 | packing the split channels gives the pixel back |
| ImageUtil.SplitPix | src/image/imageUtil.cpp:31-38 | splitting a packed pixel gives its four channels |
| ImageUtil.Pos | src/image/imageUtil.cpp:40-42 | `pos` is y * width + x whenever that fits in 32 bits |
| ImageUtil.PosOfIndex | src/image/imageUtil.cpp:40-42 | every index is the position of its own column and row |
| ImageUtil.PosInjective | src/image/imageUtil.cpp:40-42 | within the width and without wrapping, distinct cells have distinct positions |
| ImageUtil.Difference | src/image/imageUtil.cpp:44-49 | the distance is at most 765 and is 0 exactly when red, green and blue agree |
| ImageUtil.DifferenceTo | src/image/imageUtil.cpp:51-55 | the channel-wise overload's distance is at most 765 |
| ImageUtil.DifferenceSymmetric | src/image/imageUtil.cpp:44-49 | the distance does not depend on the order of the pixels |
| ImageUtil.DifferenceIgnoresAlpha | src/image/imageUtil.cpp:44-49 | changing either alpha leaves the distance unchanged |
| ImageUtil.DifferenceOverloads | src/image/imageUtil.cpp:44-55 | the two overloads agree when given one pixel's channels |
| ImageUtil.Luminance | src/image/imageUtil.cpp:105-107 | the luminance is between 0 and 765 and is 0 exactly for black |
| ImageUtil.LuminanceFromBlack | src/image/imageUtil.cpp:105-107 | the luminance is the distance from black, whatever the alpha |
| ImageUtil.Mod | src/image/imageUtil.cpp:63-69 | for 0 < b <= INT_MAX, `mod(a, b)` is the Euclidean remainder, except that a negative exact multiple of b gives b |
| ImageUtil.RemShift | src/image/imageUtil.cpp:63-66 | C++ `%` by a positive divisor is the Euclidean remainder for a >= 0, and for a < 0 adding the divisor gives the Euclidean remainder, or b on an exact multiple |
| ImageUtil.ModRange | src/image/imageUtil.cpp:63-69 | for 0 < b <= INT_MAX the result lies in [0, b], is below b for a >= 0, and is congruent to a modulo b |
| ImageUtil.ConformToRange | src/image/imageUtil.cpp:80-87 | for low <= high the result lies in [low, high] and is the point of the range nearest to val; it is always val, low or high |
| ImageUtil.ConformIdempotent | src/image/imageUtil.cpp:80-87 | an in-range value is unchanged, and conforming twice is conforming once |
| ImageUtil.Noisy | src/image/imageUtil.cpp:90-92 | a channel plus noise is the sum when that is a byte, 0 below and 0xff above |
| ImageUtil.AddNoiseRgb | src/image/imageUtil.cpp:97-103 | each colour channel gets its own clamped noise and alpha is kept |
| ImageUtil.AddNoise | src/image/imageUtil.cpp:89-95 | every colour channel gets the same clamped noise and alpha is kept |
| ImageUtil.AddNoiseUniform | src/image/imageUtil.cpp:89-103 | the one-amount overload is the three-amount overload with equal amounts |
| ImageUtil.AddNoiseZero | src/image/imageUtil.cpp:89-95 | no noise leaves the pixel unchanged |
| ImageUtil.NoisyBetween | src/image/imageUtil.cpp:90-92 | noise moves a channel in the direction of the amount's sign, by at most the amount |
| ImageUtil.SmallBound | src/image/imageUtil.cpp:113-116 | the result is non-negative, at least x, and is x or 0 |
| ImageUtil.LargeBound | src/image/imageUtil.cpp:118-121 | as written, the result is x or width, and as `unsigned` it is at most width |
| ImageUtil.LargeBoundNegative | src/image/imageUtil.cpp:118-121 | as written, every negative x is replaced by width, for example `largeBound(-1, 10) == 10` |
| ImageUtil.UpperBound | src/image/imageUtil.cpp:118-121 | the intended upper clamp is at most x and at most width, and is one of them |
| ImageUtil.LargeBoundNonNegative | src/image/imageUtil.cpp:118-121 | the as-written and intended bounds agree for every x >= 0 |
| ImageUtil.BoundsClamp | src/image/imageUtil.cpp:113-121 | clamping below by 0 and above by width gives a value in [0, width] that is x whenever x is already there |
| ImageUtil.AtInside | src/image/imageUtil.cpp:183-189 | inside a buffer covering the image, the position does not wrap and indexes the buffer |
| ImageUtil.AtEveryIndex | src/image/imageUtil.cpp:183-189 | every buffer element is what `at` returns for its own column and row |
| ImageUtil.AtOutside | src/image/imageUtil.cpp:183-186 | outside the image, `at` returns the fallback colour whatever the buffer holds |
| ImageUtil.At | src/image/imageUtil.cpp:183-189 | outside the image `at` returns the fallback colour; inside it returns a colour held by the buffer |
| LegacyProgram.GetRegOfPixel | src/Program.java:78-80 | parts 0, 1 and 2 are the red, green and blue bytes of the colour |
| LegacyProgram.GetReg | src/Program.java:78-80 | part 0 is the byte of the colour's bits 16..23, part 1 of bits 8..15, part 2 of bits 0..7 |
| LegacyProgram.GetRegCompose | src/Program.java:78-80 | the three parts rebuild the low 24 bits of the colour |
| LegacyProgram.GetValue | src/Program.java:173-175 | `getValue` lies in [0, 65535], with reg1 as its high byte and reg2 as its low byte |
| LegacyProgram.GetValueInjective | src/Program.java:173-175 | different byte pairs give different values |
| LegacyProgram.GetValueOnto | src/Program.java:173-175 | every variable address is the value of some byte pair |
| LegacyProgram.ParseDirection | src/Program.java:82-95 | a parsed direction has the given code; an exception means that no direction has it |
| LegacyProgram.ParseDirectionCode | src/Program.java:82-95 | each direction's code parses back to that direction |
| LegacyProgram.ParseOperator | src/Program.java:97-118 | a parsed operator has the given code; an exception means that no operator has it |
| LegacyProgram.ParseOperatorCode | src/Program.java:97-118 | each operator's code parses back to that operator |
| LegacyProgram.OperatorCodes | src/Program.java:97-118 | exactly the multiples of 10 from 0 to 70 are operator codes |
| LegacyProgram.FindEntry | src/Program.java:120-139 | returns the first entry pixel in row-major order with its input count and direction; "no entry point" exactly when there is none; otherwise the first entry's direction code is bad |
| LegacyProgram.Initial | src/Program.java:177-193 | the run starts consistent, running and in search mode, at the entry position and direction, with counter 0, operator NONE, type VOID, no address, value 0, no outputs and all 65536 variables zero |
| LegacyProgram.Operate | src/Program.java:284-307 | the operator is reset; only assignment writes variables, and it succeeds exactly for INT to an INT variable with a valid address, writing that address; AND only checks the types; OR and the four arithmetic operators always succeed and only reset the operator |
| LegacyProgram.OperateOnce | src/Program.java:284-307 | after a successful operate, operating again changes nothing |
| LegacyProgram.AssignmentWritesOne | src/Program.java:288-292 | assignment changes only the variable at the current address |
| LegacyProgram.Load | src/Program.java:317-321 | loading an operand succeeds exactly when operating on it does, failing with operate's exception; on success the state is the input with operator NONE, the assignment's store (if one was pending) and the operand as current value, nothing else changed |
| LegacyProgram.SearchMode | src/Program.java:310-349 | terminate enters terminating mode with counter 0 and reg1 zeroed outputs; literals and variables become the current INT operand, a pending assignment stores that operand into the current variable, the heading is kept, and a variable address past the store throws; operators are parsed from reg1; a direction pixel turns to the direction reg2 names or throws; any other type code, the entry pixel's included, is skipped; position and outputs are otherwise kept |
| LegacyProgram.TerminatingMode | src/Program.java:351-362 | only literals act: each stores the next output and stops the run when the outputs are full; it fails exactly when there is no room left |
| LegacyProgram.Step | src/Program.java:195-234 | a step moves exactly one cell in the current direction and fails with "out of bounds" exactly when it leaves the grid; on the grid a direction pixel turns in either mode, and any other pixel runs `searchMode` or `terminatingMode` by mode |
| LegacyProgram.StepConsistent | src/Program.java:195-234 | a successful step keeps the run state consistent |
| LegacyProgram.OnlyEmptyOutputsOverflow | src/Program.java:343-358 | an index error can only come from a terminating run whose outputs array is empty |
| LegacyProgram.Run | src/Program.java:195-237 | from a consistent state, a run that ends without an exception has stopped in terminating mode with every output filled, and there is at least one output |
| LegacyProgram.StepKeepsConsistent | src/Program.java:195-234 | a successful step from a consistent running state leaves a consistent state |
| LegacyProgram.RunFrom | src/Program.java:177-238 | a run that returns outputs returns a non-empty array |
| LegacyProgram.TerminateThenLiteralRuns | src/Program.java:177-238 | an entry pixel heading right, a terminate pixel asking for one output and a literal: the run returns exactly that literal's value |

## Left out

- Integer width in the engine: registers, literals and arithmetic use unbounded integers. C++ signed overflow is undefined behaviour, and the model does not wrap. Literals in particular grow without bound.
- Interpreter.Run: the fuel bound makes a run that does not finish within `fuel` steps come back as `OutOfFuel`. Cycling programs are not characterised further.
- Grammar.HeapInit: the initialiser loop is bounded by the same kind of fuel.
- `std::cout << char(lastValue)` (src/engine568.cpp:353) appends to an `output` sequence in the state. The stream itself is I/O.
- Error text: `makeErr`, `colorName`, `directionName` and the message strings (src/engine568.cpp:110-121, 159-172) are not modelled. Errors are the `Error` datatype, and wrapped errors keep their context as constructor fields.
- The RGBA-to-RGB byte conversion in `load` (src/engine568.cpp:55-56) is not modelled. `Machine.Load` takes the already decoded colours.
- `getInt`, `getArray`, `getError`, `getX` and `getY` (src/engine568.cpp:471-489) are plain field reads of the state. They have no separate members.
- The header declares an `op` member and a `colorName` that returns `std::string`, and neither matches the .cpp. The model follows the .cpp.
- An element handle that outlives a reallocation of its array (a dangling `int *` in C++) is not modelled. A write through an element handle whose index is no longer inside its arena slot does nothing in the model.
- The float helpers of imageUtil (`mix`, `interp`, `sample::nearest`, `sample::bilinear`) are floating point.
- The buffer plumbing of imageUtil (`swapBuffers`, `matchSize`, `mode`, `copy`) works on `Image` objects and raw pointers.
- ImageUtil.Pix: `red << 24` on a promoted `u8` of 128 or more shifts into the sign bit of `int`, which older C++ standards leave undefined. The model gives the two's complement result that the `u32` cast produces.
- Machine.PushInt: requires a free operand register, so at most five operands can be seeded. A sixth `pushInt` writes `registers[6]`, one past the vector (src/engine568.cpp:68-72), which is undefined behaviour in C++.
- ImageUtil.Mod: proved only for 0 < b <= INT_MAX. For larger b, `(int)b` is negative and `INT_MIN % -1` is undefined.
- ImageUtil.Noisy: requires the `int` sum of channel and amount not to pass INT_MAX, because C++ signed overflow is undefined. AddNoise, AddNoiseRgb, AddNoiseUniform and NoisyBetween carry the same requirement.
- ImageUtil.ModRange: also proved only for 0 < b <= INT_MAX.
- `src/image/image.cpp` (PNG decoding and encoding, file I/O) is not part of this model.
- The drivers `src/main.cpp` and `src/Language.java` are not part of this model.
- The `Program` constructor (src/Program.java:66-76) reads the image with ImageIO. The model takes the grid as given.
- The nested `Operate` class of `Program.java` (src/Program.java:246-282) is never called by the interpreter.
- The entry pixel's `inputs` array (src/Program.java:129) is allocated but never read. The model records only its length.
- LegacyProgram.Run: `info.outputs` is `null` until a TERMINATE pixel is read, and the model uses the empty sequence. A run without TERMINATE that would end the Java loop on `null` cannot occur, because the loop only stops in terminating mode.
- Java `int` overflow does not arise in the modelled operations. Operands are bytes, `getValue` is below 65536, and the cursor stays inside the grid.

## Findings

| source | as written | input that shows it | evidently intended | confidence | as-written member | corrected member |
|---|---|---|---|---|---|---|
| src/engine568.cpp:315-322 | the `/` and `%` lambdas divide by the new operand unchecked | the program "literal a, `/`, literal 0": green, the encoding of a, blue, cyan, green, magenta | stop with a "division by zero" error | high, not executed | Operators.ArithAsWritten, exhibited by Programs.DivisionByZero | Operators.Arith |
| src/engine568.cpp:386-387 and 455-457 | a unary operator writes through `*lastRef` without checking it for null | the program blue, magenta (logical not as the first instruction), or magenta, magenta, magenta | stop with an error naming the missing target | high, not executed | Operators.UnaryAsWritten, exhibited by Programs.NotWithoutOperand and Programs.CompoundNotWithoutOperand | Operators.ApplyUnary |
| src/image/imageUtil.cpp:118-121 | `x > width` converts a negative `x` to `unsigned`, so every negative `x` is replaced by `width` | `largeBound(-1, 10)` returns 10 | return -1, as an upper clamp that leaves values at or below `width` alone | low, not executed | ImageUtil.LargeBound, exhibited by ImageUtil.LargeBoundNegative | ImageUtil.UpperBound |

=== FILE: base.dfy ===
/** Small shared wrappers used throughout the model. */
module Base {

  /** An optional value; stands in for the source's null pointers and "not found" answers. */
  datatype Option<+T> = None | Some(value: T)

  /** The result of a computation that may run out of its step budget before it halts. */
  datatype Fuelled<+T> = Done(result: T) | OutOfFuel
}

=== FILE: cint.dfy ===
/**
 * Integer operators with C/C++ semantics.  Dafny's `/` and `%` are Euclidean;
 * C truncates the quotient toward zero and gives the remainder the sign of the dividend.
 */
module CInt {

  function Abs(a: int): nat
  {
    if a < 0 then -a else a
  }

  /** C's `a / b`: the quotient truncated toward zero. */
  function Quot(a: int, b: int): (q: int)
    requires b != 0
    ensures Abs(a - q * b) < Abs(b)
    ensures a >= 0 ==> a - q * b >= 0
    ensures a <= 0 ==> a - q * b <= 0
  {
    var m := Abs(a) / Abs(b);
    TruncRemainder(a, b, m);
    if (a >= 0) == (b > 0) then m else -m
  }

  /** The quotient of the magnitudes, given the sign C++ gives `/` since C++11, leaves
      a remainder below the divisor in magnitude and with the sign of the dividend. */
  lemma TruncRemainder(a: int, b: int, m: int)
    requires b != 0 && m == Abs(a) / Abs(b)
    ensures var q := if (a >= 0) == (b > 0) then m else -m;
      && Abs(a - q * b) < Abs(b)
      && (a >= 0 ==> a - q * b >= 0)
      && (a <= 0 ==> a - q * b <= 0)
  {
    var n, d := Abs(a), Abs(b);
    DivBounds(n, d);
    var r := n - m * d;
    var q := if (a >= 0) == (b > 0) then m else -m;
    if a >= 0 && b > 0 {
      assert a - q * b == r;
    } else if a >= 0 {
      assert q * b == m * d;
      assert a - q * b == r;
    } else if b > 0 {
      assert q * b == -(m * d);
      assert a - q * b == -r;
    } else {
      assert q * b == -(m * d);
      assert a - q * b == -r;
    }
  }

  /** Euclidean division of naturals leaves a remainder below the divisor. */
  lemma DivBounds(n: nat, d: nat)
    requires d > 0
    ensures 0 <= n - (n / d) * d < d
  {
  }

  /** C's `a % b`: what is left after subtracting the truncated quotient. */
  function Rem(a: int, b: int): (r: int)
    requires b != 0
    ensures a == Quot(a, b) * b + r
    ensures Abs(r) < Abs(b)
    ensures a >= 0 ==> 0 <= r
    ensures a <= 0 ==> r <= 0
  {
    a - Quot(a, b) * b
  }

  /** A positive multiple of `b` lies beyond `b`, on the side of `b`. */
  lemma {:induction false} PositiveMultiple(d: int, b: int)
    requires d > 0
    ensures b >= 0 ==> d * b >= b
    ensures b < 0 ==> d * b <= b
    decreases d
  {
    if d > 1 {
      PositiveMultiple(d - 1, b);
      assert d * b == (d - 1) * b + b;
    }
  }

  /** A nonzero multiple of `b` is at least as large as `b`. */
  lemma MultipleAtLeast(d: int, b: int)
    requires d != 0
    ensures Abs(d * b) >= Abs(b)
  {
    if d > 0 {
      PositiveMultiple(d, b);
    } else {
      PositiveMultiple(-d, b);
      assert d * b == -((-d) * b);
    }
  }

  /** Truncated division is the only one whose remainder is smaller than the divisor
      and carries the sign of the dividend. */
  lemma QuotUnique(a: int, b: int, q: int)
    requires b != 0
    requires Abs(a - q * b) < Abs(b)
    requires a >= 0 ==> a - q * b >= 0
    requires a <= 0 ==> a - q * b <= 0
    ensures q == Quot(a, b)
  {
    var q0 := Quot(a, b);
    if q != q0 {
      assert (a - q0 * b) - (a - q * b) == (q - q0) * b;
      MultipleAtLeast(q - q0, b);
    }
  }

  /** C's conversion of a comparison result (`bool`) to `int`. */
  function BoolToInt(b: bool): (r: int)
    ensures r == 1 <==> b
    ensures r == 0 <==> !b
  {
    if b then 1 else 0
  }

  /** C's logical not `!a` on an `int`. */
  function LogicalNot(a: int): (r: int)
    ensures r == 1 <==> a == 0
    ensures r == 0 <==> a != 0
  {
    if a == 0 then 1 else 0
  }

  const SIZE_T_MODULUS: int := 0x1_0000_0000_0000_0000

  /** C++'s implicit conversion of an `int` to the 64-bit unsigned `size_t`. */
  function ToSizeT(i: int): (u: nat)
    ensures u < SIZE_T_MODULUS
    ensures 0 <= i < SIZE_T_MODULUS ==> u == i
    ensures -SIZE_T_MODULUS <= i < 0 ==> u == i + SIZE_T_MODULUS
  {
    i % SIZE_T_MODULUS
  }

  /** The value of one byte when an `int` is narrowed to `char` (its low eight bits). */
  function LowByte(i: int): (b: nat)
    ensures b < 256
    ensures (i - b) % 256 == 0
  {
    i % 256
  }
}

=== FILE: cursor.dfy ===
/**
 * The cursor scan `moveUntil`: step along (dx, dy) over inert cells until a signal
 * colour is under the cursor or the cursor has left the grid.
 */
module Cursor {
  import opened Base
  import opened CInt
  import opened Signals
  import opened Machine

  /** The number of in-bounds cells on the ray from (x, y) in direction (dx, dy),
      counting (x, y) itself; 0 when (x, y) is outside the grid. */
  function Room(g: Grid, x: int, y: int, dx: int, dy: int): nat
  {
    if !InBounds(g, x, y) then 0
    else if dx == 1 then g.width - x
    else if dx == -1 then x + 1
    else if dy == 1 then g.height - y
    else if dy == -1 then y + 1
    else 0
  }

  /** Moving one cell along a unit direction leaves strictly less room. */
  lemma RoomShrinks(g: Grid, x: int, y: int, dx: int, dy: int)
    requires UnitDir(dx, dy) && InBounds(g, x, y)
    ensures Room(g, x + dx, y + dy, dx, dy) < Room(g, x, y, dx, dy)
  {
  }

  /** The cursor moved by one step. */
  function Advance(s: State): State
  {
    s.(x := s.x + s.dx, y := s.y + s.dy)
  }

  /** The cell `k` steps ahead of the cursor (the direction is a unit step, so this is
      `(x + k*dx, y + k*dy)`). */
  function Ahead(s: State, k: int): (int, int)
  {
    if s.dx == 1 then (s.x + k, s.y)
    else if s.dx == -1 then (s.x - k, s.y)
    else if s.dy == 1 then (s.x, s.y + k)
    else if s.dy == -1 then (s.x, s.y - k)
    else (s.x, s.y)
  }

  /** The `k`-th cell ahead of the cursor is inside the grid and inert. */
  predicate InertAhead(s: State, k: int)
    requires ValidGrid(s.grid)
  {
    var (x, y) := Ahead(s, k);
    InBounds(s.grid, x, y) && SignalAt(s.grid, x, y).None?
  }

  /** Looking `k` cells ahead of the advanced cursor is looking `k + 1` ahead of the original. */
  lemma InertAheadShift(s: State)
    requires ValidGrid(s.grid) && UnitDir(s.dx, s.dy)
    ensures forall k :: 2 <= k ==> (InertAhead(s, k) <==> InertAhead(Advance(s), k - 1))
  {
    forall k | 2 <= k
      ensures InertAhead(s, k) <==> InertAhead(Advance(s), k - 1)
    {
      assert Ahead(s, k) == Ahead(Advance(s), k - 1);
    }
  }

  /** The outcome of a scan: the moved state and the signal found, `None` when the cursor left the grid. */
  datatype Scan = Scan(st: State, signal: Option<Signal>)

  /** Number of cells between two cursor positions. */
  function Steps(s: State, t: State): nat
  {
    Abs(t.x - s.x) + Abs(t.y - s.y)
  }

  /** `moveUntil`: reports `None` exactly when the stepped cursor is outside the grid;
      otherwise the cell under it carries the reported signal.  Only the position
      changes, and room ahead strictly shrinks. */
  function MoveUntil(s: State): (r: Scan)
    requires Heading(s)
    ensures r.st == s.(x := r.st.x, y := r.st.y)
    ensures r.signal.None? <==> OffGrid(r.st)
    ensures r.signal.Some? ==> SignalAt(r.st.grid, r.st.x, r.st.y) == r.signal
    ensures r.signal.Some? ==>
      Room(s.grid, r.st.x + s.dx, r.st.y + s.dy, s.dx, s.dy) < Room(s.grid, s.x + s.dx, s.y + s.dy, s.dx, s.dy)
    decreases Room(s.grid, s.x + s.dx, s.y + s.dy, s.dx, s.dy)
  {
    var s1 := Advance(s);
    if OffGrid(s1) then
      Scan(s1, None)
    else
      var c := SignalAt(s1.grid, s1.x, s1.y);
      RoomShrinks(s.grid, s1.x, s1.y, s.dx, s.dy);
      if c.Some? then Scan(s1, c) else MoveUntil(s1)
  }

  /** Looking `n` cells ahead of the advanced cursor is looking `n + 1` ahead of the original. */
  lemma AheadShift(s: State, n: int)
    requires UnitDir(s.dx, s.dy)
    ensures Ahead(Advance(s), n) == Ahead(s, n + 1)
  {
  }

  /** A cursor position `n >= 0` cells ahead lies `n` steps away. */
  lemma StepsAhead(s: State, t: State, n: int)
    requires UnitDir(s.dx, s.dy) && n >= 0 && (t.x, t.y) == Ahead(s, n)
    ensures Steps(s, t) == n
  {
  }

  /** The scan walks straight: it stops `n >= 1` cells ahead, and every cell it passed
      over was inside the grid and inert. */
  lemma {:induction false} MoveUntilWalksStraight(s: State)
    requires Heading(s)
    ensures var r := MoveUntil(s); var n := Steps(s, r.st);
      && n >= 1
      && (r.st.x, r.st.y) == Ahead(s, n)
      && forall k :: 1 <= k < n ==> InertAhead(s, k)
    decreases Room(s.grid, s.x + s.dx, s.y + s.dy, s.dx, s.dy)
  {
    var s1 := Advance(s);
    var r := MoveUntil(s);
    AheadShift(s, 0);
    if OffGrid(s1) || SignalAt(s1.grid, s1.x, s1.y).Some? {
      assert r.st == s1;
      StepsAhead(s, r.st, 1);
    } else {
      RoomShrinks(s.grid, s1.x, s1.y, s.dx, s.dy);
      assert r == MoveUntil(s1);
      MoveUntilWalksStraight(s1);
      var n1 := Steps(s1, r.st);
      AheadShift(s, n1);
      StepsAhead(s, r.st, n1 + 1);
      assert InertAhead(s, 1);
      InertAheadShift(s);
    }
  }
}

=== FILE: encoding.dfy ===
/**
 * Encoders for the pixel language, the inverse of the grammars: colour strips that
 * spell a literal, a direction or an allocation block, laid out left to right, and
 * the proofs that the parsers read each strip back as the value it encodes.
 */
module Encoding {
  import opened Base
  import opened Signals
  import opened Machine
  import opened Cursor
  import opened Grammar

  /** The bits of `v >= 1` after its leading 1, most significant first: green for 1, cyan for 0. */
  function Bits(v: nat): (bits: seq<Signal>)
    requires v >= 1
    ensures forall k :: 0 <= k < |bits| ==> IsBit(bits[k])
    decreases v
  {
    if v == 1 then [] else Bits(v / 2) + [if v % 2 == 1 then Green else Cyan]
  }

  predicate IsBit(c: Signal)
  {
    c == Green || c == Cyan
  }

  function BitValue(c: Signal): int
  {
    if c == Green then 1 else 0
  }

  /** A literal operand: `magenta` for 0, otherwise the bits after the leading 1 and `blue`. */
  function EncodeLiteral(v: nat): seq<Signal>
  {
    if v == 0 then [Magenta] else Bits(v) + [Blue]
  }

  /** The literal accumulator after shifting in `bits` (green: `acc*2+1`, cyan: `acc*2`). */
  function Accumulate(acc: int, bits: seq<Signal>): int
    decreases |bits|
  {
    if bits == [] then acc else Accumulate(acc * 2 + BitValue(bits[0]), bits[1..])
  }

  lemma {:induction false} AccumulateSnoc(acc: int, bits: seq<Signal>, b: Signal)
    ensures Accumulate(acc, bits + [b]) == 2 * Accumulate(acc, bits) + BitValue(b)
    decreases |bits|
  {
    if bits == [] {
      assert Accumulate(acc * 2 + BitValue(b), []) == acc * 2 + BitValue(b);
    } else {
      assert (bits + [b])[1..] == bits[1..] + [b];
      AccumulateSnoc(acc * 2 + BitValue(bits[0]), bits[1..], b);
    }
  }

  /** Starting from the leading 1, the bits of `v` accumulate back to `v`. */
  lemma {:induction false} AccumulateBits(v: nat)
    requires v >= 1
    ensures Accumulate(1, Bits(v)) == v
    decreases v
  {
    if v > 1 {
      AccumulateBits(v / 2);
      AccumulateSnoc(1, Bits(v / 2), if v % 2 == 1 then Green else Cyan);
    }
  }

  /** Cell `k` of a strip laid out from column `x` of row `y` holds the strip's `k`th signal. */
  predicate CellHolds(g: Grid, x: int, y: int, code: seq<Signal>, k: int)
    requires ValidGrid(g)
  {
    0 <= k < |code| ==> InBounds(g, x + k, y) && SignalAt(g, x + k, y) == Some(code[k])
  }

  /** `code` is laid out in row `y` from column `x` rightward, one signal per cell. */
  ghost predicate Laid(g: Grid, x: int, y: int, code: seq<Signal>)
    requires ValidGrid(g)
  {
    forall k :: CellHolds(g, x, y, code, k)
  }

  /** The first cell of a laid-out strip, and the rest of the strip after it. */
  lemma LaidHead(g: Grid, x: int, y: int, code: seq<Signal>)
    requires ValidGrid(g) && Laid(g, x, y, code) && code != []
    ensures InBounds(g, x, y) && SignalAt(g, x, y) == Some(code[0])
    ensures Laid(g, x + 1, y, code[1..])
  {
    assert CellHolds(g, x, y, code, 0);
    var x1, rest := x + 1, code[1..];
    forall k
      ensures CellHolds(g, x1, y, rest, k)
    {
      assert CellHolds(g, x, y, code, k + 1);
    }
  }

  /** A laid-out concatenation has its two halves laid out one after the other... */
  lemma LaidParts(g: Grid, x: int, y: int, a: seq<Signal>, b: seq<Signal>)
    requires ValidGrid(g) && Laid(g, x, y, a + b)
    ensures Laid(g, x, y, a) && Laid(g, x + |a|, y, b)
  {
    forall k
      ensures CellHolds(g, x, y, a, k)
    {
      assert CellHolds(g, x, y, a + b, k);
      if 0 <= k < |a| {
        assert (a + b)[k] == a[k];
      }
    }
    var xb := x + |a|;
    forall k
      ensures CellHolds(g, xb, y, b, k)
    {
      assert CellHolds(g, x, y, a + b, |a| + k);
      if 0 <= k < |b| {
        assert (a + b)[|a| + k] == b[k];
      }
    }
  }

  /** ...and two halves laid out one after the other are their concatenation laid out. */
  lemma LaidJoin(g: Grid, x: int, y: int, a: seq<Signal>, b: seq<Signal>)
    requires ValidGrid(g) && Laid(g, x, y, a) && Laid(g, x + |a|, y, b)
    ensures Laid(g, x, y, a + b)
  {
    forall k
      ensures CellHolds(g, x, y, a + b, k)
    {
      if 0 <= k < |a| {
        assert CellHolds(g, x, y, a, k);
        assert (a + b)[k] == a[k];
      } else if |a| <= k < |a + b| {
        assert CellHolds(g, x + |a|, y, b, k - |a|);
        assert (a + b)[k] == b[k - |a|];
      }
    }
  }

  /** A scan heading right onto a signal cell stops there after one step. */
  lemma ScanOnto(s: State, c: Signal)
    requires Heading(s) && s.dx == 1 && s.dy == 0
    requires InBounds(s.grid, s.x + 1, s.y) && SignalAt(s.grid, s.x + 1, s.y) == Some(c)
    ensures MoveUntil(s) == Scan(s.(x := s.x + 1), Some(c))
  {
  }

  /** A scan heading right onto the first cell of a laid-out strip stops there. */
  lemma ScanNext(s: State, code: seq<Signal>)
    requires Heading(s) && s.dx == 1 && s.dy == 0
    requires Laid(s.grid, s.x + 1, s.y, code) && code != []
    ensures MoveUntil(s) == Scan(s.(x := s.x + 1), Some(code[0]))
  {
    LaidHead(s.grid, s.x + 1, s.y, code);
    ScanOnto(s, code[0]);
  }

  /** A bit cell under the scan doubles the accumulator and adds the bit. */
  lemma BitStep(s: State, acc: int, b: Signal, s1: State, acc1: int)
    requires Ready(s) && s.dx == 1 && s.dy == 0 && acc >= 1 && IsBit(b)
    requires InBounds(s.grid, s.x + 1, s.y) && SignalAt(s.grid, s.x + 1, s.y) == Some(b)
    requires s1 == s.(x := s.x + 1) && acc1 == acc * 2 + BitValue(b)
    ensures ParseValFrom(s, acc) == ParseValFrom(s1, acc1)
  {
    ScanOnto(s, b);
    assert MoveUntil(s).signal == Some(b) && MoveUntil(s).st == s1;
  }

  /** One bit read, then the rest of the literal read by the induction hypothesis. */
  lemma BitsCons(s: State, acc: int, bits: seq<Signal>)
    requires Ready(s) && s.dx == 1 && s.dy == 0 && acc >= 1 && bits != [] && IsBit(bits[0])
    requires InBounds(s.grid, s.x + 1, s.y) && SignalAt(s.grid, s.x + 1, s.y) == Some(bits[0])
    requires ParseValFrom(s.(x := s.x + 1), acc * 2 + BitValue(bits[0])) ==
      ValStep(s.(x := s.x + 1).(x := s.x + 1 + |bits[1..]| + 1),
              Operand(Accumulate(acc * 2 + BitValue(bits[0]), bits[1..]), NoHandle))
    ensures ParseValFrom(s, acc) == ValStep(s.(x := s.x + |bits| + 1), Operand(Accumulate(acc, bits), NoHandle))
  {
    BitStep(s, acc, bits[0], s.(x := s.x + 1), acc * 2 + BitValue(bits[0]));
    assert s.(x := s.x + 1).(x := s.x + 1 + |bits[1..]| + 1) == s.(x := s.x + |bits| + 1);
  }

  /** Reading green/cyan bits and then `blue` yields the accumulated literal, with no handle. */
  lemma {:induction false} ReadsBits(s: State, acc: int, bits: seq<Signal>)
    requires Ready(s) && s.dx == 1 && s.dy == 0 && acc >= 1
    requires forall k :: 0 <= k < |bits| ==> IsBit(bits[k])
    requires Laid(s.grid, s.x + 1, s.y, bits + [Blue])
    ensures ParseValFrom(s, acc) == ValStep(s.(x := s.x + |bits| + 1), Operand(Accumulate(acc, bits), NoHandle))
    decreases |bits|
  {
    var code := bits + [Blue];
    assert code[0] == if bits == [] then Blue else bits[0];
    LaidHead(s.grid, s.x + 1, s.y, code);
    if bits == [] {
      ScanOnto(s, Blue);
    } else {
      assert code[1..] == bits[1..] + [Blue];
      assert IsBit(bits[0]);
      ReadsBits(s.(x := s.x + 1), acc * 2 + BitValue(bits[0]), bits[1..]);
      BitsCons(s, acc, bits);
    }
  }

  /** One bit read, then the rest of the bits skipped by the induction hypothesis. */
  lemma SkipsCons(s: State, acc: int, bits: seq<Signal>, acc1: int, s1: State, bits1: seq<Signal>, rest: State)
    requires Ready(s) && s.dx == 1 && s.dy == 0 && acc >= 1 && bits != [] && IsBit(bits[0])
    requires InBounds(s.grid, s.x + 1, s.y) && SignalAt(s.grid, s.x + 1, s.y) == Some(bits[0])
    requires acc1 == acc * 2 + BitValue(bits[0]) && s1 == s.(x := s.x + 1) && bits1 == bits[1..]
    requires rest == s.(x := s.x + |bits|) && Accumulate(acc1, bits1) >= acc1
    requires ParseValFrom(s1, acc1) == ParseValFrom(rest, Accumulate(acc1, bits1))
    ensures Accumulate(acc, bits) >= acc
    ensures ParseValFrom(s, acc) == ParseValFrom(rest, Accumulate(acc, bits))
  {
    AccumulateCons(acc, bits);
    BitStep(s, acc, bits[0], s1, acc1);
  }

  /** Folding a nonempty strip is folding its tail from the first bit's accumulator. */
  lemma AccumulateCons(acc: int, bits: seq<Signal>)
    requires bits != []
    ensures Accumulate(acc, bits) == Accumulate(acc * 2 + BitValue(bits[0]), bits[1..])
  {
  }

  /** Reading green/cyan bits moves the cursor past them and folds them into the
      accumulator; what follows the bits is then read with that accumulator. */
  lemma {:induction false} SkipsBits(s: State, acc: int, bits: seq<Signal>, rest: State)
    requires Ready(s) && s.dx == 1 && s.dy == 0 && acc >= 1
    requires forall k :: 0 <= k < |bits| ==> IsBit(bits[k])
    requires Laid(s.grid, s.x + 1, s.y, bits)
    requires rest == s.(x := s.x + |bits|)
    ensures Accumulate(acc, bits) >= acc
    ensures ParseValFrom(s, acc) == ParseValFrom(rest, Accumulate(acc, bits))
    decreases |bits|
  {
    if bits == [] {
      assert rest == s;
    } else {
      LaidHead(s.grid, s.x + 1, s.y, bits);
      var s1, acc1, bits1 := s.(x := s.x + 1), acc * 2 + BitValue(bits[0]), bits[1..];
      assert IsBit(bits[0]);
      assert rest == s1.(x := s1.x + |bits1|);
      SkipsBits(s1, acc1, bits1, rest);
      SkipsCons(s, acc, bits, acc1, s1, bits1, rest);
    }
  }

  /** The error a literal's bits followed by `c` end with: a register read, an array read
      or the zero end after at least one bit. */
  function AfterBitsError(c: Signal): Error
  {
    if c == Red then RegisterAfterLiteral
    else if c == Yellow then ArrayAfterLiteral
    else ZeroEndOnNonzero
  }

  /** Once a bit has been read, red, yellow and magenta are rejected: the bits of any
      `v >= 2` followed by one of them fail with the matching error. */
  lemma BitsThenNonLiteral(s: State, v: nat, c: Signal)
    requires Ready(s) && s.dx == 1 && s.dy == 0 && v >= 2
    requires c == Red || c == Yellow || c == Magenta
    requires Laid(s.grid, s.x + 1, s.y, Bits(v) + [c])
    ensures ParseVal(s).st.error == Some(AfterBitsError(c))
  {
    BitsThenSplit(s.grid, s.x + 1, s.y, Bits(v), c);
    var s1 := s.(x := s.x + |Bits(v)|);
    BitsRead(s, v, Bits(v), s1);
    NonLiteralEnd(s1, v, c);
  }

  /** The bits of `v` read from the start of a literal leave `v` in the accumulator. */
  lemma BitsRead(s: State, v: nat, bits: seq<Signal>, s1: State)
    requires Ready(s) && s.dx == 1 && s.dy == 0 && v >= 1 && bits == Bits(v)
    requires Laid(s.grid, s.x + 1, s.y, bits)
    requires s1 == s.(x := s.x + |bits|)
    ensures ParseValFrom(s, 1) == ParseValFrom(s1, v)
  {
    SkipsBits(s, 1, bits, s1);
    AccumulateBits(v);
  }

  /** A strip of bits and one more signal: the bits laid out, then that signal's cell. */
  lemma BitsThenSplit(g: Grid, x: int, y: int, bits: seq<Signal>, c: Signal)
    requires ValidGrid(g) && Laid(g, x, y, bits + [c])
    ensures Laid(g, x, y, bits)
    ensures InBounds(g, x + |bits|, y) && SignalAt(g, x + |bits|, y) == Some(c)
  {
    LaidParts(g, x, y, bits, [c]);
    LaidHead(g, x + |bits|, y, [c]);
  }

  /** With a bit already read, a red, yellow or magenta cell next fails the literal. */
  lemma NonLiteralEnd(s: State, acc: int, c: Signal)
    requires Ready(s) && s.dx == 1 && s.dy == 0 && acc >= 2
    requires c == Red || c == Yellow || c == Magenta
    requires InBounds(s.grid, s.x + 1, s.y) && SignalAt(s.grid, s.x + 1, s.y) == Some(c)
    ensures ParseValFrom(s, acc).st.error == Some(AfterBitsError(c))
  {
    ScanOnto(s, c);
  }

  /** Literal round trip: the operand parser reads `EncodeLiteral(v)` back as `v`, leaves
      the cursor on its last cell, and changes nothing else. */
  lemma LiteralRoundTrip(s: State, v: nat)
    requires Ready(s) && s.dx == 1 && s.dy == 0
    requires Laid(s.grid, s.x + 1, s.y, EncodeLiteral(v))
    ensures ParseVal(s) == ValStep(s.(x := s.x + |EncodeLiteral(v)|), Operand(v, NoHandle))
  {
    if v == 0 {
      LaidHead(s.grid, s.x + 1, s.y, [Magenta]);
      ScanOnto(s, Magenta);
    } else {
      ReadsBits(s, 1, Bits(v));
      AccumulateBits(v);
    }
  }

  /** Direction round trip: the direction parser reads a direction's signal back as it. */
  lemma DirectionRoundTrip(s: State, dx: int, dy: int)
    requires Ready(s) && s.dx == 1 && s.dy == 0 && UnitDir(dx, dy)
    requires Laid(s.grid, s.x + 1, s.y, [DirectionSignal(dx, dy)])
    ensures ParseDir(s) == DirStep(s.(x := s.x + 1), dx, dy)
  {
    LaidHead(s.grid, s.x + 1, s.y, [DirectionSignal(dx, dy)]);
    ScanOnto(s, DirectionSignal(dx, dy));
  }

  /** The initialisers of an allocation block: `green` and a literal per element. */
  function EncodeInits(values: seq<nat>): seq<Signal>
    decreases |values|
  {
    if values == [] then [] else [Green] + EncodeLiteral(values[0]) + EncodeInits(values[1..])
  }

  /** An allocation block after its leading `cyan`, up to its closing signal: the
      register's signal, the length `size` as a literal, and the initialisers. */
  function EncodeBlock(reg: RegIndex, size: nat, values: seq<nat>): seq<Signal>
  {
    [IndexColor(reg)] + EncodeLiteral(size) + EncodeInits(values)
  }

  /** A block listing every one of its elements, closed by `cyan`. */
  function EncodeHeap(reg: RegIndex, values: seq<nat>): seq<Signal>
  {
    EncodeBlock(reg, |values|, values) + [Cyan]
  }

  lemma FillNext(prefix: seq<int>, v: int, m: nat)
    ensures (prefix + Zeros(m + 1))[|prefix| := v] == (prefix + [v]) + Zeros(m)
  {
    assert Zeros(m + 1) == [0] + Zeros(m);
  }

  lemma ShiftFirst(prefix: seq<int>, rest: seq<nat>)
    requires rest != []
    ensures (prefix + [rest[0]]) + rest[1..] == prefix + rest
  {
    assert rest == [rest[0]] + rest[1..];
  }

  /** One `green` step of the initialiser loop: the parsed element is stored in the next slot. */
  lemma InitGreenStep(s: State, reg: RegIndex, size: nat, element: nat, fuel: nat, s1: State, w: ValStep)
    requires Ready(s) && element < size && |s.arrays[reg]| == size && fuel > 0
    requires MoveUntil(s) == Scan(s1, Some(Green))
    requires ParseVal(s1) == w && w.st.error.None?
    ensures HeapInit(s, reg, size, element, fuel) ==
      HeapInit(w.st.(arrays := w.st.arrays[reg := w.st.arrays[reg][element := w.operand.value]]),
               reg, size, element + 1, fuel - 1)
  {
  }

  /** The closing `cyan` of the initialiser loop. */
  lemma InitCyanStep(s: State, reg: RegIndex, size: nat, element: nat, fuel: nat, s1: State)
    requires Ready(s) && element <= size && |s.arrays[reg]| == size && fuel > 0
    requires MoveUntil(s) == Scan(s1, Some(Cyan))
    ensures HeapInit(s, reg, size, element, fuel) == Done(s1)
  {
  }

  /** The head of an allocation block: register signal and a nonnegative size literal. */
  lemma HeapHeadStep(s: State, fuel: nat, s1: State, c: Signal, s2: State, n: nat, reg: RegIndex, h: State)
    requires Ready(s)
    requires MoveUntil(s) == Scan(s1, Some(c)) && ColorIndex(c) == reg
    requires ParseVal(s1) == ValStep(s2, Operand(n, NoHandle)) && s2.error.None?
    requires h == AssignArray(s2, reg, Zeros(n))
    ensures Ready(h) && |h.arrays[reg]| == n
    ensures ParseHeap(s, fuel) == HeapInit(h, reg, n, 0, fuel)
  {
  }

  /** A literal laid out one cell further on is read once the scan has stepped onto that cell. */
  lemma LiteralNext(s: State, v: nat)
    requires Ready(s) && s.dx == 1 && s.dy == 0
    requires Laid(s.grid, s.x + 2, s.y, EncodeLiteral(v))
    ensures ParseVal(s.(x := s.x + 1)) == ValStep(s.(x := s.x + 1 + |EncodeLiteral(v)|), Operand(v, NoHandle))
  {
    var s1 := s.(x := s.x + 1);
    assert s1.grid == s.grid && s1.y == s.y && s1.x + 1 == s.x + 2;
    LiteralRoundTrip(s1, v);
  }

  /** The state after an initialiser run: the cursor moved `n` cells right and register
      `reg`'s arena slot replaced by `contents`. */
  function Shifted(s: State, n: int, reg: RegIndex, contents: seq<int>): (r: State)
    requires Valid(s)
    ensures Valid(r) && r.x == s.x + n && r.arrays[reg] == contents
  {
    s.(x := s.x + n, arrays := s.arrays[reg := contents])
  }

  lemma ShiftedTwice(s: State, a: int, b: int, reg: RegIndex, c1: seq<int>, c2: seq<int>)
    requires Valid(s)
    ensures Shifted(Shifted(s, a, reg, c1), b, reg, c2) == Shifted(s, a + b, reg, c2)
  {
  }

  lemma AssignThenShift(s: State, a: int, b: int, reg: RegIndex, z: seq<int>, values: seq<int>)
    requires Valid(s)
    ensures Shifted(AssignArray(s.(x := s.x + a), reg, z), b, reg, values) ==
      AssignArray(s, reg, values).(x := s.x + a + b)
  {
  }

  /** An initialiser `green` followed by the literal `v`. */
  lemma InitElement(s: State, reg: RegIndex, size: nat, element: nat, fuel: nat, v: nat,
                    next: State, element1: nat)
    requires Ready(s) && s.dx == 1 && s.dy == 0
    requires element < size && |s.arrays[reg]| == size && fuel > 0
    requires Laid(s.grid, s.x + 1, s.y, [Green]) && Laid(s.grid, s.x + 2, s.y, EncodeLiteral(v))
    requires next == Shifted(s, 1 + |EncodeLiteral(v)|, reg, s.arrays[reg][element := v]) && element1 == element + 1
    ensures Ready(next) && |next.arrays[reg]| == size
    ensures HeapInit(s, reg, size, element, fuel) == HeapInit(next, reg, size, element1, fuel - 1)
  {
    var st := s.(x := s.x + 1 + |EncodeLiteral(v)|);
    ScanNext(s, [Green]);
    LiteralNext(s, v);
    InitGreenStep(s, reg, size, element, fuel, s.(x := s.x + 1), ValStep(st, Operand(v, NoHandle)));
    assert st.(arrays := st.arrays[reg := st.arrays[reg][element := v]]) ==
      Shifted(s, 1 + |EncodeLiteral(v)|, reg, s.arrays[reg][element := v]);
  }

  /** The state a block's head leaves behind: the cursor on the last cell of the length
      literal and register `reg` owning `size` zeros. */
  function HeadState(s: State, reg: RegIndex, size: nat): State
    requires Valid(s)
  {
    AssignArray(s.(x := s.x + 1 + |EncodeLiteral(size)|), reg, Zeros(size))
  }

  /** The head of an encoded allocation block allocates a zeroed array of the encoded length. */
  lemma HeapHead(s: State, reg: RegIndex, n: nat, fuel: nat, none: seq<int>)
    requires Ready(s) && s.dx == 1 && s.dy == 0
    requires Laid(s.grid, s.x + 1, s.y, [IndexColor(reg)]) && Laid(s.grid, s.x + 2, s.y, EncodeLiteral(n))
    requires none == []
    ensures ParseHeap(s, fuel) == InitsRun(HeadState(s, reg, n), reg, n, none, fuel)
  {
    ScanNext(s, [IndexColor(reg)]);
    LiteralNext(s, n);
    IndexColorRoundTrip(reg);
    var s2 := s.(x := s.x + 1 + |EncodeLiteral(n)|);
    HeapHeadStep(s, fuel, s.(x := s.x + 1), IndexColor(reg), s2, n, reg, HeadState(s, reg, n));
  }

  /** Everything the initialiser loop needs to read `rest` back: a ready state heading
      right, `prefix` stored and the `|rest| + pad` remaining slots zero, the initialisers
      laid out ahead followed by the closing signal `c`, and enough fuel for one step per
      element. */
  ghost predicate InitsReady(s: State, reg: RegIndex, size: nat, prefix: seq<int>, rest: seq<nat>, pad: nat,
                             c: Signal, fuel: nat)
  {
    && Ready(s) && s.dx == 1 && s.dy == 0
    && |prefix| + |rest| + pad == size
    && s.arrays[reg] == prefix + Zeros(|rest| + pad)
    && Laid(s.grid, s.x + 1, s.y, EncodeInits(rest) + [c])
    && fuel > |rest|
  }

  /** A state the initialiser loop can go on from: heading right, no error, and the
      array being initialised still `size` long. */
  predicate Resumable(s: State, reg: RegIndex, size: nat)
  {
    Ready(s) && s.dx == 1 && s.dy == 0 && |s.arrays[reg]| == size
  }

  /** The state after the next initialiser of `rest` has been read and stored. */
  function AfterElement(s: State, reg: RegIndex, prefix: seq<int>, rest: seq<nat>): State
    requires Valid(s) && rest != [] && |prefix| < |s.arrays[reg]|
  {
    Shifted(s, 1 + |EncodeLiteral(rest[0])|, reg, s.arrays[reg][|prefix| := rest[0]])
  }

  /** The state once every initialiser of `rest` has been read: the cursor on their last
      cell, and the values stored after `prefix` with `pad` zeros after them. */
  function Filled(s: State, reg: RegIndex, prefix: seq<int>, rest: seq<nat>, pad: nat): State
    requires Valid(s)
  {
    Shifted(s, |EncodeInits(rest)|, reg, prefix + rest + Zeros(pad))
  }

  /** How a block ends once its initialisers are read, the cursor on their last cell:
      a closing `cyan` is stepped onto, a `green` with every slot filled is rejected. */
  function BlockEnd(f: State, reg: RegIndex, size: nat, c: Signal): Fuelled<State>
  {
    if c == Cyan then Done(f.(x := f.x + 1))
    else Done(Fail(f.(x := f.x + 1), TooManyElements(reg, size)))
  }

  /** The signals `BlockEnd` describes: `cyan`, or `green` when nothing is left to fill. */
  predicate Closes(c: Signal, pad: nat)
  {
    c == Cyan || (c == Green && pad == 0)
  }

  /** The strip after an initialiser `green` and its literal, split into its three parts. */
  lemma InitsSplit(g: Grid, x: int, y: int, rest: seq<nat>, c: Signal)
    requires ValidGrid(g) && rest != [] && Laid(g, x, y, EncodeInits(rest) + [c])
    ensures Laid(g, x, y, [Green]) && Laid(g, x + 1, y, EncodeLiteral(rest[0]))
    ensures Laid(g, x + 1 + |EncodeLiteral(rest[0])|, y, EncodeInits(rest[1..]) + [c])
  {
    var lit := EncodeLiteral(rest[0]);
    var after := EncodeInits(rest[1..]) + [c];
    assert EncodeInits(rest) + [c] == [Green] + (lit + after);
    LaidParts(g, x, y, [Green], lit + after);
    LaidParts(g, x + 1, y, lit, after);
  }

  /** After one initialiser the loop is ready for the remaining ones. */
  lemma InitsStepReady(s: State, reg: RegIndex, size: nat, prefix: seq<int>, rest: seq<nat>, pad: nat,
                       c: Signal, fuel: nat)
    requires InitsReady(s, reg, size, prefix, rest, pad, c, fuel) && rest != []
    ensures |prefix| < |s.arrays[reg]|
    ensures InitsReady(AfterElement(s, reg, prefix, rest), reg, size, prefix + [rest[0]], rest[1..], pad, c, fuel - 1)
  {
    InitsSplit(s.grid, s.x + 1, s.y, rest, c);
    var s3 := AfterElement(s, reg, prefix, rest);
    FillNext(prefix, rest[0], |rest| - 1 + pad);
    assert s3.grid == s.grid && s3.y == s.y && s3.x + 1 == s.x + 2 + |EncodeLiteral(rest[0])|;
  }

  /** One initialiser: the loop moves on to `AfterElement`. */
  lemma InitsStep(s: State, reg: RegIndex, size: nat, prefix: seq<int>, rest: seq<nat>, pad: nat,
                  c: Signal, fuel: nat)
    requires InitsReady(s, reg, size, prefix, rest, pad, c, fuel) && rest != []
    ensures |prefix| < |s.arrays[reg]|
    ensures InitsRun(s, reg, size, prefix, fuel) ==
      InitsRun(AfterElement(s, reg, prefix, rest), reg, size, prefix + [rest[0]], fuel - 1)
  {
    InitsSplit(s.grid, s.x + 1, s.y, rest, c);
    InitElement(s, reg, size, |prefix|, fuel, rest[0], AfterElement(s, reg, prefix, rest), |prefix + [rest[0]]|);
  }

  /** Reading the remaining initialisers after one element ends where reading them all does. */
  lemma AfterElementThenRest(s: State, reg: RegIndex, prefix: seq<int>, rest: seq<nat>, pad: nat)
    requires Valid(s) && rest != [] && |prefix| < |s.arrays[reg]|
    ensures Filled(AfterElement(s, reg, prefix, rest), reg, prefix + [rest[0]], rest[1..], pad) == Filled(s, reg, prefix, rest, pad)
  {
    var a := 1 + |EncodeLiteral(rest[0])|;
    var b := |EncodeInits(rest[1..])|;
    var c1 := s.arrays[reg][|prefix| := rest[0]];
    ShiftFirst(prefix, rest);
    ShiftedTwice(s, a, b, reg, c1, prefix + rest + Zeros(pad));
    assert a + b == |EncodeInits(rest)|;
  }

  /** The initialiser loop started on the slot after `prefix`. */
  function InitsRun(s: State, reg: RegIndex, size: nat, prefix: seq<int>, fuel: nat): Fuelled<State>
    requires Ready(s) && |prefix| <= size && |s.arrays[reg]| == size
  {
    HeapInit(s, reg, size, |prefix|, fuel)
  }

  /** After the initialisers, a closing `cyan` ends the block on that cell. */
  lemma InitsClose(s: State, reg: RegIndex, size: nat, prefix: seq<int>, fuel: nat)
    requires Resumable(s, reg, size) && |prefix| <= size && fuel > 0
    requires Laid(s.grid, s.x + 1, s.y, [Cyan])
    ensures InitsRun(s, reg, size, prefix, fuel) == Done(s.(x := s.x + 1))
  {
    ScanNext(s, [Cyan]);
  }

  /** With every slot filled, a further `green` is rejected on that cell. */
  lemma InitsOverflow(s: State, reg: RegIndex, size: nat, prefix: seq<int>, fuel: nat)
    requires Resumable(s, reg, size) && |prefix| == size && fuel > 0
    requires Laid(s.grid, s.x + 1, s.y, [Green])
    ensures InitsRun(s, reg, size, prefix, fuel) == Done(Fail(s.(x := s.x + 1), TooManyElements(reg, size)))
  {
    ScanNext(s, [Green]);
  }

  /** No initialisers left: the closing signal is read at once. */
  lemma InitsDone(s: State, reg: RegIndex, size: nat, prefix: seq<int>, rest: seq<nat>, pad: nat,
                  c: Signal, fuel: nat)
    requires InitsReady(s, reg, size, prefix, rest, pad, c, fuel) && rest == [] && Closes(c, pad)
    ensures InitsRun(s, reg, size, prefix, fuel) == BlockEnd(Filled(s, reg, prefix, rest, pad), reg, size, c)
  {
    assert EncodeInits(rest) + [c] == [c];
    assert prefix + rest + Zeros(pad) == s.arrays[reg];
    assert s.arrays[reg := s.arrays[reg]] == s.arrays;
    if c == Cyan {
      InitsClose(s, reg, size, prefix, fuel);
    } else {
      InitsOverflow(s, reg, size, prefix, fuel);
    }
  }

  /** One initialiser followed by a run over the remaining ones is a run over all of them. */
  lemma InitsCons(s: State, reg: RegIndex, size: nat, prefix: seq<int>, rest: seq<nat>, pad: nat,
                  c: Signal, fuel: nat, a: State, prefix1: seq<int>, rest1: seq<nat>, fuel1: nat)
    requires InitsReady(s, reg, size, prefix, rest, pad, c, fuel) && rest != [] && |prefix| < |s.arrays[reg]|
    requires a == AfterElement(s, reg, prefix, rest) && prefix1 == prefix + [rest[0]] && rest1 == rest[1..]
    requires fuel1 == fuel - 1
    requires InitsReady(a, reg, size, prefix1, rest1, pad, c, fuel1)
    requires InitsRun(a, reg, size, prefix1, fuel1) == BlockEnd(Filled(a, reg, prefix1, rest1, pad), reg, size, c)
    ensures InitsRun(s, reg, size, prefix, fuel) == BlockEnd(Filled(s, reg, prefix, rest, pad), reg, size, c)
  {
    InitsStep(s, reg, size, prefix, rest, pad, c, fuel);
    AfterElementThenRest(s, reg, prefix, rest, pad);
  }

  /** The initialiser loop stores the encoded values into the next free slots, in order,
      leaves the zero slots after them as they were, and ends on the closing signal. */
  lemma {:induction false} InitsRead(s: State, reg: RegIndex, size: nat, prefix: seq<int>, rest: seq<nat>,
                                     pad: nat, c: Signal, fuel: nat)
    requires InitsReady(s, reg, size, prefix, rest, pad, c, fuel) && Closes(c, pad)
    ensures InitsRun(s, reg, size, prefix, fuel) == BlockEnd(Filled(s, reg, prefix, rest, pad), reg, size, c)
    decreases |rest|
  {
    if rest == [] {
      InitsDone(s, reg, size, prefix, rest, pad, c, fuel);
    } else {
      InitsStepReady(s, reg, size, prefix, rest, pad, c, fuel);
      var a, prefix1, rest1, fuel1 := AfterElement(s, reg, prefix, rest), prefix + [rest[0]], rest[1..], fuel - 1;
      InitsRead(a, reg, size, prefix1, rest1, pad, c, fuel1);
      InitsCons(s, reg, size, prefix, rest, pad, c, fuel, a, prefix1, rest1, fuel1);
    }
  }

  /** An allocation block split into the register's signal, the length literal, and the
      initialisers followed by `c`. */
  lemma BlockSplit(g: Grid, x: int, y: int, reg: RegIndex, size: nat, values: seq<nat>, c: Signal)
    requires ValidGrid(g) && Laid(g, x, y, EncodeBlock(reg, size, values) + [c])
    ensures Laid(g, x, y, [IndexColor(reg)]) && Laid(g, x + 1, y, EncodeLiteral(size))
    ensures Laid(g, x + 1 + |EncodeLiteral(size)|, y, EncodeInits(values) + [c])
  {
    var lit := EncodeLiteral(size);
    var after := EncodeInits(values) + [c];
    assert EncodeBlock(reg, size, values) + [c] == [IndexColor(reg)] + (lit + after);
    LaidParts(g, x, y, [IndexColor(reg)], lit + after);
    LaidParts(g, x + 1, y, lit, after);
  }

  /** The head of a block leaves the initialiser loop ready to read every listed value. */
  lemma HeapHeadReady(s: State, reg: RegIndex, size: nat, values: seq<nat>, c: Signal, fuel: nat)
    requires Ready(s) && s.dx == 1 && s.dy == 0 && |values| <= size
    requires Laid(s.grid, s.x + 1, s.y, EncodeBlock(reg, size, values) + [c])
    requires fuel > |values|
    ensures Laid(s.grid, s.x + 1, s.y, [IndexColor(reg)]) && Laid(s.grid, s.x + 2, s.y, EncodeLiteral(size))
    ensures InitsReady(HeadState(s, reg, size), reg, size, [], values, size - |values|, c, fuel)
  {
    BlockSplit(s.grid, s.x + 1, s.y, reg, size, values, c);
    var s3 := HeadState(s, reg, size);
    assert s3.grid == s.grid && s3.y == s.y && s3.x + 1 == s.x + 2 + |EncodeLiteral(size)|;
    assert s3.arrays[reg] == [] + Zeros(|values| + (size - |values|));
  }

  /** The state after a block's initialisers: register `reg` owns `values` followed by
      zeros up to `size`, with integer 0, and the cursor is on the block's last cell
      before its closing signal. */
  function BlockRead(s: State, reg: RegIndex, size: nat, values: seq<nat>): State
    requires Valid(s) && |values| <= size
  {
    AssignArray(s, reg, values + Zeros(size - |values|)).(x := s.x + |EncodeBlock(reg, size, values)|)
  }

  /** The bookkeeping of a block: head, then initialisers, is `BlockRead`. */
  lemma BlockLink(s: State, reg: RegIndex, size: nat, values: seq<nat>, h: State, none: seq<int>, pad: nat)
    requires Valid(s) && |values| <= size
    requires h == HeadState(s, reg, size) && none == [] && pad == size - |values|
    ensures Filled(h, reg, none, values, pad) == BlockRead(s, reg, size, values)
  {
    var n := 1 + |EncodeLiteral(size)|;
    var zs := Zeros(pad);
    assert none + values + zs == values + zs;
    AssignThenShift(s, n, |EncodeInits(values)|, reg, Zeros(size), values + zs);
    assert |EncodeBlock(reg, size, values)| == n + |EncodeInits(values)|;
  }

  /** `parseHeap` over a whole block: the head allocates, the initialisers fill, and the
      closing signal ends it as `BlockEnd` says. */
  lemma HeapReadsBlock(s: State, reg: RegIndex, size: nat, values: seq<nat>, c: Signal, fuel: nat)
    requires Ready(s) && s.dx == 1 && s.dy == 0 && |values| <= size && Closes(c, size - |values|)
    requires Laid(s.grid, s.x + 1, s.y, EncodeBlock(reg, size, values) + [c])
    requires fuel > |values|
    ensures ParseHeap(s, fuel) == BlockEnd(BlockRead(s, reg, size, values), reg, size, c)
  {
    HeapHeadReady(s, reg, size, values, c, fuel);
    var h := HeadState(s, reg, size);
    var none: seq<int> := [];
    HeapHead(s, reg, size, fuel, none);
    var pad: nat := size - |values|;
    InitsRead(h, reg, size, none, values, pad, c, fuel);
    BlockLink(s, reg, size, values, h, none, pad);
    assert InitsRun(h, reg, size, none, fuel) == BlockEnd(BlockRead(s, reg, size, values), reg, size, c);
  }

  /** Allocation with fewer initialisers than elements: a block of `size` elements listing
      `values` leaves register `reg` owning `values` followed by zeros up to `size`, with
      integer 0, and the cursor on the closing `cyan`; nothing else changes. */
  lemma HeapPartialRoundTrip(s: State, reg: RegIndex, size: nat, values: seq<nat>, fuel: nat)
    requires Ready(s) && s.dx == 1 && s.dy == 0 && |values| <= size
    requires Laid(s.grid, s.x + 1, s.y, EncodeBlock(reg, size, values) + [Cyan])
    requires fuel > |values|
    ensures ParseHeap(s, fuel) ==
      Done(AssignArray(s, reg, values + Zeros(size - |values|)).(x := s.x + |EncodeBlock(reg, size, values)| + 1))
  {
    HeapReadsBlock(s, reg, size, values, Cyan, fuel);
    BlockClosed(s, reg, size, values, BlockRead(s, reg, size, values));
  }

  /** A block closed by `cyan` ends one cell past its initialisers. */
  lemma BlockClosed(s: State, reg: RegIndex, size: nat, values: seq<nat>, b: State)
    requires Valid(s) && |values| <= size && b == BlockRead(s, reg, size, values)
    ensures BlockEnd(b, reg, size, Cyan) ==
      Done(AssignArray(s, reg, values + Zeros(size - |values|)).(x := s.x + |EncodeBlock(reg, size, values)| + 1))
  {
  }

  /** A full block closed by `cyan` ends one cell past it. */
  lemma FullBlockClosed(s: State, reg: RegIndex, values: seq<nat>, size: nat, b: State, p: Fuelled<State>)
    requires Valid(s) && size == |values| && b == BlockRead(s, reg, size, values)
    requires p == BlockEnd(b, reg, size, Cyan)
    ensures p == Done(AssignArray(s, reg, values).(x := s.x + |EncodeHeap(reg, values)|))
  {
    assert values + Zeros(0) == values;
  }

  /** A full block followed by `green` fails one cell past it. */
  lemma FullBlockOverflow(s: State, reg: RegIndex, values: seq<nat>, size: nat, b: State, p: Fuelled<State>)
    requires Valid(s) && size == |values| && b == BlockRead(s, reg, size, values)
    requires p == BlockEnd(b, reg, size, Green)
    ensures p == Done(Fail(AssignArray(s, reg, values).(x := s.x + |EncodeHeap(reg, values)|), TooManyElements(reg, |values|)))
  {
    assert values + Zeros(0) == values;
  }

  /** Allocation round trip: an encoded block listing every element leaves register `reg`
      pointing at its own arena slot, holding exactly `values`, with integer 0, and
      nothing else changed but the cursor, which ends on the closing `cyan`. */
  lemma HeapRoundTrip(s: State, reg: RegIndex, values: seq<nat>, fuel: nat)
    requires Ready(s) && s.dx == 1 && s.dy == 0
    requires Laid(s.grid, s.x + 1, s.y, EncodeHeap(reg, values))
    requires fuel > |values|
    ensures ParseHeap(s, fuel) ==
      Done(AssignArray(s, reg, values).(x := s.x + |EncodeHeap(reg, values)|))
  {
    var size := |values|;
    var b := BlockRead(s, reg, size, values);
    HeapReadsBlock(s, reg, size, values, Cyan, fuel);
    FullBlockClosed(s, reg, values, size, b, ParseHeap(s, fuel));
  }

  /** One initialiser too many: after `size` listed values a further `green` fails with
      TooManyElements, the array already holding the listed values. */
  lemma HeapTooManyElements(s: State, reg: RegIndex, values: seq<nat>, fuel: nat)
    requires Ready(s) && s.dx == 1 && s.dy == 0
    requires Laid(s.grid, s.x + 1, s.y, EncodeBlock(reg, |values|, values) + [Green])
    requires fuel > |values|
    ensures ParseHeap(s, fuel) ==
      Done(Fail(AssignArray(s, reg, values).(x := s.x + |EncodeHeap(reg, values)|), TooManyElements(reg, |values|)))
  {
    var size := |values|;
    var b := BlockRead(s, reg, size, values);
    HeapReadsBlock(s, reg, size, values, Green, fuel);
    FullBlockOverflow(s, reg, values, size, b, ParseHeap(s, fuel));
  }
}

=== FILE: grammar.dfy ===
/**
 * The recursive-descent grammars of Engine568.  Each parser consumes signal colours
 * through `MoveUntil` and threads the engine state, so an error leaves the state
 * exactly as the engine had it when the error was raised.
 */
module Grammar {
  import opened Base
  import opened CInt
  import opened Signals
  import opened Machine
  import opened Cursor
  import opened Operators

  // ---------------------------------------------------------------- directions

  /** The absolute direction a signal names in the direction grammar: red is right,
      yellow up, green left and cyan down (y grows downwards); blue and magenta name
      no direction. */
  function DirectionOf(c: Signal): (d: Option<(int, int)>)
    ensures d.None? <==> c == Blue || c == Magenta
    ensures d.Some? ==> UnitDir(d.value.0, d.value.1)
  {
    match c
    case Red => Some((1, 0))
    case Yellow => Some((0, -1))
    case Green => Some((-1, 0))
    case Cyan => Some((0, 1))
    case _ => None
  }

  /** The signal that names a unit direction. */
  function DirectionSignal(dx: int, dy: int): (c: Signal)
    requires UnitDir(dx, dy)
    ensures DirectionOf(c) == Some((dx, dy))
  {
    if dx == 1 then Red else if dy == -1 then Yellow else if dx == -1 then Green else Cyan
  }

  /** `DirectionSignal` inverts `DirectionOf` on the four direction signals. */
  lemma DirectionSignalInverts(c: Signal)
    requires DirectionOf(c).Some?
    ensures DirectionSignal(DirectionOf(c).value.0, DirectionOf(c).value.1) == c
  {
  }

  /** A parsed direction; (0, 0) when parsing failed, as the source's default `DirReturn`. */
  datatype DirStep = DirStep(st: State, dx: int, dy: int)

  /** `parseDir`: read one signal and map it to an absolute direction. */
  function ParseDir(s: State): (r: DirStep)
    requires Ready(s)
    ensures Evolves(s, r.st)
    ensures r.st == s.(x := r.st.x, y := r.st.y, error := r.st.error)
    ensures r.st.error == Some(OutOfBounds) <==> OffGrid(r.st)
    ensures r.st.error.Some? ==> (r.dx, r.dy) == (0, 0)
    ensures r.st.error.Some? ==> r.st.error == Some(OutOfBounds) || r.st.error == Some(InvalidDirection)
    ensures r.st.error == Some(InvalidDirection) ==>
      SignalAt(r.st.grid, r.st.x, r.st.y) in {Some(Blue), Some(Magenta)}
    ensures r.st.error.None? ==>
      UnitDir(r.dx, r.dy) && SignalAt(r.st.grid, r.st.x, r.st.y) == Some(DirectionSignal(r.dx, r.dy))
  {
    var Scan(s1, sig) := MoveUntil(s);
    match sig
    case None => DirStep(Fail(s1, OutOfBounds), 0, 0)
    case Some(c) =>
      match DirectionOf(c)
      case None => DirStep(Fail(s1, InvalidDirection), 0, 0)
      case Some(d) =>
        DirectionSignalInverts(c);
        DirStep(s1, d.0, d.1)
  }

  /** `parseBranch`: the direction is always parsed (the cursor moves past it), but it
      replaces the current direction only when the last operand's value is nonzero. */
  function ParseBranch(s: State): (r: State)
    requires Ready(s)
    ensures Evolves(s, r)
    ensures var d := ParseDir(s);
      && (r.x, r.y, r.error) == (d.st.x, d.st.y, d.st.error)
      && (r.dx, r.dy) == if s.last.value != 0 then (d.dx, d.dy) else (s.dx, s.dy)
    ensures r == s.(x := r.x, y := r.y, dx := r.dx, dy := r.dy, error := r.error)
  {
    var d := ParseDir(s);
    if s.last.value != 0 then d.st.(dx := d.dx, dy := d.dy) else d.st
  }

  // ---------------------------------------------------------------- operands

  /** A parsed operand; `NoOperand` when parsing failed, as the source's default `ValReturn`. */
  datatype ValStep = ValStep(st: State, operand: Operand)

  const NoOperand: Operand := Operand(0, NoHandle)

  /** `parseVal`: a register read, an array read or a binary literal.  Read at once, red
      and a register's colour give that register, yellow and a register's colour give
      the element its integer indexes, blue gives 1 and magenta gives 0. */
  function ParseVal(s: State): (r: ValStep)
    requires Ready(s)
    ensures Evolves(s, r.st)
    ensures r.st == s.(x := r.st.x, y := r.st.y, error := r.st.error)
    ensures r.st.error.Some? ==> r.operand == NoOperand
    ensures r.st.error.None? ==> Reflects(r.st, r.operand)
    ensures r.operand.handle.NoHandle? ==> r.operand.value >= 0
    ensures MoveUntil(s).signal.None? ==> r.st.error == Some(OutOfBounds)
    ensures MoveUntil(s).signal == Some(Blue) ==> r == ValStep(MoveUntil(s).st, Operand(1, NoHandle))
    ensures MoveUntil(s).signal == Some(Magenta) ==> r == ValStep(MoveUntil(s).st, Operand(0, NoHandle))
    ensures MoveUntil(s).signal == Some(Red) ==> RegisterRead(s, r)
    ensures MoveUntil(s).signal == Some(Yellow) ==> ElementRead(s, r)
  {
    ParseValFrom(s, 1)
  }

  /** The outcome of `red, <register>` read from `s`: out of bounds when the register's
      colour is missing, otherwise that register's integer with a whole-register handle. */
  predicate RegisterRead(s: State, r: ValStep)
    requires Heading(s)
  {
    var sc := MoveUntil(MoveUntil(s).st);
    && (sc.signal.None? ==> r.st.error == Some(OutOfBounds))
    && (sc.signal.Some? ==>
          var i := ColorIndex(sc.signal.value);
          r == ValStep(sc.st, Operand(s.registers[i].integer, RegisterHandle(i))))
  }

  /** The outcome of `yellow, <register>` read from `s`: out of bounds when the register's
      colour is missing, otherwise the array read through that register. */
  predicate ElementRead(s: State, r: ValStep)
    requires Ready(s)
  {
    var sc := MoveUntil(MoveUntil(s).st);
    && (sc.signal.None? ==> r.st.error == Some(OutOfBounds))
    && (sc.signal.Some? ==> r == ReadElement(sc.st, ColorIndex(sc.signal.value)))
  }

  /** The operand loop with literal accumulator `acc` (1 until a bit has been read).
      Blue ends the literal with the accumulator; magenta ends it with 0, and only
      before any bit; a register or array read after a bit is an error. */
  function ParseValFrom(s: State, acc: int): (r: ValStep)
    requires Ready(s) && acc >= 1
    ensures r.st == s.(x := r.st.x, y := r.st.y, error := r.st.error)
    ensures r.st.error.None? ==> !OffGrid(r.st)
    ensures r.st.error.Some? ==> r.operand == NoOperand
    ensures r.st.error.None? ==> Reflects(r.st, r.operand)
    ensures r.operand.handle.NoHandle? ==> r.operand.value >= 0
    ensures MoveUntil(s).signal.None? ==> r.st.error == Some(OutOfBounds)
    ensures MoveUntil(s).signal == Some(Blue) ==> r == ValStep(MoveUntil(s).st, Operand(acc, NoHandle))
    ensures MoveUntil(s).signal == Some(Magenta) ==> (r.st.error.None? <==> acc == 1)
    ensures MoveUntil(s).signal == Some(Magenta) && acc == 1 ==> r == ValStep(MoveUntil(s).st, Operand(0, NoHandle))
    ensures MoveUntil(s).signal == Some(Magenta) && acc != 1 ==> r.st.error == Some(ZeroEndOnNonzero)
    ensures MoveUntil(s).signal == Some(Red) && acc != 1 ==> r.st.error == Some(RegisterAfterLiteral)
    ensures MoveUntil(s).signal == Some(Yellow) && acc != 1 ==> r.st.error == Some(ArrayAfterLiteral)
    ensures MoveUntil(s).signal == Some(Red) && acc == 1 ==> RegisterRead(s, r)
    ensures MoveUntil(s).signal == Some(Yellow) && acc == 1 ==> ElementRead(s, r)
    decreases Room(s.grid, s.x + s.dx, s.y + s.dy, s.dx, s.dy)
  {
    var Scan(s1, sig) := MoveUntil(s);
    match sig
    case None => ValStep(Fail(s1, OutOfBounds), NoOperand)
    case Some(Red) =>
      if acc != 1 then ValStep(Fail(s1, RegisterAfterLiteral), NoOperand)
      else
        var Scan(s2, sig2) := MoveUntil(s1);
        if sig2.None? then ValStep(Fail(s2, OutOfBounds), NoOperand)
        else
          var i := ColorIndex(sig2.value);
          ValStep(s2, Operand(s2.registers[i].integer, RegisterHandle(i)))
    case Some(Yellow) =>
      if acc != 1 then ValStep(Fail(s1, ArrayAfterLiteral), NoOperand)
      else
        var Scan(s2, sig2) := MoveUntil(s1);
        if sig2.None? then ValStep(Fail(s2, OutOfBounds), NoOperand)
        else ReadElement(s2, ColorIndex(sig2.value))
    case Some(Green) => ParseValFrom(s1, acc * 2 + 1)
    case Some(Cyan) => ParseValFrom(s1, acc * 2)
    case Some(Blue) => ValStep(s1, Operand(acc, NoHandle))
    case Some(Magenta) =>
      if acc == 1 then ValStep(s1, Operand(0, NoHandle))
      else ValStep(Fail(s1, ZeroEndOnNonzero), NoOperand)
  }

  /** The array read `yellow, <register>`: register `i` must point to an array, and its
      integer, converted to `size_t` as the source's comparison does, indexes it. */
  function ReadElement(s: State, i: RegIndex): (r: ValStep)
    requires Valid(s) && s.error.None?
    ensures r.st == s.(error := r.st.error)
    ensures r.st.error.Some? ==> r.operand == NoOperand
    ensures r.st.error == Some(NoArray(i)) <==> s.registers[i].pointsTo.None?
    ensures r.st.error.None? ==>
      && s.registers[i].pointsTo.Some?
      && r.operand.handle == ElementHandle(s.registers[i].pointsTo.value, ToSizeT(s.registers[i].integer))
      && Reflects(s, r.operand)
    ensures r.st.error.Some? ==> r.st.error == Some(NoArray(i)) || r.st.error.value.IndexOutOfRange?
    ensures r.st.error.Some? && r.st.error.value.IndexOutOfRange? ==>
      ToSizeT(s.registers[i].integer) >= r.st.error.value.size
  {
    var reg := s.registers[i];
    match reg.pointsTo
    case None => ValStep(Fail(s, NoArray(i)), NoOperand)
    case Some(a) =>
      var k := ToSizeT(reg.integer);
      if k >= |s.arrays[a]| then ValStep(Fail(s, IndexOutOfRange(i, reg.integer, |s.arrays[a]|)), NoOperand)
      else ValStep(s, Operand(s.arrays[a][k], ElementHandle(a, k)))
  }

  /** On every `int` the bound test through `size_t` accepts exactly the indices
      `0 <= index < size`: a negative index wraps to a huge unsigned value and fails. */
  lemma IndexCheckExact(index: int, size: nat)
    requires -0x8000_0000 <= index < 0x8000_0000
    requires size < 0x8000_0000_0000_0000
    ensures ToSizeT(index) < size <==> 0 <= index < size
    ensures 0 <= index < size ==> ToSizeT(index) == index
  {
  }

  // ---------------------------------------------------------------- heap blocks

  /** `n` zeros: a freshly resized and cleared array. */
  function Zeros(n: nat): (z: seq<int>)
    ensures |z| == n
  {
    seq(n, _ => 0)
  }

  /** The errors an allocation block for register `reg` of `size` elements can end with. */
  predicate HeapError(e: Error, reg: RegIndex, size: nat)
  {
    || e == OutOfBounds
    || e == TooManyElements(reg, size)
    || (e.UnexpectedColor? && e.reg == reg && e.color in {Yellow, Blue, Magenta})
    || (e.WhileSteering? && e.reg == reg)
    || (e.WhileInitializing? && e.reg == reg && 1 <= e.element <= size)
  }

  /** `parseHeap`: `cyan, <register>, <size operand>, initialisers..., cyan`. */
  function ParseHeap(s: State, fuel: nat): (r: Fuelled<State>)
    requires Ready(s)
    ensures r.Done? ==> Evolves(s, r.result)
    ensures r.Done? ==> (r.result.last, r.result.pending, r.result.output) == (s.last, s.pending, s.output)
    // a size that fails to parse or is negative allocates nothing
    ensures r.Done? && r.result.error.Some? && (r.result.error.value.WhileSizing? || r.result.error.value.NegativeSize?) ==>
      r.result.registers == s.registers && r.result.arrays == s.arrays
    ensures MoveUntil(s).signal.None? ==> r == Done(Fail(MoveUntil(s).st, OutOfBounds))
    // the first colour names the register; the size operand follows it
    ensures MoveUntil(s).signal.Some? ==> HeapSized(s, ColorIndex(MoveUntil(s).signal.value), ParseVal(MoveUntil(s).st), r)
    ensures r.Done? && r.result.error.None? ==> SignalAt(r.result.grid, r.result.x, r.result.y) == Some(Cyan)
  {
    var Scan(s1, sig) := MoveUntil(s);
    if sig.None? then Done(Fail(s1, OutOfBounds))
    else
      var i := ColorIndex(sig.value);
      var v := ParseVal(s1);
      if v.st.error.Some? then Done(v.st.(error := Some(WhileSizing(i, v.st.error.value))))
      else if v.operand.value < 0 then Done(Fail(v.st, NegativeSize(i, v.operand.value)))
      else
        var r := Allocate(v.st, i, v.operand.value, fuel);
        assert r.Done? && r.result.error.None? ==> r.result.registers[i] == Register(0, Some(i));
        r
  }

  /** How a block for register `i` whose size operand parsed as `v` ends: a size that fails
      to parse is reported in context, a negative size is rejected, and a completed block
      leaves register `i` alone owning a fresh array of the requested length, integer 0. */
  predicate HeapSized(s: State, i: RegIndex, v: ValStep, r: Fuelled<State>)
    requires Valid(s)
  {
    && (v.st.error.Some? ==> r == Done(v.st.(error := Some(WhileSizing(i, v.st.error.value)))))
    && (v.st.error.None? && v.operand.value < 0 ==> r == Done(Fail(v.st, NegativeSize(i, v.operand.value))))
    && (r.Done? && r.result.error.None? ==>
          && v.st.error.None? && v.operand.value >= 0
          && Valid(r.result)
          && r.result.registers == s.registers[i := Register(0, Some(i))]
          && |r.result.arrays[i]| == v.operand.value
          && (forall j: RegIndex :: j != i ==> r.result.arrays[j] == s.arrays[j]))
  }

  /** The allocation of a block of `size` elements for register `i`: a zeroed array in
      the register's own arena slot, then the initialiser loop. */
  function Allocate(s: State, i: RegIndex, size: nat, fuel: nat): (r: Fuelled<State>)
    requires Ready(s)
    ensures r.Done? ==> Evolves(s, r.result)
    ensures r.Done? ==> (r.result.last, r.result.pending, r.result.output) == (s.last, s.pending, s.output)
    ensures r.Done? ==> r.result.registers == s.registers[i := Register(0, Some(i))]
    ensures r.Done? ==> forall j: RegIndex :: j != i ==> r.result.arrays[j] == s.arrays[j]
    ensures r.Done? ==> |r.result.arrays[i]| == size
    ensures r.Done? && r.result.error.None? ==> SignalAt(r.result.grid, r.result.x, r.result.y) == Some(Cyan)
  {
    HeapInit(AssignArray(s, i, Zeros(size)), i, size, 0, fuel)
  }

  /** The initialiser loop of `parseHeap`; `element` slots of register `reg`'s array are
      filled so far.  Red steers the cursor (for good), green stores the next element,
      cyan ends the block. */
  function HeapInit(s: State, reg: RegIndex, size: nat, element: nat, fuel: nat): (r: Fuelled<State>)
    requires Ready(s) && element <= size && |s.arrays[reg]| == size
    ensures r.Done? ==> Valid(r.result)
    ensures r.Done? ==> r.result == s.(x := r.result.x, y := r.result.y, dx := r.result.dx, dy := r.result.dy,
                                       arrays := r.result.arrays, error := r.result.error)
    ensures r.Done? && r.result.error.None? ==> UnitDir(r.result.dx, r.result.dy) && !OffGrid(r.result)
    ensures r.Done? ==> forall j: RegIndex :: j != reg ==> r.result.arrays[j] == s.arrays[j]
    // only the array being initialised changes, never its length, never a slot already filled
    ensures r.Done? ==> |r.result.arrays[reg]| == size
    ensures r.Done? ==> forall k :: 0 <= k < element ==> r.result.arrays[reg][k] == s.arrays[reg][k]
    ensures r.Done? && r.result.error.Some? ==> HeapError(r.result.error.value, reg, size)
    ensures r.Done? && r.result.error.None? ==> SignalAt(r.result.grid, r.result.x, r.result.y) == Some(Cyan)
    // with every slot filled, one more green is rejected; cyan ends the block where it stands
    ensures fuel > 0 && element == size && MoveUntil(s).signal == Some(Green) ==>
      r == Done(Fail(MoveUntil(s).st, TooManyElements(reg, size)))
    ensures fuel > 0 && MoveUntil(s).signal == Some(Cyan) ==> r == Done(MoveUntil(s).st)
    decreases fuel
  {
    if fuel == 0 then OutOfFuel
    else
      var Scan(s1, sig) := MoveUntil(s);
      match sig
      case None => Done(Fail(s1, OutOfBounds))
      case Some(Red) =>
        var d := ParseDir(s1);
        var s2 := d.st.(dx := d.dx, dy := d.dy);
        if s2.error.Some? then Done(s2.(error := Some(WhileSteering(reg, s2.error.value))))
        else HeapInit(s2, reg, size, element, fuel - 1)
      case Some(Green) =>
        if element == size then Done(Fail(s1, TooManyElements(reg, size)))
        else
          var v := ParseVal(s1);
          if v.st.error.Some? then
            Done(v.st.(error := Some(WhileInitializing(reg, element + 1, v.st.error.value))))
          else
            var s2 := v.st.(arrays := v.st.arrays[reg := v.st.arrays[reg][element := v.operand.value]]);
            HeapInit(s2, reg, size, element + 1, fuel - 1)
      case Some(Cyan) => Done(s1)
      case Some(c) => Done(Fail(s1, UnexpectedColor(reg, c)))
  }


  // ---------------------------------------------------------------- operators

  /** The tier-1 operator a signal selects: red `+`, yellow `-`, green `*`, cyan `/`,
      blue `%` and magenta logical not. */
  function Op1Of(c: Signal): Op1
  {
    match c
    case Red => Binary(Add)
    case Yellow => Binary(Sub)
    case Green => Binary(Mul)
    case Cyan => Binary(Div)
    case Blue => Binary(Mod)
    case Magenta => Not
  }

  /** The signal that selects a tier-1 operator. */
  function Op1Signal(o: Op1): (c: Signal)
    ensures Op1Of(c) == o
  {
    match o
    case Binary(Add) => Red
    case Binary(Sub) => Yellow
    case Binary(Mul) => Green
    case Binary(Div) => Cyan
    case Binary(Mod) => Blue
    case Not => Magenta
  }

  /** A parsed tier-1 operator; `None` when parsing failed. */
  datatype OpStep = OpStep(st: State, op: Option<Op1>)

  /** `parseOperator1`: every signal names a tier-1 operator; only leaving the grid fails. */
  function ParseOperator1(s: State): (r: OpStep)
    requires Ready(s)
    ensures Evolves(s, r.st)
    ensures r.st == s.(x := r.st.x, y := r.st.y, error := r.st.error)
    ensures r.op.None? <==> r.st.error.Some?
    ensures r.st.error.Some? <==> OffGrid(r.st)
    ensures r.st.error.Some? ==> r.st.error == Some(OutOfBounds)
    ensures r.op.Some? ==> SignalAt(r.st.grid, r.st.x, r.st.y) == Some(Op1Signal(r.op.value))
  {
    var Scan(s1, sig) := MoveUntil(s);
    match sig
    case None => OpStep(Fail(s1, OutOfBounds), None)
    case Some(c) =>
      assert Op1Signal(Op1Of(c)) == c;
      OpStep(s1, Some(Op1Of(c)))
  }

  /** The tier-2 signal that defers a comparison or an assignment. */
  function Tier2Signal(p: Pending): Signal
    requires !p.Compound? && !p.Arith?
  {
    match p
    case Equal => Red
    case Less => Yellow
    case Greater => Green
    case Assign => Blue
  }

  /** The tier-2 table: the comparison or assignment each non-print, non-compound signal
      defers. */
  function Tier2Of(c: Signal): (p: Pending)
    requires c in {Red, Yellow, Green, Blue}
    ensures !p.Compound? && !p.Arith? && Tier2Signal(p) == c
  {
    match c
    case Red => Equal
    case Yellow => Less
    case Green => Greater
    case Blue => Assign
  }

  /** What magenta does from the state `s1` the scan stopped in: a tier-1 operator is
      read; a failed read is wrapped as WhileCompound; logical not is applied at once;
      a binary operator is deferred as compound assignment. */
  ghost predicate CompoundRead(s1: State, r: State)
    requires Ready(s1)
  {
    var o := ParseOperator1(s1);
    && (o.st.error.Some? ==> r == o.st.(error := Some(WhileCompound(OutOfBounds))))
    && (o.op == Some(Not) ==> r == ApplyUnary(o.st))
    && (o.op.Some? && o.op.value.Binary? ==> r == o.st.(pending := Some(Compound(o.op.value.op))))
  }

  /** `parseOperator2`: red, yellow, green defer a comparison; cyan prints the last
      operand's value as one byte; blue defers an assignment; magenta reads a tier-1
      operator and either applies a unary one at once or defers it as a compound assignment. */
  function ParseOperator2(s: State): (r: State)
    requires Ready(s)
    ensures Evolves(s, r)
    ensures r == s.(x := r.x, y := r.y, error := r.error, pending := r.pending, output := r.output,
                    registers := r.registers, arrays := r.arrays)
    ensures r.output == s.output || r.output == s.output + [LowByte(s.last.value)]
    ensures r.output != s.output ==> r.pending == s.pending && r.error.None?
    ensures r.pending != s.pending ==>
      r.pending.Some? && r.error.None? && !r.pending.value.Arith?
    ensures r.pending != s.pending && !r.pending.value.Compound? ==>
      SignalAt(r.grid, r.x, r.y) == Some(Tier2Signal(r.pending.value))
    ensures r.pending != s.pending && r.pending.value.Compound? ==>
      SignalAt(r.grid, r.x, r.y) == Some(Op1Signal(Binary(r.pending.value.op)))
    ensures r.registers != s.registers || r.arrays != s.arrays ==> !s.last.handle.NoHandle?
    // Signal by signal: what each one found by the scan does.
    ensures MoveUntil(s).signal.None? ==> r == Fail(MoveUntil(s).st, OutOfBounds)
    ensures MoveUntil(s).signal.Some? && MoveUntil(s).signal.value in {Red, Yellow, Green, Blue} ==>
      && r.error.None? && r.pending == Some(Tier2Of(MoveUntil(s).signal.value))
      && r.output == s.output && r.registers == s.registers && r.arrays == s.arrays
    ensures MoveUntil(s).signal == Some(Cyan) ==>
      r.error.None? && r.output == s.output + [LowByte(s.last.value)] && r.pending == s.pending
      && r.registers == s.registers && r.arrays == s.arrays
    ensures MoveUntil(s).signal == Some(Magenta) ==> CompoundRead(MoveUntil(s).st, r)
  {
    var Scan(s1, sig) := MoveUntil(s);
    match sig
    case None => Fail(s1, OutOfBounds)
    case Some(Red) => s1.(pending := Some(Equal))
    case Some(Yellow) => s1.(pending := Some(Less))
    case Some(Green) => s1.(pending := Some(Greater))
    case Some(Cyan) => s1.(output := s1.output + [LowByte(s1.last.value)])
    case Some(Blue) => s1.(pending := Some(Assign))
    case Some(Magenta) =>
      var o := ParseOperator1(s1);
      if o.st.error.Some? then o.st.(error := Some(WhileCompound(o.st.error.value)))
      else
        match o.op.value
        case Not => ApplyUnary(o.st)
        case Binary(op) => o.st.(pending := Some(Compound(op)))
  }
}

=== FILE: image_util.dfy ===
/**
 * The packed-pixel helpers of `CNGE::Util`: a pixel is a 32-bit word holding red, green,
 * blue and alpha from the high byte down.  C++ `int` is 32 bits wide and converted
 * to and from `unsigned` by the usual two's-complement rules; those conversions are
 * written out where the helpers perform them.
 */
module ImageUtil {
  import opened CInt

  const U32_MODULUS: int := 0x1_0000_0000
  const INT_MAX: int := 0x7fff_ffff

  /** `Util::MAX_LUMINANCE`: three full channels. */
  const MAX_LUMINANCE: int := 0xff * 3

  type U8 = x: int | 0 <= x < 0x100
  type U32 = x: int | 0 <= x < 0x1_0000_0000
  type I32 = x: int | -0x8000_0000 <= x < 0x8000_0000

  /** Conversion of any integer to `u32`: reduction modulo 2^32. */
  function ToU32(i: int): (u: U32)
    ensures 0 <= i < U32_MODULUS ==> u == i
    ensures -U32_MODULUS <= i < 0 ==> u == i + U32_MODULUS
  {
    i % U32_MODULUS
  }

  /** Conversion of a `u32` to `int`: the same bits read in two's complement. */
  function ToI32(u: U32): (i: I32)
    ensures ToU32(i) == u
    ensures u <= INT_MAX <==> i == u
  {
    if u <= INT_MAX then u else u - U32_MODULUS
  }

  /** Euclidean division is determined by a quotient and a remainder in range. */
  lemma DivModUnique(a: int, b: int, q: int, x: int)
    requires b > 0 && 0 <= x < b && a == q * b + x
    ensures a / b == q && a % b == x
  {
    var q0, x0 := a / b, a % b;
    assert a == q0 * b + x0;
    if q != q0 {
      assert (q - q0) * b == x0 - x;
      MultipleAtLeast(q - q0, b);
    }
  }

  // ---------------------------------------------------------------- channels

  /** `red`: bits 24..31. */
  function Red(p: U32): (b: U8)
    ensures b * 0x100_0000 <= p < (b + 1) * 0x100_0000
  {
    p / 0x100_0000 % 0x100
  }

  /** `gre`: bits 16..23. */
  function Gre(p: U32): (b: U8)
    ensures b * 0x1_0000 <= p % 0x100_0000 < (b + 1) * 0x1_0000
  {
    p / 0x1_0000 % 0x100
  }

  /** `blu`: bits 8..15. */
  function Blu(p: U32): (b: U8)
    ensures b * 0x100 <= p % 0x1_0000 < (b + 1) * 0x100
  {
    p / 0x100 % 0x100
  }

  /** `alp`: bits 0..7. */
  function Alp(p: U32): (b: U8)
    ensures (p - b) % 0x100 == 0
  {
    p % 0x100
  }

  /** The channels of `p` put back together give `p`. */
  lemma ChannelsCompose(p: U32)
    ensures p == Red(p) * 0x100_0000 + Gre(p) * 0x1_0000 + Blu(p) * 0x100 + Alp(p)
  {
    var h := p / 0x100_0000;
    assert h < 0x100;
    var m := p / 0x1_0000;
    DivModUnique(m, 0x100, h, m - h * 0x100);
    var l := p / 0x100;
    DivModUnique(l, 0x1_0000, h, l - h * 0x1_0000);
    DivModUnique(l, 0x100, m, l - m * 0x100);
  }

  /** A word with the four channels packed from the high byte down. */
  lemma PackedChannels(r: U8, g: U8, b: U8, a: U8, p: int)
    requires p == r * 0x100_0000 + g * 0x1_0000 + b * 0x100 + a
    ensures 0 <= p < U32_MODULUS
    ensures Red(p) == r && Gre(p) == g && Blu(p) == b && Alp(p) == a
  {
    DivModUnique(p, 0x100_0000, r, g * 0x1_0000 + b * 0x100 + a);
    DivModUnique(p, 0x1_0000, r * 0x100 + g, b * 0x100 + a);
    DivModUnique(r * 0x100 + g, 0x100, r, g);
    DivModUnique(p, 0x100, r * 0x1_0000 + g * 0x100 + b, a);
    DivModUnique(r * 0x1_0000 + g * 0x100 + b, 0x100, r * 0x100 + g, b);
    DivModUnique(p, 0x100, p / 0x100, a);
  }

  /** `pix(red, gre, blu, alp)`: the four channels packed into one word.  The shifted
      channels occupy disjoint bits, so the `|` of the source is their sum. */
  function Pix(r: U8, g: U8, b: U8, a: U8): (p: U32)
    ensures Red(p) == r && Gre(p) == g && Blu(p) == b && Alp(p) == a
  {
    PackedChannels(r, g, b, a, r * 0x100_0000 + g * 0x1_0000 + b * 0x100 + a);
    r * 0x100_0000 + g * 0x1_0000 + b * 0x100 + a
  }

  /** Packing a word's own channels gives the word back. */
  lemma PixOfChannels(p: U32)
    ensures Pix(Red(p), Gre(p), Blu(p), Alp(p)) == p
  {
    ChannelsCompose(p);
  }

  /** Two words with the same four channels are the same word. */
  lemma ChannelsDetermine(p: U32, q: U32)
    requires Red(p) == Red(q) && Gre(p) == Gre(q) && Blu(p) == Blu(q) && Alp(p) == Alp(q)
    ensures p == q
  {
    PixOfChannels(p);
    PixOfChannels(q);
  }

  /** The three-channel `pix`: an opaque colour. */
  function PixOpaque(r: U8, g: U8, b: U8): (p: U32)
    ensures Red(p) == r && Gre(p) == g && Blu(p) == b
    ensures Alp(p) == 0xff
  {
    PackedChannels(r, g, b, 0xff, r * 0x100_0000 + g * 0x1_0000 + b * 0x100 + 0xff);
    r * 0x100_0000 + g * 0x1_0000 + b * 0x100 + 0xff
  }

  /** The three-channel `pix` is the four-channel one with full alpha. */
  lemma PixOpaqueFull(r: U8, g: U8, b: U8)
    ensures PixOpaque(r, g, b) == Pix(r, g, b, 0xff)
  {
    ChannelsDetermine(PixOpaque(r, g, b), Pix(r, g, b, 0xff));
  }

  /** `channelReturn`: the four channels of a pixel. */
  datatype ChannelReturn = ChannelReturn(red: U8, gre: U8, blu: U8, alp: U8)

  /** `pix(pixel)`: the pixel split into its channels, which pack back into it. */
  function Split(p: U32): (c: ChannelReturn)
    ensures Pix(c.red, c.gre, c.blu, c.alp) == p
  {
    PixOfChannels(p);
    ChannelReturn(Red(p), Gre(p), Blu(p), Alp(p))
  }

  /** Splitting a packed pixel recovers the channels it was packed from. */
  lemma SplitPix(r: U8, g: U8, b: U8, a: U8)
    ensures Split(Pix(r, g, b, a)) == ChannelReturn(r, g, b, a)
  {
  }

  // ---------------------------------------------------------------- positions

  /** `pos(x, y, width)`: the row-major index, computed in `u32` arithmetic. */
  function Pos(x: U32, y: U32, width: U32): (i: U32)
    ensures y * width + x < U32_MODULUS ==> i == y * width + x
  {
    ToU32(y * width + x)
  }

  /** Every index of a `width`-wide buffer is the position of its own column and row. */
  lemma PosOfIndex(k: U32, width: U32)
    requires width > 0
    ensures k % width < width && k / width < U32_MODULUS
    ensures Pos(k % width, k / width, width) == k
  {
    DivModUnique(k, width, k / width, k % width);
    assert (k / width) * width + k % width == k;
  }

  /** Distinct in-row cells of a buffer that fits `u32` indices have distinct positions. */
  lemma PosInjective(x0: U32, y0: U32, x1: U32, y1: U32, width: U32)
    requires x0 < width && x1 < width
    requires y0 * width + x0 < U32_MODULUS && y1 * width + x1 < U32_MODULUS
    requires Pos(x0, y0, width) == Pos(x1, y1, width)
    ensures x0 == x1 && y0 == y1
  {
    var k := y0 * width + x0;
    DivModUnique(k, width, y0, x0);
    DivModUnique(k, width, y1, x1);
  }

  // ---------------------------------------------------------------- colour distance

  /** `difference(pixel0, pixel1)`: the summed channel distances, alpha not counted. */
  function Difference(p0: U32, p1: U32): (d: U32)
    ensures d <= MAX_LUMINANCE
    ensures d == 0 <==> Red(p0) == Red(p1) && Gre(p0) == Gre(p1) && Blu(p0) == Blu(p1)
  {
    Abs(Red(p1) - Red(p0)) + Abs(Gre(p1) - Gre(p0)) + Abs(Blu(p1) - Blu(p0))
  }

  /** `difference(red, gre, blu, pixel)`: the same distance from separate channels. */
  function DifferenceTo(r: U8, g: U8, b: U8, p: U32): (d: U32)
    ensures d <= MAX_LUMINANCE
  {
    Abs(Red(p) - r) + Abs(Gre(p) - g) + Abs(Blu(p) - b)
  }

  /** The distance does not depend on the order of the two pixels. */
  lemma DifferenceSymmetric(p0: U32, p1: U32)
    ensures Difference(p0, p1) == Difference(p1, p0)
  {
  }

  /** The distance does not depend on either pixel's alpha. */
  lemma DifferenceIgnoresAlpha(p0: U32, p1: U32, a0: U8, a1: U8)
    ensures Difference(Pix(Red(p0), Gre(p0), Blu(p0), a0), Pix(Red(p1), Gre(p1), Blu(p1), a1))
         == Difference(p0, p1)
  {
  }

  /** The two overloads agree: the channel form measures from the first pixel's channels. */
  lemma DifferenceOverloads(p0: U32, p1: U32)
    ensures DifferenceTo(Red(p0), Gre(p0), Blu(p0), p1) == Difference(p0, p1)
  {
  }

  /** `luminance`: the channel sum, alpha not counted. */
  function Luminance(p: U32): (l: int)
    ensures 0 <= l <= MAX_LUMINANCE
    ensures l == 0 <==> Red(p) == 0 && Gre(p) == 0 && Blu(p) == 0
  {
    Red(p) + Gre(p) + Blu(p)
  }

  /** Luminance is the distance from black. */
  lemma LuminanceFromBlack(p: U32, a: U8)
    ensures Luminance(p) == Difference(Pix(0, 0, 0, a), p)
  {
  }

  // ---------------------------------------------------------------- integer helpers

  /** For a divisor that `int` can hold, C's remainder is the Euclidean one for a
      non-negative dividend, and for a negative one it is `b` short of the Euclidean
      remainder, or of `b` itself on an exact multiple. */
  lemma RemShift(a: I32, b: int)
    requires 0 < b <= INT_MAX
    ensures a >= 0 ==> Rem(a, b) == a % b
    ensures a < 0 ==> Rem(a, b) + b == if a % b == 0 then b else a % b
  {
    var q := Quot(a, b);
    var m := Rem(a, b);
    assert a == q * b + m;
    if a >= 0 {
      DivModUnique(a, b, q, m);
    } else if m == 0 {
      DivModUnique(a, b, q, 0);
    } else {
      DivModUnique(a, b, q - 1, m + b);
    }
  }

  /** `mod(a, b)`: C's remainder by `(int)b`, plus `b` when `a` is negative; the addition
      is done in `unsigned` arithmetic and the sum converted back to `int`.  For a
      divisor that `int` can hold this is the Euclidean remainder, except that a
      negative exact multiple of `b` gives `b` instead of 0. */
  function Mod(a: I32, b: U32): (r: I32)
    requires b != 0
    ensures 0 < b <= INT_MAX ==> r == if a < 0 && a % b == 0 then b else a % b
  {
    var m := Rem(a, ToI32(b));
    var r := if a < 0 then ToI32(ToU32(m + b)) else m;
    if b <= INT_MAX then RemShift(a, b); r else r
  }

  /** Consequently `mod` lands in `[0, b]` and differs from `a` by a multiple of `b`. */
  lemma ModRange(a: I32, b: U32)
    requires 0 < b <= INT_MAX
    ensures 0 <= Mod(a, b) <= b
    ensures a >= 0 ==> Mod(a, b) < b
    ensures (Mod(a, b) - a) % b == 0
  {
    var q := a / b;
    assert a == q * b + a % b;
    if a < 0 && a % b == 0 {
      DivModUnique(b - a, b, 1 - q, 0);
    } else {
      DivModUnique(a % b - a, b, -q, 0);
    }
  }

  /** The distance between two integers. */
  function Dist(a: int, b: int): nat
  {
    Abs(a - b)
  }

  /** `conformToRange(val, low, high)`: `val` moved into `[low, high]` when it lies outside. */
  function ConformToRange(val: int, low: int, high: int): (r: int)
    ensures low <= high ==> low <= r <= high
    ensures low <= high ==> forall y :: low <= y <= high ==> Dist(r, val) <= Dist(y, val)
    ensures r == val || r == low || r == high
  {
    if val < low then low
    else if val > high then high
    else val
  }

  /** A value already in range is left alone, so conforming twice is conforming once. */
  lemma ConformIdempotent(val: int, low: int, high: int)
    requires low <= high
    ensures low <= val <= high ==> ConformToRange(val, low, high) == val
    ensures ConformToRange(ConformToRange(val, low, high), low, high) == ConformToRange(val, low, high)
  {
    if low <= val <= high {
      assert Dist(ConformToRange(val, low, high), val) <= Dist(val, val);
    }
    var r := ConformToRange(val, low, high);
    assert Dist(ConformToRange(r, low, high), r) <= Dist(r, r);
  }

  /** One channel plus noise, kept a byte.  The sum is `int` arithmetic, defined only
      while it does not pass INT_MAX. */
  function Noisy(c: U8, amount: I32): (n: U8)
    requires c + amount <= INT_MAX
    ensures 0 <= c + amount <= 0xff ==> n == c + amount
    ensures c + amount < 0 ==> n == 0
    ensures c + amount > 0xff ==> n == 0xff
  {
    ConformToRange(c + amount, 0x00, 0xff)
  }

  /** `addNoise(pixel, amountR, amountG, amountB)`: each colour channel moved by its
      amount and clamped to a byte; alpha kept. */
  function AddNoiseRgb(p: U32, dr: I32, dg: I32, db: I32): (q: U32)
    requires Red(p) + dr <= INT_MAX && Gre(p) + dg <= INT_MAX && Blu(p) + db <= INT_MAX
    ensures Red(q) == Noisy(Red(p), dr) && Gre(q) == Noisy(Gre(p), dg) && Blu(q) == Noisy(Blu(p), db)
    ensures Alp(q) == Alp(p)
  {
    Pix(Noisy(Red(p), dr), Noisy(Gre(p), dg), Noisy(Blu(p), db), Alp(p))
  }

  /** `addNoise(pixel, amount)`: the same amount on all three colour channels. */
  function AddNoise(p: U32, amount: I32): (q: U32)
    requires Red(p) + amount <= INT_MAX && Gre(p) + amount <= INT_MAX && Blu(p) + amount <= INT_MAX
    ensures Alp(q) == Alp(p)
    ensures Red(q) == Noisy(Red(p), amount) && Gre(q) == Noisy(Gre(p), amount) && Blu(q) == Noisy(Blu(p), amount)
  {
    Pix(Noisy(Red(p), amount), Noisy(Gre(p), amount), Noisy(Blu(p), amount), Alp(p))
  }

  /** The one-amount overload is the three-amount one with equal amounts. */
  lemma AddNoiseUniform(p: U32, amount: I32)
    requires Red(p) + amount <= INT_MAX && Gre(p) + amount <= INT_MAX && Blu(p) + amount <= INT_MAX
    ensures AddNoise(p, amount) == AddNoiseRgb(p, amount, amount, amount)
  {
  }

  /** No noise leaves the pixel as it was. */
  lemma AddNoiseZero(p: U32)
    ensures AddNoise(p, 0) == p
  {
    assert Noisy(Red(p), 0) == Red(p) && Noisy(Gre(p), 0) == Gre(p) && Noisy(Blu(p), 0) == Blu(p);
    PixOfChannels(p);
  }

  /** Noise moves a channel toward the amount's sign by at most the amount. */
  lemma NoisyBetween(c: U8, amount: I32)
    requires c + amount <= INT_MAX
    ensures amount >= 0 ==> c <= Noisy(c, amount) <= c + amount
    ensures amount <= 0 ==> c + amount <= Noisy(c, amount) <= c
  {
  }

  /** `smallBound(x)`: `x` raised to 0 when negative. */
  function SmallBound(x: I32): (r: I32)
    ensures r >= 0 && r >= x
    ensures r == x || r == 0
  {
    if x < 0 then 0 else x
  }

  /** `largeBound(x, width)` as written: `x > width` compares in `unsigned` arithmetic, so
      a negative `x` counts as huge and is replaced by `width`. */
  function LargeBound(x: I32, width: U32): (r: I32)
    ensures r == x || r == ToI32(width)
    ensures ToU32(r) <= width
  {
    if ToU32(x) > width then ToI32(width) else x
  }

  /** Every negative `x` is sent to `width`; `largeBound(-1, 10)` is 10. */
  lemma LargeBoundNegative(x: I32, width: U32)
    requires x < 0 && width <= INT_MAX
    ensures LargeBound(x, width) == width
    ensures LargeBound(-1, 10) == 10
  {
  }

  /** An upper clamp: `x` lowered to `width` when above it, compared as integers. */
  function UpperBound(x: I32, width: U32): (r: I32)
    requires width <= INT_MAX
    ensures r <= x && r <= width
    ensures r == x || r == width
  {
    if x > width then width else x
  }

  /** The two agree on every `x` the comparison does not reinterpret. */
  lemma LargeBoundNonNegative(x: I32, width: U32)
    requires x >= 0 && width <= INT_MAX
    ensures LargeBound(x, width) == UpperBound(x, width)
  {
  }

  /** With both bounds, a coordinate lies in `[0, width]`. */
  lemma BoundsClamp(x: I32, width: U32)
    requires width <= INT_MAX
    ensures 0 <= UpperBound(SmallBound(x), width) <= width
    ensures 0 <= x <= width ==> UpperBound(SmallBound(x), width) == x
  {
  }

  // ---------------------------------------------------------------- sampling

  /** The source buffer of a `width` by `height` image, addressable by `u32` positions. */
  predicate Covers(src: seq<U32>, width: U32, height: U32)
  {
    |src| == width * height <= U32_MODULUS
  }

  /** `sample::at`: the pixel at `(x, y)`, or the fallback colour outside the image. */
  function At(src: seq<U32>, x: U32, y: U32, width: U32, height: U32, fallback: U32): (c: U32)
    requires x < width && y < height ==> Pos(x, y, width) < |src|
    ensures x >= width || y >= height ==> c == fallback
    ensures x < width && y < height ==> c in src
  {
    if x >= width || y >= height then fallback
    else src[Pos(x, y, width)]
  }

  /** Inside a covering buffer the position does not wrap, so the precondition of `At`
      holds and `At` reads the row-major cell. */
  lemma AtInside(src: seq<U32>, x: U32, y: U32, width: U32, height: U32)
    requires Covers(src, width, height) && x < width && y < height
    ensures y * width + x < |src| && Pos(x, y, width) == y * width + x
  {
    assert y * width + x < y * width + width;
    assert (y + 1) * width <= height * width by {
      MulMono(y + 1, height, width);
    }
  }

  /** Multiplication by a natural is monotone. */
  lemma MulMono(a: nat, b: nat, c: nat)
    requires a <= b
    ensures a * c <= b * c
  {
  }

  /** Sampling covers the buffer: each index is read back at its own column and row,
      whatever the fallback. */
  lemma AtEveryIndex(src: seq<U32>, width: U32, height: U32, k: nat, fallback: U32)
    requires Covers(src, width, height) && k < |src|
    ensures width > 0 && k % width < width && k / width < height
    ensures At(src, k % width, k / width, width, height, fallback) == src[k]
  {
    PosOfIndex(k, width);
  }

  /** Outside the image only the fallback is seen, whatever the buffer holds. */
  lemma AtOutside(src: seq<U32>, other: seq<U32>, x: U32, y: U32, width: U32, height: U32, fallback: U32)
    requires x >= width || y >= height
    ensures At(src, x, y, width, height, fallback) == fallback == At(other, x, y, width, height, fallback)
  {
  }
}

=== FILE: interpreter.dfy ===
/**
 * The top-level state machine of Engine568 (`run`): read one signal, dispatch on it,
 * keep the last operand and the pending operator between instructions, and stop on
 * the first error or when the scan between two instructions leaves the grid.
 */
module Interpreter {
  import opened Base
  import opened Signals
  import opened Machine
  import opened Cursor
  import opened Operators
  import opened Grammar
  import opened CInt

  /** The set-up at the top of `run`: register 0 becomes the number of seeded operands,
      the cursor sits one cell left of the top-left corner heading right, and the last
      operand is cleared.  (The pending operator is not touched.) */
  function Start(s: State): (r: State)
    requires Valid(s)
    ensures Heading(r)
    ensures (r.x, r.y, r.dx, r.dy) == (-1, 0, 1, 0)
    ensures r.registers[0].integer == s.nextReg - 1
    ensures r.registers[0].pointsTo == s.registers[0].pointsTo
    ensures forall j: RegIndex :: j != 0 ==> r.registers[j] == s.registers[j]
    ensures r.last == Operand(0, NoHandle)
    ensures r == s.(registers := r.registers, x := r.x, y := r.y, dx := r.dx, dy := r.dy, last := r.last)
  {
    s.(registers := s.registers[0 := s.registers[0].(integer := s.nextReg - 1)],
       x := -1, y := 0, dx := 1, dy := 0,
       last := Operand(0, NoHandle))
  }

  /** The green instruction: parse an operand; a pending operator, if any, is applied to
      (last operand, new operand) and cleared, and its result becomes the last operand's
      value.  The new operand's handle always becomes the last operand's handle, even
      when the operand failed to parse. */
  function ConsumeOperand(s: State): (r: State)
    requires Ready(s)
    ensures Evolves(s, r)
    ensures r.pending.None?
    ensures r.output == s.output
    ensures r.last.handle == ParseVal(s).operand.handle
    ensures s.pending.None? ==> r == ParseVal(s).st.(last := ParseVal(s).operand)
    ensures s.pending.Some? ==> r.last.value == ApplyPending(ParseVal(s).st, s.pending.value, ParseVal(s).operand).value
    // the pending operator's stores (an assignment, a compound assignment) and its error
    // are what the run keeps
    ensures s.pending.Some? ==>
      var a := ApplyPending(ParseVal(s).st, s.pending.value, ParseVal(s).operand);
      (r.registers, r.arrays, r.error) == (a.st.registers, a.st.arrays, a.st.error)
  {
    var v := ParseVal(s);
    match s.pending
    case None => v.st.(last := v.operand)
    case Some(p) =>
      var a := ApplyPending(v.st, p, v.operand);
      a.st.(pending := None, last := Operand(a.value, v.operand.handle))
  }

  /** The blue instruction: parse a tier-1 operator; logical not is applied at once
      through the last operand's handle, a binary operator becomes pending. */
  function Tier1Statement(s: State): (r: State)
    requires Ready(s)
    ensures Evolves(s, r)
    ensures r.last == s.last && r.output == s.output
    ensures r.pending != s.pending ==> r.pending.Some? && r.pending.value.Arith?
    ensures r.error.Some? ==> r.error == Some(OutOfBounds) || r.error == Some(UnaryWithoutTarget)
    ensures r.error == Some(UnaryWithoutTarget) ==> s.last.handle.NoHandle?
    // By the operator read: a failed read stops; a binary operator becomes pending with
    // storage untouched; logical not writes through the last operand's handle, or fails
    // when there is none.
    ensures ParseOperator1(s).op.None? ==> r == ParseOperator1(s).st
    ensures ParseOperator1(s).op.Some? && ParseOperator1(s).op.value.Binary? ==>
      && r.error.None? && r.pending == Some(Arith(ParseOperator1(s).op.value.op))
      && r.registers == s.registers && r.arrays == s.arrays
    ensures ParseOperator1(s).op == Some(Not) && s.last.handle.NoHandle? ==> r.error == Some(UnaryWithoutTarget)
    ensures ParseOperator1(s).op == Some(Not) && !s.last.handle.NoHandle? ==>
      && r.error.None? && r.pending == s.pending
      && (ReadHandle(s, s.last.handle).Some? ==> ReadHandle(r, s.last.handle) == Some(LogicalNot(s.last.value)))
  {
    var o := ParseOperator1(s);
    if o.st.error.Some? then o.st
    else
      match o.op.value
      case Not => ApplyUnary(o.st)
      case Binary(op) => o.st.(pending := Some(Arith(op)))
  }

  /** One top-level instruction, selected by the signal under the cursor. */
  function Dispatch(s: State, c: Signal, fuel: nat): (r: Fuelled<State>)
    requires Ready(s)
    ensures r.Done? ==> Evolves(s, r.result)
    ensures c != Cyan ==> r.Done?
    // red adopts the direction read, even the (0,0) of a failed read
    ensures c == Red ==>
      var d := ParseDir(s);
      (r.result.dx, r.result.dy, r.result.error) == (d.dx, d.dy, d.st.error)
    // yellow moves the cursor and may turn it, and nothing else; it turns only on a
    // nonzero last value
    ensures c == Yellow ==> r.result == s.(x := r.result.x, y := r.result.y, dx := r.result.dx, dy := r.result.dy, error := r.result.error)
    ensures c == Yellow ==> r == Done(ParseBranch(s))
    // green consumes the pending operator and takes the new operand's handle
    ensures c == Green ==> r.result.pending.None? && r.result.last.handle == ParseVal(s).operand.handle
    // the statements that do not read an operand keep the last one
    ensures c == Cyan && r.Done? ==> (r.result.last, r.result.pending, r.result.output) == (s.last, s.pending, s.output)
    // cyan is the heap statement, allocation and initialisers included
    ensures c == Cyan ==> r == ParseHeap(s, fuel)
    ensures c == Blue ==> r.result.last == s.last && r.result.output == s.output
    ensures c == Magenta ==> r.result.last == s.last
  {
    match c
    case Red =>
      var d := ParseDir(s);
      Done(d.st.(dx := d.dx, dy := d.dy))
    case Yellow => Done(ParseBranch(s))
    case Green => Done(ConsumeOperand(s))
    case Cyan => ParseHeap(s, fuel)
    case Blue => Done(Tier1Statement(s))
    case Magenta => Done(ParseOperator2(s))
  }

  /** What the loop needs of the state it resumes in: when no error is set, the cursor
      heads somewhere and `sig` is what the last scan found under it. */
  predicate LoopReady(s: State, sig: Option<Signal>)
  {
    && Valid(s)
    && (s.error.None? ==>
         && UnitDir(s.dx, s.dy)
         && (sig.None? <==> OffGrid(s))
         && (sig.Some? ==> SignalAt(s.grid, s.x, s.y) == sig))
  }

  /** The `while` loop of `run`, allowed at most `fuel` instructions.  It halts without
      an error only when the scan between instructions leaves the grid. */
  function Loop(s: State, sig: Option<Signal>, fuel: nat): (r: Fuelled<State>)
    requires LoopReady(s, sig)
    ensures r.Done? ==> Valid(r.result) && r.result.grid == s.grid && r.result.nextReg == s.nextReg
    ensures r.Done? && r.result.error.None? ==> OffGrid(r.result)
    ensures s.error.Some? || sig.None? ==> r == Done(s)
    decreases fuel
  {
    if s.error.Some? || sig.None? then Done(s)
    else if fuel == 0 then OutOfFuel
    else
      match Dispatch(s, sig.value, fuel)
      case OutOfFuel => OutOfFuel
      case Done(s1) =>
        if s1.error.Some? then Done(s1)
        else
          var sc := MoveUntil(s1);
          Loop(sc.st, sc.signal, fuel - 1)
  }

  /** `run` with a budget of `fuel` instructions (and `fuel` iterations for each
      allocation block's initialiser loop); `OutOfFuel` when that is not enough. */
  function Run(s: State, fuel: nat): (r: Fuelled<State>)
    requires Valid(s)
    ensures r.Done? ==> Valid(r.result) && r.result.grid == s.grid
    ensures r.Done? && r.result.error.None? ==> OffGrid(r.result)
  {
    var s0 := Start(s);
    var sc := MoveUntil(s0);
    Loop(sc.st, sc.signal, fuel)
  }

  /** A program none of whose first-row cells is a signal halts normally, with the
      cursor just past the right edge of the first row, whatever the budget. */
  lemma RunWithoutSignalsHalts(s: State, fuel: nat)
    requires Valid(s) && s.error.None? && s.grid.height > 0
    requires forall x :: 0 <= x < s.grid.width ==> SignalAt(s.grid, x, 0).None?
    ensures Run(s, fuel).Done?
    ensures var r := Run(s, fuel).result;
      r.error.None? && (r.x, r.y) == (s.grid.width, 0)
  {
    var s0 := Start(s);
    MoveUntilWalksStraight(s0);
    var sc := MoveUntil(s0);
    var n := Steps(s0, sc.st);
    if n - 1 < s.grid.width {
      assert false;
    }
    assert !InertAhead(s0, s.grid.width + 1);
  }

  /** A direction instruction whose direction colour is never reached before the edge
      halts the run with `OutOfBounds`, not with normal termination. */
  lemma DirectionAtEdgeFails(s: State, fuel: nat)
    requires Ready(s) && !OffGrid(s) && SignalAt(s.grid, s.x, s.y) == Some(Red) && fuel > 0
    requires MoveUntil(s).signal.None?
    ensures Loop(s, Some(Red), fuel).Done?
    ensures Loop(s, Some(Red), fuel).result.error == Some(OutOfBounds)
  {
  }
}

=== FILE: legacy_program.dfy ===
/**
 * The older Java interpreter `Program`: every pixel is an instruction whose red byte
 * is the instruction type and whose green and blue bytes are its parameters.  The
 * interpreter walks from an entry pixel one cell at a time, in a search mode that
 * reads literals, variables, operators and directions, until a terminate pixel
 * switches it to collecting a fixed number of output literals.  Java exceptions are
 * the `Thrown` outcomes.
 */
module LegacyProgram {
  import opened Base
  import opened ImageUtil

  // ---------------------------------------------------------------- codes

  const TYPE_ENTRY: int := 0
  const TYPE_TERMINATE: int := 10
  const TYPE_DIRECT: int := 20
  const TYPE_LITERAL: int := 40
  const TYPE_VARIABLE: int := 50
  const TYPE_OPERATOR: int := 70

  const DIRECTION_RIGHT: int := 0
  const DIRECTION_DOWN: int := 50
  const DIRECTION_LEFT: int := 100
  const DIRECTION_UP: int := 150

  const OPCODE_NONE: int := 0
  const OPCODE_ASSIGNMENT: int := 10
  const OPCODE_AND: int := 20
  const OPCODE_OR: int := 30
  const OPCODE_ADD: int := 40
  const OPCODE_SUBTRACT: int := 50
  const OPCODE_MULTIPLY: int := 60
  const OPCODE_DIVIDE: int := 70

  /** The sentinel address of a value that is not a variable. */
  const NO_ADDRESS: int := -1

  /** The size of the variable store, `1 << 16`. */
  const VARIABLE_COUNT: int := 0x1_0000

  datatype Direction = Right | Down | Left | Up

  datatype Operator = NoOperator | Assignment | And | Or | Add | Subtract | Multiply | Divide

  /** The interpreter's two modes. */
  datatype Mode = Search | Terminating

  /** The type of the current value (`TYPE_VOID`, `TYPE_INT`); arrays are never produced. */
  datatype ValueType = VoidType | IntType

  /** The exceptions the interpreter throws. */
  datatype Failure =
    | NoProperDirection
    | NoProperOperator
    | NoEntryPoint
    | OutOfBounds(x: int, y: int)
    | AssignmentTypeError
    | AndTypeError
    | IndexOutOfBounds

  /** A value, or the exception that ended the computation. */
  datatype Outcome<+T> = Ok(value: T) | Thrown(error: Failure)

  // ---------------------------------------------------------------- pixel fields

  /** `getReg(rgb, part)`: byte `part` of the low 24 bits, counted from the high end
      (`rgb >> (2 - part) * 8 & 0xff`; an arithmetic shift is a floor division). */
  function GetReg(rgb: int, part: int): (b: U8)
    requires 0 <= part <= 2
    ensures part == 0 ==> b * 0x1_0000 <= rgb % 0x100_0000 < (b + 1) * 0x1_0000
    ensures part == 1 ==> b * 0x100 <= rgb % 0x1_0000 < (b + 1) * 0x100
    ensures part == 2 ==> (rgb - b) % 0x100 == 0
  {
    var d := if part == 0 then 0x1_0000 else if part == 1 then 0x100 else 1;
    ByteField(rgb, d, rgb / d % 0x100);
    rgb / d % 0x100
  }

  /** The byte `b` of `x` at weight `d` is the one the remainder modulo `d * 0x100`
      selects. */
  lemma ByteField(x: int, d: int, b: int)
    requires d > 0 && b == x / d % 0x100
    ensures b * d <= x % (d * 0x100) < (b + 1) * d
  {
    var q, r0 := x / d, x % d;
    var hi := q / 0x100;
    assert q == hi * 0x100 + b;
    assert x == q * d + r0;
    ScaleSplit(hi, b, d);
    ByteScaled(b, d);
    DivModUnique(x, d * 0x100, hi, b * d + r0);
  }

  /** Scaling `hi * 0x100 + b` by `d` scales both parts. */
  lemma ScaleSplit(hi: int, b: int, d: int)
    ensures (hi * 0x100 + b) * d == hi * (d * 0x100) + b * d
  {
  }

  /** A byte scaled by a positive `d` stays below `d * 0x100`. */
  lemma ByteScaled(b: int, d: int)
    requires 0 <= b < 0x100 && d > 0
    ensures 0 <= b * d && b * d + d <= d * 0x100 && (b + 1) * d == b * d + d
  {
  }

  /** A pixel word whose three low bytes are `r0 r1 r2`, above which any alpha `hi`
      (negative for a Java ARGB word with the top bit set) is read back field by field. */
  lemma GetRegOfPixel(hi: int, r0: U8, r1: U8, r2: U8, rgb: int)
    requires rgb == hi * 0x100_0000 + r0 * 0x1_0000 + r1 * 0x100 + r2
    ensures GetReg(rgb, 0) == r0 && GetReg(rgb, 1) == r1 && GetReg(rgb, 2) == r2
  {
    DivModUnique(rgb, 0x1_0000, hi * 0x100 + r0, r1 * 0x100 + r2);
    DivModUnique(hi * 0x100 + r0, 0x100, hi, r0);
    DivModUnique(rgb, 0x100, hi * 0x1_0000 + r0 * 0x100 + r1, r2);
    DivModUnique(hi * 0x1_0000 + r0 * 0x100 + r1, 0x100, hi * 0x100 + r0, r1);
  }

  /** The three fields are the whole of the low 24 bits. */
  lemma GetRegCompose(rgb: int)
    ensures rgb % 0x100_0000 == GetReg(rgb, 0) * 0x1_0000 + GetReg(rgb, 1) * 0x100 + GetReg(rgb, 2)
  {
    var h, m, l := rgb / 0x1_0000, rgb / 0x100, rgb;
    DivModUnique(rgb, 0x100, m, rgb % 0x100);
    DivModUnique(m, 0x100, m / 0x100, m % 0x100);
    DivModUnique(rgb, 0x1_0000, m / 0x100, m % 0x100 * 0x100 + rgb % 0x100);
    DivModUnique(h, 0x100, h / 0x100, h % 0x100);
    DivModUnique(rgb, 0x100_0000, h / 0x100, h % 0x100 * 0x1_0000 + m % 0x100 * 0x100 + rgb % 0x100);
  }

  /** `getValue(reg1, reg2)`: two bytes read as one 16-bit number, `reg1` high. */
  function GetValue(reg1: U8, reg2: U8): (v: int)
    ensures 0 <= v < VARIABLE_COUNT
    ensures v / 0x100 == reg1 && v % 0x100 == reg2
  {
    DivModUnique(reg1 * 0x100 + reg2, 0x100, reg1, reg2);
    reg1 * 0x100 + reg2
  }

  /** Distinct byte pairs give distinct values. */
  lemma GetValueInjective(a1: U8, a2: U8, b1: U8, b2: U8)
    requires GetValue(a1, a2) == GetValue(b1, b2)
    ensures a1 == b1 && a2 == b2
  {
  }

  /** Every 16-bit number is the value of its own two bytes. */
  lemma GetValueOnto(v: int)
    requires 0 <= v < VARIABLE_COUNT
    ensures v / 0x100 < 0x100 && GetValue(v / 0x100, v % 0x100) == v
  {
  }

  // ---------------------------------------------------------------- code tables

  /** The code that selects each direction. */
  function DirectionCode(d: Direction): int
  {
    match d
    case Right => DIRECTION_RIGHT
    case Down => DIRECTION_DOWN
    case Left => DIRECTION_LEFT
    case Up => DIRECTION_UP
  }

  /** `parseDirection`: the direction with this code, or an exception for any other. */
  function ParseDirection(code: int): (r: Outcome<Direction>)
    ensures r.Ok? ==> DirectionCode(r.value) == code
    ensures r.Thrown? ==> r.error == NoProperDirection && forall d :: DirectionCode(d) != code
  {
    if code == DIRECTION_RIGHT then Ok(Right)
    else if code == DIRECTION_DOWN then Ok(Down)
    else if code == DIRECTION_LEFT then Ok(Left)
    else if code == DIRECTION_UP then Ok(Up)
    else Thrown(NoProperDirection)
  }

  /** Parsing a direction's code gives that direction. */
  lemma ParseDirectionCode(d: Direction)
    ensures ParseDirection(DirectionCode(d)) == Ok(d)
  {
  }

  /** The code that selects each operator. */
  function OperatorCode(o: Operator): int
  {
    match o
    case NoOperator => OPCODE_NONE
    case Assignment => OPCODE_ASSIGNMENT
    case And => OPCODE_AND
    case Or => OPCODE_OR
    case Add => OPCODE_ADD
    case Subtract => OPCODE_SUBTRACT
    case Multiply => OPCODE_MULTIPLY
    case Divide => OPCODE_DIVIDE
  }

  /** `parseOperator`: the operator with this code, or an exception for any other. */
  function ParseOperator(code: int): (r: Outcome<Operator>)
    ensures r.Ok? ==> OperatorCode(r.value) == code
    ensures r.Thrown? ==> r.error == NoProperOperator && forall o :: OperatorCode(o) != code
  {
    if code == OPCODE_NONE then Ok(NoOperator)
    else if code == OPCODE_ASSIGNMENT then Ok(Assignment)
    else if code == OPCODE_AND then Ok(And)
    else if code == OPCODE_OR then Ok(Or)
    else if code == OPCODE_ADD then Ok(Add)
    else if code == OPCODE_SUBTRACT then Ok(Subtract)
    else if code == OPCODE_MULTIPLY then Ok(Multiply)
    else if code == OPCODE_DIVIDE then Ok(Divide)
    else Thrown(NoProperOperator)
  }

  /** Parsing an operator's code gives that operator. */
  lemma ParseOperatorCode(o: Operator)
    ensures ParseOperator(OperatorCode(o)) == Ok(o)
  {
  }

  /** The operator codes are the multiples of ten from 0 to 70. */
  lemma OperatorCodes(code: int)
    ensures ParseOperator(code).Ok? <==> 0 <= code <= 70 && code % 10 == 0
  {
  }

  // ---------------------------------------------------------------- the image

  /** The decoded image: `program[y][x]` is the ARGB word of pixel `(x, y)`. */
  datatype Image = Image(width: int, height: int, program: seq<seq<int>>)

  predicate WellFormed(img: Image)
  {
    && 0 <= img.width && 0 <= img.height && |img.program| == img.height
    && forall j :: 0 <= j < img.height ==> |img.program[j]| == img.width
  }

  predicate InGrid(img: Image, x: int, y: int)
  {
    0 <= x < img.width && 0 <= y < img.height
  }

  function Cell(img: Image, x: int, y: int): int
    requires WellFormed(img) && InGrid(img, x, y)
  {
    img.program[y][x]
  }

  /** A pixel whose type field is `TYPE_ENTRY`. */
  predicate IsEntry(img: Image, x: int, y: int)
    requires WellFormed(img)
  {
    InGrid(img, x, y) && GetReg(Cell(img, x, y), 0) == TYPE_ENTRY
  }

  /** No entry pixel precedes `(x, y)` in row-major order. */
  ghost predicate NoEntryBefore(img: Image, x: int, y: int)
    requires WellFormed(img)
  {
    forall i, j :: (j < y || (j == y && i < x)) ==> !IsEntry(img, i, j)
  }

  /** The entry point found by `findEntry`: where the run starts, how many inputs it
      allocates, and the direction it starts in. */
  datatype Entry = Entry(x: int, y: int, inputs: nat, direction: Direction)

  /** `findEntry`: the first entry pixel in row-major order, whose green byte is the number
      of inputs and whose blue byte is the starting direction; an exception when there is
      no entry pixel, or when the first one names no direction. */
  method FindEntry(img: Image) returns (r: Outcome<Entry>)
    requires WellFormed(img)
    ensures r.Ok? ==> var e := r.value;
      && IsEntry(img, e.x, e.y) && NoEntryBefore(img, e.x, e.y)
      && e.inputs == GetReg(Cell(img, e.x, e.y), 1)
      && ParseDirection(GetReg(Cell(img, e.x, e.y), 2)) == Ok(e.direction)
    ensures r == Thrown(NoEntryPoint) <==> forall i, j :: !IsEntry(img, i, j)
    ensures r.Thrown? && r.error != NoEntryPoint ==>
      && r.error == NoProperDirection
      && exists i, j :: IsEntry(img, i, j) && NoEntryBefore(img, i, j)
                        && ParseDirection(GetReg(Cell(img, i, j), 2)).Thrown?
  {
    var j := 0;
    while j < img.height
      invariant 0 <= j <= img.height
      invariant NoEntryBefore(img, 0, j)
    {
      var i := 0;
      while i < img.width
        invariant 0 <= i <= img.width
        invariant NoEntryBefore(img, i, j)
      {
        var rgb := img.program[j][i];
        if GetReg(rgb, 0) == TYPE_ENTRY {
          var d := ParseDirection(GetReg(rgb, 2));
          assert IsEntry(img, i, j) && NoEntryBefore(img, i, j);
          if d.Thrown? {
            return Thrown(d.error);
          }
          return Ok(Entry(i, j, GetReg(rgb, 1), d.value));
        }
        i := i + 1;
      }
      j := j + 1;
    }
    return Thrown(NoEntryPoint);
  }

  // ---------------------------------------------------------------- the run state

  /** `RunInfo`: the interpreter's state between steps. */
  datatype Info = Info(
    direction: Direction,
    x: int,
    y: int,
    mode: Mode,
    paramCounter: int,
    operator: Operator,
    currentType: ValueType,
    currentAddress: int,
    currentValue: int,
    running: bool,
    outputs: seq<int>,
    variables: seq<int>)

  /** The state `run` starts from: at the entry, searching, no operator, no value, all
      65536 variables zero.  The outputs array is not allocated yet (empty here). */
  function Initial(e: Entry): (s: Info)
    ensures Consistent(s) && s.running && s.mode == Search
    ensures (s.x, s.y, s.direction) == (e.x, e.y, e.direction) && s.paramCounter == 0
    ensures s.operator == NoOperator && s.currentType == VoidType
    ensures s.currentAddress == NO_ADDRESS && s.currentValue == 0 && s.outputs == []
    ensures |s.variables| == VARIABLE_COUNT && forall k :: 0 <= k < |s.variables| ==> s.variables[k] == 0
  {
    Info(e.direction, e.x, e.y, Search, 0, NoOperator, VoidType, NO_ADDRESS, 0, true, [],
         seq(VARIABLE_COUNT, _ => 0))
  }

  /** The cell one step from `(x, y)` in direction `d`. */
  function Dx(d: Direction): int
  {
    match d
    case Right => 1
    case Left => -1
    case Down => 0
    case Up => 0
  }

  function Dy(d: Direction): int
  {
    match d
    case Down => 1
    case Up => -1
    case Right => 0
    case Left => 0
  }

  /** What holds of every state the interpreter reaches: a full variable store, an
      address that is a variable or the sentinel, an output counter within the outputs,
      and a stop only with every output written. */
  predicate Consistent(s: Info)
  {
    && |s.variables| == VARIABLE_COUNT
    && (s.currentAddress == NO_ADDRESS || 0 <= s.currentAddress < VARIABLE_COUNT)
    && (s.mode == Search ==> s.running)
    && (s.mode == Terminating ==> 0 <= s.paramCounter <= |s.outputs|)
    && (s.mode == Terminating && s.running ==> s.paramCounter < |s.outputs| || |s.outputs| == 0)
    && (!s.running ==> s.paramCounter == |s.outputs| > 0)
  }

  // ---------------------------------------------------------------- operators

  /** `operate(tempType, tempAddress, tempValue)`: apply the pending operator to the
      current value and the new one, then reset it.  Only assignment does anything: it
      stores the new value into the current value's variable. */
  function Operate(s: Info, tempType: ValueType, tempAddress: int, tempValue: int): (r: Outcome<Info>)
    ensures s.operator == NoOperator ==> r == Ok(s)
    ensures r.Ok? ==> r.value == s.(operator := NoOperator, variables := r.value.variables)
    ensures r.Ok? && r.value.variables != s.variables ==> s.operator == Assignment
    ensures s.operator == Assignment ==>
      (r.Ok? <==> s.currentType == IntType && tempType == IntType && s.currentAddress != NO_ADDRESS
                  && 0 <= s.currentAddress < |s.variables|)
    ensures s.operator == Assignment && r.Ok? ==>
      r.value.variables == s.variables[s.currentAddress := tempValue]
    ensures s.operator == And ==> (r.Ok? <==> s.currentType == IntType && tempType == IntType)
    // Or and the four arithmetic operators are never evaluated: they only reset the operator.
    ensures s.operator !in {NoOperator, Assignment, And} ==> r == Ok(s.(operator := NoOperator))
    ensures r.Thrown? ==> r.error in {AssignmentTypeError, AndTypeError, IndexOutOfBounds}
  {
    match s.operator
    case NoOperator => Ok(s)
    case Assignment =>
      if s.currentType == IntType && tempType == IntType && s.currentAddress != NO_ADDRESS then
        if 0 <= s.currentAddress < |s.variables| then
          Ok(s.(variables := s.variables[s.currentAddress := tempValue], operator := NoOperator))
        else Thrown(IndexOutOfBounds)
      else Thrown(AssignmentTypeError)
    case And =>
      if s.currentType == IntType && tempType == IntType then Ok(s.(operator := NoOperator))
      else Thrown(AndTypeError)
    case _ => Ok(s.(operator := NoOperator))
  }

  /** Applying the operator leaves nothing to apply. */
  lemma OperateOnce(s: Info, tempType: ValueType, tempAddress: int, tempValue: int)
    requires Operate(s, tempType, tempAddress, tempValue).Ok?
    ensures var t := Operate(s, tempType, tempAddress, tempValue).value;
      Operate(t, tempType, tempAddress, tempValue) == Ok(t)
  {
  }

  /** An assignment writes exactly one variable: the current one gets the new value and
      every other variable is unchanged. */
  lemma AssignmentWritesOne(s: Info, tempValue: int, k: int)
    requires s.operator == Assignment && s.currentType == IntType && s.currentAddress != NO_ADDRESS
    requires 0 <= s.currentAddress < |s.variables| && 0 <= k < |s.variables|
    ensures Operate(s, IntType, NO_ADDRESS, tempValue).Ok?
    ensures Operate(s, IntType, NO_ADDRESS, tempValue).value.variables[k]
         == if k == s.currentAddress then tempValue else s.variables[k]
  {
  }

  /** The new operand becomes the current value, after the pending operator has been
      applied to it: an assignment's store is kept, and nothing else changes. */
  function Load(s: Info, tempType: ValueType, tempAddress: int, tempValue: int): (r: Outcome<Info>)
    ensures r.Ok? ==> r.value.currentType == tempType && r.value.currentAddress == tempAddress
                      && r.value.currentValue == tempValue && r.value.operator == NoOperator
    ensures r.Ok? <==> Operate(s, tempType, tempAddress, tempValue).Ok?
    ensures r.Thrown? ==> r == Operate(s, tempType, tempAddress, tempValue)
    ensures r.Ok? ==>
      r.value == s.(operator := NoOperator,
                    variables := if s.operator == Assignment then s.variables[s.currentAddress := tempValue]
                                 else s.variables,
                    currentType := tempType, currentAddress := tempAddress, currentValue := tempValue)
  {
    match Operate(s, tempType, tempAddress, tempValue)
    case Thrown(e) => Thrown(e)
    case Ok(t) => Ok(t.(currentType := tempType, currentAddress := tempAddress, currentValue := tempValue))
  }

  // ---------------------------------------------------------------- the two modes

  /** `searchMode(reg0, reg1, reg2)`: one instruction in search mode. */
  function SearchMode(s: Info, reg0: U8, reg1: U8, reg2: U8): (r: Outcome<Info>)
    ensures reg0 == TYPE_TERMINATE ==>
      r == Ok(s.(mode := Terminating, paramCounter := 0, outputs := seq(reg1, _ => 0)))
    ensures reg0 == TYPE_LITERAL && r.Ok? ==>
      r.value.currentValue == GetValue(reg1, reg2) && r.value.currentAddress == NO_ADDRESS
    ensures reg0 == TYPE_VARIABLE && r.Ok? ==>
      && GetValue(reg1, reg2) < |s.variables|
      && r.value.currentAddress == GetValue(reg1, reg2) && r.value.currentValue == s.variables[GetValue(reg1, reg2)]
    ensures reg0 == TYPE_VARIABLE && GetValue(reg1, reg2) >= |s.variables| ==> r == Thrown(IndexOutOfBounds)
    // A literal or variable operand completes the pending operation: an assignment stores
    // the operand into the current variable, and the heading is kept.
    ensures (reg0 == TYPE_LITERAL || reg0 == TYPE_VARIABLE) && r.Ok? && s.operator == Assignment ==>
      s.currentType == IntType && 0 <= s.currentAddress < |s.variables|
    ensures (reg0 == TYPE_LITERAL || reg0 == TYPE_VARIABLE) && r.Ok? ==>
      && r.value.variables == (if s.operator == Assignment then s.variables[s.currentAddress := r.value.currentValue]
                               else s.variables)
      && r.value.direction == s.direction && r.value.operator == NoOperator
      && r.value.currentType == IntType
    ensures reg0 == TYPE_LITERAL ==> (r.Ok? <==> Operate(s, IntType, NO_ADDRESS, GetValue(reg1, reg2)).Ok?)
    ensures reg0 == TYPE_OPERATOR ==>
      (r.Ok? <==> ParseOperator(reg1).Ok?) && (r.Ok? ==> r.value == s.(operator := ParseOperator(reg1).value))
    ensures reg0 == TYPE_DIRECT ==>
      && (r.Ok? <==> ParseDirection(reg2).Ok?)
      && (r.Ok? ==> r.value == s.(direction := ParseDirection(reg2).value))
      && (r.Thrown? ==> r.error == NoProperDirection)
    // The switch has no default: an entry pixel or any unknown type code is skipped.
    ensures reg0 !in {TYPE_LITERAL, TYPE_VARIABLE, TYPE_OPERATOR, TYPE_DIRECT, TYPE_TERMINATE} ==> r == Ok(s)
    ensures r.Ok? ==> r.value.x == s.x && r.value.y == s.y && r.value.running == s.running
    ensures r.Ok? && reg0 != TYPE_TERMINATE ==> r.value.mode == s.mode && r.value.outputs == s.outputs
  {
    if reg0 == TYPE_LITERAL then
      Load(s, IntType, NO_ADDRESS, GetValue(reg1, reg2))
    else if reg0 == TYPE_VARIABLE then
      var address := GetValue(reg1, reg2);
      if address < |s.variables| then Load(s, IntType, address, s.variables[address])
      else Thrown(IndexOutOfBounds)
    else if reg0 == TYPE_OPERATOR then
      match ParseOperator(reg1)
      case Thrown(e) => Thrown(e)
      case Ok(o) => Ok(s.(operator := o))
    else if reg0 == TYPE_DIRECT then
      match ParseDirection(reg2)
      case Thrown(e) => Thrown(e)
      case Ok(d) => Ok(s.(direction := d))
    else if reg0 == TYPE_TERMINATE then
      Ok(s.(mode := Terminating, paramCounter := 0, outputs := seq(reg1, _ => 0)))
    else Ok(s)
  }

  /** `terminatingMode(reg0, reg1, reg2)`: a literal is the next output; the run stops
      once every output is written.  Any other instruction is ignored. */
  function TerminatingMode(s: Info, reg0: U8, reg1: U8, reg2: U8): (r: Outcome<Info>)
    ensures reg0 != TYPE_LITERAL ==> r == Ok(s)
    ensures reg0 == TYPE_LITERAL ==> (r.Ok? <==> 0 <= s.paramCounter < |s.outputs|)
    ensures reg0 == TYPE_LITERAL && r.Ok? ==>
      && r.value.outputs == s.outputs[s.paramCounter := GetValue(reg1, reg2)]
      && r.value.paramCounter == s.paramCounter + 1
      && (r.value.running <==> s.running && r.value.paramCounter != |s.outputs|)
      && r.value == s.(outputs := r.value.outputs, paramCounter := r.value.paramCounter, running := r.value.running)
  {
    if reg0 == TYPE_LITERAL then
      if 0 <= s.paramCounter < |s.outputs| then
        var t := s.(outputs := s.outputs[s.paramCounter := GetValue(reg1, reg2)],
                    paramCounter := s.paramCounter + 1);
        Ok(if t.paramCounter == |t.outputs| then t.(running := false) else t)
      else Thrown(IndexOutOfBounds)
    else Ok(s)
  }

  // ---------------------------------------------------------------- the run loop

  /** One iteration of the `run` loop: move one cell, fail off the grid, otherwise
      execute the pixel there (a direction pixel in either mode, else by mode). */
  function Step(img: Image, s: Info): (r: Outcome<Info>)
    requires WellFormed(img)
    ensures var x, y := s.x + Dx(s.direction), s.y + Dy(s.direction);
      && (r == Thrown(OutOfBounds(x, y)) <==> !InGrid(img, x, y))
      && (r.Ok? ==> r.value.x == x && r.value.y == y)
    // On the grid, a direction pixel turns in either mode; any other pixel is an
    // instruction of the current mode.
    ensures var x, y := s.x + Dx(s.direction), s.y + Dy(s.direction);
      InGrid(img, x, y) ==>
        var rgb := Cell(img, x, y);
        var reg0, reg1, reg2 := GetReg(rgb, 0), GetReg(rgb, 1), GetReg(rgb, 2);
        var s1 := s.(x := x, y := y);
        && (reg0 == TYPE_DIRECT ==>
              r == if ParseDirection(reg2).Ok? then Ok(s1.(direction := ParseDirection(reg2).value))
                   else Thrown(NoProperDirection))
        && (reg0 != TYPE_DIRECT && s.mode == Search ==> r == SearchMode(s1, reg0, reg1, reg2))
        && (reg0 != TYPE_DIRECT && s.mode == Terminating ==> r == TerminatingMode(s1, reg0, reg1, reg2))
  {
    var x, y := s.x + Dx(s.direction), s.y + Dy(s.direction);
    if !InGrid(img, x, y) then Thrown(OutOfBounds(x, y))
    else
      var rgb := Cell(img, x, y);
      var reg0, reg1, reg2 := GetReg(rgb, 0), GetReg(rgb, 1), GetReg(rgb, 2);
      var s1 := s.(x := x, y := y);
      var r: Outcome<Info> :=
        if reg0 == TYPE_DIRECT then
          match ParseDirection(reg2)
          case Thrown(e) => Thrown(e)
          case Ok(d) => Ok(s1.(direction := d))
        else if s.mode == Search then SearchMode(s1, reg0, reg1, reg2)
        else TerminatingMode(s1, reg0, reg1, reg2);
      assert r != Thrown(OutOfBounds(x, y));
      r
  }

  /** A step from a consistent running state reaches a consistent state. */
  lemma StepConsistent(img: Image, s: Info)
    requires WellFormed(img) && Consistent(s) && s.running
    requires Step(img, s).Ok?
    ensures Consistent(Step(img, s).value)
  {
    var x, y := s.x + Dx(s.direction), s.y + Dy(s.direction);
    var rgb := Cell(img, x, y);
    var reg0, reg1, reg2 := GetReg(rgb, 0), GetReg(rgb, 1), GetReg(rgb, 2);
    var s1 := s.(x := x, y := y);
    if reg0 != TYPE_DIRECT && s.mode == Search {
      if reg0 == TYPE_LITERAL || reg0 == TYPE_VARIABLE {
        var t := Operate(s1, IntType, GetValue(reg1, reg2), 0);
        assert GetValue(reg1, reg2) < VARIABLE_COUNT;
      }
    }
  }

  /** From a consistent state the only index failure is a literal written into an empty
      outputs array: a terminate pixel whose green byte is 0 can never end the run. */
  lemma OnlyEmptyOutputsOverflow(img: Image, s: Info)
    requires WellFormed(img) && Consistent(s) && s.running
    requires Step(img, s) == Thrown(IndexOutOfBounds)
    ensures s.mode == Terminating && s.outputs == []
  {
  }

  /** A successful step from a consistent running state is consistent again. */
  lemma StepKeepsConsistent(img: Image, s: Info)
    requires WellFormed(img)
    ensures Consistent(s) && s.running && Step(img, s).Ok? ==> Consistent(Step(img, s).value)
  {
    if Consistent(s) && s.running && Step(img, s).Ok? {
      StepConsistent(img, s);
    }
  }

  /** The `run` loop, allowed at most `fuel` steps: the outputs once it stops, or the
      exception a step throws.  From a consistent state, a run that ends without an
      exception has left search mode through a terminate pixel and written every one of
      its outputs, of which there is at least one. */
  function Run(img: Image, s: Info, fuel: nat): (r: Fuelled<Outcome<Info>>)
    requires WellFormed(img)
    ensures !s.running ==> r == Done(Ok(s))
    ensures Consistent(s) && r.Done? && r.result.Ok? ==>
      var t := r.result.value;
      !t.running && t.mode == Terminating && t.paramCounter == |t.outputs| > 0
    decreases fuel
  {
    if !s.running then Done(Ok(s))
    else if fuel == 0 then OutOfFuel
    else
      match Step(img, s)
      case Thrown(e) => Done(Thrown(e))
      case Ok(t) =>
        StepKeepsConsistent(img, s);
        Run(img, t, fuel - 1)
  }

  /** `run` from the entry found by `findEntry`. */
  function RunFrom(img: Image, e: Entry, fuel: nat): (r: Fuelled<Outcome<seq<int>>>)
    requires WellFormed(img)
    ensures r.Done? && r.result.Ok? ==> |r.result.value| > 0
  {
    match Run(img, Initial(e), fuel)
    case OutOfFuel => OutOfFuel
    case Done(Thrown(err)) => Done(Thrown(err))
    case Done(Ok(t)) => Done(Ok(t.outputs))
  }

  // ---------------------------------------------------------------- a whole program

  /** The one-row program: an entry pixel heading right, a terminate pixel asking for one
      output, and the literal `(a, b)`. */
  function TerminateThenLiteral(a: U8, b: U8): Image
  {
    Image(3, 1, [[TYPE_ENTRY * 0x1_0000 + DIRECTION_RIGHT,
                  TYPE_TERMINATE * 0x1_0000 + 1 * 0x100,
                  TYPE_LITERAL * 0x1_0000 + a * 0x100 + b]])
  }

  /** Running that program from its entry returns the literal as the only output. */
  lemma TerminateThenLiteralRuns(a: U8, b: U8, fuel: nat)
    requires fuel >= 2
    ensures var img := TerminateThenLiteral(a, b);
      && WellFormed(img) && IsEntry(img, 0, 0)
      && ParseDirection(GetReg(Cell(img, 0, 0), 2)) == Ok(Right)
      && RunFrom(img, Entry(0, 0, 0, Right), fuel) == Done(Ok([GetValue(a, b)]))
  {
    var img := TerminateThenLiteral(a, b);
    GetRegOfPixel(0, TYPE_ENTRY, 0, DIRECTION_RIGHT, Cell(img, 0, 0));
    GetRegOfPixel(0, TYPE_TERMINATE, 1, 0, Cell(img, 1, 0));
    GetRegOfPixel(0, TYPE_LITERAL, a, b, Cell(img, 2, 0));
    var s0 := Initial(Entry(0, 0, 0, Right));
    var s1 := s0.(x := 1, mode := Terminating, paramCounter := 0, outputs := [0]);
    assert seq(1, _ => 0) == [0];
    assert SearchMode(s0.(x := 1), TYPE_TERMINATE, 1, 0) == Ok(s1);
    assert Step(img, s0) == Ok(s1);
    var s2 := s1.(x := 2, outputs := [GetValue(a, b)], paramCounter := 1, running := false);
    assert [0][0 := GetValue(a, b)] == [GetValue(a, b)];
    assert TerminatingMode(s1.(x := 2), TYPE_LITERAL, a, b) == Ok(s2);
    assert Step(img, s1) == Ok(s2);
    assert Run(img, s1, fuel - 1) == Run(img, s2, fuel - 2) == Done(Ok(s2));
  }
}

=== FILE: machine.dfy ===
/**
 * The register/heap machine of Engine568: the read-only colour grid, the cursor,
 * six registers whose optional array pointer indexes a six-slot arena of integer
 * sequences, the last operand, the pending operator and the sticky error slot.
 */
module Machine {
  import opened Base
  import opened Signals

  const NUM_REGISTERS: nat := 6

  /** A register number, also an arena slot number. */
  type RegIndex = i: nat | i < 6

  /** A decoded image: `pixels` holds `width * height` 24-bit colours in row-major order. */
  datatype Grid = Grid(width: nat, height: nat, pixels: seq<int>)

  /** A register: its integer and, once allocated, the arena slot its array pointer names. */
  datatype Register = Register(integer: int, pointsTo: Option<RegIndex>)

  /** Where an operand may be written back: nowhere (a literal), a whole register
      (its integer slot and the register itself), or one element of an arena slot. */
  datatype Handle =
    | NoHandle
    | RegisterHandle(reg: RegIndex)
    | ElementHandle(slot: RegIndex, index: nat)

  /** A parsed value together with its write-back handle. */
  datatype Operand = Operand(value: int, handle: Handle)

  /** The five binary operators of the tier-1 grammar. */
  datatype ArithOp = Add | Sub | Mul | Div | Mod

  /** The operator waiting for the next operand. */
  datatype Pending =
    | Arith(op: ArithOp)
    | Equal
    | Less
    | Greater
    | Assign
    | Compound(op: ArithOp)

  /** The error kinds; the `While...` kinds wrap an inner error with the context the engine adds. */
  datatype Error =
    | OutOfBounds
    | InvalidDirection
    | RegisterAfterLiteral
    | ArrayAfterLiteral
    | ZeroEndOnNonzero
    | NoArray(reg: RegIndex)
    | IndexOutOfRange(reg: RegIndex, index: int, size: nat)
    | NegativeSize(reg: RegIndex, requested: int)
    | TooManyElements(reg: RegIndex, size: nat)
    | UnexpectedColor(reg: RegIndex, color: Signal)
    | AssignToValue
    | CompoundAssignToValue
    | DivideByZero
    | UnaryWithoutTarget
    | WhileSizing(reg: RegIndex, inner: Error)
    | WhileSteering(reg: RegIndex, inner: Error)
    | WhileInitializing(reg: RegIndex, element: nat, inner: Error)
    | WhileCompound(inner: Error)

  datatype State = State(
    grid: Grid,
    x: int, y: int,
    dx: int, dy: int,
    registers: seq<Register>,
    arrays: seq<seq<int>>,
    nextReg: nat,
    last: Operand,
    pending: Option<Pending>,
    error: Option<Error>,
    output: seq<int>)

  predicate ValidGrid(g: Grid)
  {
    |g.pixels| == g.width * g.height
  }

  /** The shape every engine state keeps. */
  predicate Valid(s: State)
  {
    && ValidGrid(s.grid)
    && |s.registers| == NUM_REGISTERS
    && |s.arrays| == NUM_REGISTERS
    && 1 <= s.nextReg <= NUM_REGISTERS
  }

  /** One of the four unit steps (1,0), (-1,0), (0,1), (0,-1). */
  predicate UnitDir(dx: int, dy: int)
  {
    (dx == 0 && (dy == 1 || dy == -1)) || (dy == 0 && (dx == 1 || dx == -1))
  }

  /** A well-formed state whose cursor is heading somewhere; the scan needs no more. */
  predicate Heading(s: State)
  {
    Valid(s) && UnitDir(s.dx, s.dy)
  }

  /** A state the parsers may run in: heading somewhere and no error yet. */
  predicate Ready(s: State)
  {
    Heading(s) && s.error.None?
  }

  /** What every parser keeps: the shape, the grid and the seeding counter; and, unless it
      failed, a unit direction and a cursor on the grid. */
  predicate Evolves(s: State, r: State)
  {
    && Valid(r)
    && r.grid == s.grid
    && r.nextReg == s.nextReg
    && (r.error.None? ==> UnitDir(r.dx, r.dy) && !OffGrid(r))
  }

  /** The operand's value is what its handle currently designates. */
  predicate Reflects(s: State, o: Operand)
    requires Valid(s)
  {
    o.handle.NoHandle? || ReadHandle(s, o.handle) == Some(o.value)
  }

  predicate InBounds(g: Grid, x: int, y: int)
  {
    0 <= x < g.width && 0 <= y < g.height
  }

  predicate OffGrid(s: State)
  {
    !InBounds(s.grid, s.x, s.y)
  }

  lemma MulMonotone(a: nat, b: nat, c: nat)
    requires a <= b
    ensures a * c <= b * c
  {
  }

  /** Row-major position of an in-bounds cell. */
  function CellIndex(g: Grid, x: int, y: int): (i: nat)
    requires InBounds(g, x, y)
    ensures i < g.width * g.height
  {
    MulMonotone(y + 1, g.height, g.width);
    assert (y + 1) * g.width == y * g.width + g.width;
    y * g.width + x
  }

  /** The colour under an in-bounds cell (`getRGB`). */
  function CellAt(g: Grid, x: int, y: int): (c: int)
    requires ValidGrid(g) && InBounds(g, x, y)
  {
    g.pixels[CellIndex(g, x, y)]
  }

  /** Every pixel of the row-major buffer is the colour under exactly one cell, the one
      in column `i % width` of row `i / width`; its signal is the pixel's. */
  lemma CellAtRowMajor(g: Grid, i: int)
    requires ValidGrid(g) && 0 <= i < |g.pixels|
    ensures InBounds(g, i % g.width, i / g.width)
    ensures CellIndex(g, i % g.width, i / g.width) == i
    ensures CellAt(g, i % g.width, i / g.width) == g.pixels[i]
    ensures SignalAt(g, i % g.width, i / g.width) == Classify(g.pixels[i])
    ensures forall x, y :: InBounds(g, x, y) && CellIndex(g, x, y) == i ==> x == i % g.width && y == i / g.width
  {
    var w := g.width;
    RowMajorSplit(w, g.height, i);
    var x, y := i % w, i / w;
    forall x1, y1 | InBounds(g, x1, y1) && CellIndex(g, x1, y1) == i
      ensures x1 == x && y1 == y
    {
      RowMajorUnique(w, x1, y1, x, y);
    }
  }

  /** An index below `w * h` splits into a column below `w` and a row below `h`. */
  lemma RowMajorSplit(w: nat, h: nat, i: int)
    requires 0 <= i < w * h
    ensures w > 0 && 0 <= i % w < w && 0 <= i / w < h && i == (i / w) * w + i % w
  {
    if w == 0 {
      assert false;
    }
    if i / w >= h {
      MulMonotone(h, i / w, w);
      assert false;
    }
  }

  /** Row-major positions are unique within the width. */
  lemma RowMajorUnique(w: nat, x1: int, y1: int, x2: int, y2: int)
    requires 0 <= x1 < w && 0 <= x2 < w && 0 <= y1 && 0 <= y2
    requires y1 * w + x1 == y2 * w + x2
    ensures x1 == x2 && y1 == y2
  {
    if y1 < y2 {
      MulMonotone(y1 + 1, y2, w);
      assert false;
    } else if y2 < y1 {
      MulMonotone(y2 + 1, y1, w);
      assert false;
    }
  }

  /** The signal (if any) under an in-bounds cell: the cell is a signal exactly when its
      colour is one of the six signal colours. */
  function SignalAt(g: Grid, x: int, y: int): (r: Option<Signal>)
    requires ValidGrid(g) && InBounds(g, x, y)
  {
    Classify(CellAt(g, x, y))
  }

  function Fail(s: State, e: Error): (r: State)
    ensures r.error == Some(e)
  {
    s.(error := Some(e))
  }

  /** What register `i`'s array pointer lets the program see. */
  function View(s: State, i: RegIndex): Option<seq<int>>
    requires Valid(s)
  {
    match s.registers[i].pointsTo
    case None => None
    case Some(a) => Some(s.arrays[a])
  }

  /** The engine right after construction and `load`: six zero registers without arrays,
      six empty arena slots, the next seed going to register 1, no error. */
  function Load(width: nat, height: nat, pixels: seq<int>): (s: State)
    requires |pixels| == width * height
    ensures Valid(s) && s.error.None? && s.nextReg == 1
    ensures forall i: RegIndex :: s.registers[i].integer == 0 && View(s, i) == None
    ensures forall i: RegIndex :: s.arrays[i] == []
  {
    State(Grid(width, height, pixels), 0, 0, 0, 0,
          seq(NUM_REGISTERS, _ => Register(0, None)),
          seq(NUM_REGISTERS, _ => []),
          1, Operand(0, NoHandle), None, None, [])
  }

  /** `assignArray`: point register `i` at arena slot `i`, fill that slot with `contents`
      and reset the register's integer to 0. */
  function AssignArray(s: State, i: RegIndex, contents: seq<int>): (r: State)
    requires Valid(s)
    ensures Valid(r)
    ensures r.registers[i].integer == 0 && View(r, i) == Some(contents)
    ensures forall j: RegIndex :: j != i ==> r.registers[j] == s.registers[j]
    // Registers aliasing slot i see the new contents; every other view is untouched.
    ensures forall j: RegIndex :: s.registers[j].pointsTo == Some(i) ==> View(r, j) == Some(contents)
    ensures forall j: RegIndex :: j != i && s.registers[j].pointsTo != Some(i) ==> View(r, j) == View(s, j)
    ensures r == s.(registers := r.registers, arrays := r.arrays)
  {
    s.(registers := s.registers[i := Register(0, Some(i))],
       arrays := s.arrays[i := contents])
  }

  /** `pushInt`: seed the next register's integer. */
  function PushInt(s: State, value: int): (r: State)
    requires Valid(s) && s.nextReg < NUM_REGISTERS
    ensures Valid(r) && r.nextReg == s.nextReg + 1
    ensures r.registers[s.nextReg].integer == value
    ensures r.registers[s.nextReg].pointsTo == s.registers[s.nextReg].pointsTo
    ensures forall j: RegIndex :: j != s.nextReg ==> r.registers[j] == s.registers[j]
    ensures r.arrays == s.arrays
  {
    var i := s.nextReg;
    s.(registers := s.registers[i := s.registers[i].(integer := value)], nextReg := i + 1)
  }

  /** `pushArray`: seed the next register with an array holding `data`.  Once all five
      operand registers are seeded, `registers.at` throws `std::out_of_range` before
      anything changes; `None` is that exception. */
  function PushArray(s: State, data: seq<int>): (r: Option<State>)
    requires Valid(s)
    ensures r.Some? <==> s.nextReg < NUM_REGISTERS
    ensures r.Some? ==> Valid(r.value) && r.value.nextReg == s.nextReg + 1
    ensures r.Some? ==> r.value.registers[s.nextReg].integer == 0 && View(r.value, s.nextReg) == Some(data)
    ensures r.Some? ==> forall j: RegIndex :: j != s.nextReg ==> r.value.registers[j] == s.registers[j]
  {
    if s.nextReg < NUM_REGISTERS then Some(AssignArray(s, s.nextReg, data).(nextReg := s.nextReg + 1))
    else None
  }

  /** The value a handle currently designates, if it designates a live cell. */
  function ReadHandle(s: State, h: Handle): Option<int>
    requires Valid(s)
  {
    match h
    case NoHandle => None
    case RegisterHandle(i) => Some(s.registers[i].integer)
    case ElementHandle(a, k) => if k < |s.arrays[a]| then Some(s.arrays[a][k]) else None
  }

  /** Two handles that name different storage cells. */
  predicate Disjoint(h1: Handle, h2: Handle)
  {
    h1 != h2 || h1.NoHandle?
  }

  /** Store `v` through a handle.  A handle into an arena slot that has since shrunk
      below the element no longer names a cell and the store has no visible effect. */
  function WriteHandle(s: State, h: Handle, v: int): (r: State)
    requires Valid(s)
    ensures Valid(r)
    ensures ReadHandle(s, h).Some? ==> ReadHandle(r, h) == Some(v)
    ensures forall h2 :: Disjoint(h, h2) ==> ReadHandle(r, h2) == ReadHandle(s, h2)
    ensures forall j: RegIndex :: r.registers[j].pointsTo == s.registers[j].pointsTo
    ensures forall a: RegIndex :: |r.arrays[a]| == |s.arrays[a]|
    ensures r == s.(registers := r.registers, arrays := r.arrays)
  {
    match h
    case NoHandle => s
    case RegisterHandle(i) =>
      s.(registers := s.registers[i := s.registers[i].(integer := v)])
    case ElementHandle(a, k) =>
      if k < |s.arrays[a]| then s.(arrays := s.arrays[a := s.arrays[a][k := v]]) else s
  }
}

=== FILE: operators.dfy ===
/**
 * The operator semantics of Engine568: the tier-1 arithmetic lambdas, the comparison
 * lambdas, and the deferred operator applied to (last operand, new operand).  The
 * source keeps the deferred operator as a closure over raw pointers; here it is the
 * closed `Pending` datatype interpreted by `ApplyPending`.
 */
module Operators {
  import opened Base
  import opened CInt
  import opened Machine

  /** What the tier-1 grammar selects: a binary operator, or the unary logical not. */
  datatype Op1 = Binary(op: ArithOp) | Not

  /** Whether the source's lambda for `op` has defined behaviour: C++ integer
      division and remainder by zero do not. */
  predicate ArithDefined(op: ArithOp, a: int, b: int)
  {
    !((op == Div || op == Mod) && b == 0)
  }

  /** The tier-1 lambdas exactly as written, on the operands where C++ defines them. */
  function ArithAsWritten(op: ArithOp, a: int, b: int): (r: int)
    requires ArithDefined(op, a, b)
    // each operator is undone by its inverse: subtraction undoes addition and the
    // reverse, and division and modulo split `a` into quotient * b + remainder
    ensures op == Add ==> r - b == a
    ensures op == Sub ==> r + b == a
    ensures op == Mul ==> (if b == 0 then r == 0 else Quot(r, b) == a)
    ensures op == Div ==> Abs(a - r * b) < Abs(b) && (a >= 0 ==> a - r * b >= 0) && (a <= 0 ==> a - r * b <= 0)
    ensures op == Mod ==> a - r == Quot(a, b) * b && Abs(r) < Abs(b)
  {
    match op
    case Add => a + b
    case Sub => a - b
    case Mul => if b == 0 then a * b else QuotUnique(a * b, b, a); a * b
    case Div => Quot(a, b)
    case Mod => Rem(a, b)
  }

  /** The tier-1 operators as the engine uses them: a zero divisor is reported as
      `None` (an error the run can surface) instead of being evaluated; on every
      other input the result is the source's. */
  function Arith(op: ArithOp, a: int, b: int): (r: Option<int>)
    ensures r.None? <==> (op == Div || op == Mod) && b == 0
    ensures r.Some? ==> ArithDefined(op, a, b) && r.value == ArithAsWritten(op, a, b)
    ensures r.Some? && op == Div ==> Abs(a - r.value * b) < Abs(b)
    ensures r.Some? && op == Mod ==> a == Quot(a, b) * b + r.value
  {
    if (op == Div || op == Mod) && b == 0 then None else Some(ArithAsWritten(op, a, b))
  }

  /** The result of applying a deferred operator: the new state and the value that
      becomes the last operand's value. */
  datatype Applied = Applied(st: State, value: int)

  /** Apply the deferred operator `p` to the last operand `s.last` and the new operand `cur`. */
  function ApplyPending(s: State, p: Pending, cur: Operand): (r: Applied)
    requires Valid(s)
    ensures Valid(r.st)
    // only storage and the error slot can change
    ensures r.st == s.(registers := r.st.registers, arrays := r.st.arrays, error := r.st.error)
    ensures r.st.error != s.error ==>
      r.st.error == Some(DivideByZero) || r.st.error == Some(AssignToValue) || r.st.error == Some(CompoundAssignToValue)
    // comparisons evaluate to 1 exactly when the relation holds, and touch nothing
    ensures p == Equal ==> r == Applied(s, BoolToInt(s.last.value == cur.value))
    ensures p == Less ==> r == Applied(s, BoolToInt(s.last.value < cur.value))
    ensures p == Greater ==> r == Applied(s, BoolToInt(s.last.value > cur.value))
    // plain arithmetic touches no storage and fails only on a zero divisor
    ensures p.Arith? ==> r.st.registers == s.registers && r.st.arrays == s.arrays
    ensures p.Arith? ==>
      r.st.error == if ArithDefined(p.op, s.last.value, cur.value) then s.error else Some(DivideByZero)
    ensures p.Arith? && ArithDefined(p.op, s.last.value, cur.value) ==> r.value == ArithAsWritten(p.op, s.last.value, cur.value)
    // assignment: a bare register read as the source copies the whole register (integer
    // and array pointer, so both registers share one array); otherwise the value is stored
    ensures p == Assign ==> r.st.error == if cur.handle.NoHandle? then Some(AssignToValue) else s.error
    ensures p == Assign ==> r.value == cur.value
    ensures p == Assign && cur.handle.RegisterHandle? && s.last.handle.RegisterHandle? ==>
      r.st.registers[cur.handle.reg] == s.registers[s.last.handle.reg]
    ensures p == Assign && cur.handle.RegisterHandle? && !s.last.handle.RegisterHandle? ==>
      r.st.registers[cur.handle.reg] == s.registers[cur.handle.reg].(integer := s.last.value)
    ensures p == Assign && cur.handle.ElementHandle? && ReadHandle(s, cur.handle).Some? ==>
      ReadHandle(r.st, cur.handle) == Some(s.last.value)
    ensures p == Assign ==> forall h :: Disjoint(cur.handle, h) ==> ReadHandle(r.st, h) == ReadHandle(s, h)
    ensures p == Assign && cur.handle.RegisterHandle? ==>
      forall k: RegIndex :: k != cur.handle.reg ==> r.st.registers[k] == s.registers[k]
    // only a whole-register copy moves an array pointer
    ensures !(p == Assign && cur.handle.RegisterHandle? && s.last.handle.RegisterHandle?) ==>
      forall k: RegIndex :: r.st.registers[k].pointsTo == s.registers[k].pointsTo
    // compound assignment stores op(last, new) through the new operand's handle and yields it
    ensures p.Compound? ==> (r.st.error ==
      if cur.handle.NoHandle? then Some(CompoundAssignToValue)
      else if !ArithDefined(p.op, s.last.value, cur.value) then Some(DivideByZero)
      else s.error)
    ensures p.Compound? && !cur.handle.NoHandle? && ArithDefined(p.op, s.last.value, cur.value) ==>
      && r.value == ArithAsWritten(p.op, s.last.value, cur.value)
      && (ReadHandle(s, cur.handle).Some? ==> ReadHandle(r.st, cur.handle) == Some(r.value))
    ensures p.Compound? ==> forall h :: Disjoint(cur.handle, h) ==> ReadHandle(r.st, h) == ReadHandle(s, h)
  {
    match p
    case Arith(op) =>
      (match Arith(op, s.last.value, cur.value)
       case None => Applied(Fail(s, DivideByZero), cur.value)
       case Some(v) => Applied(s, v))
    case Equal => Applied(s, BoolToInt(s.last.value == cur.value))
    case Less => Applied(s, BoolToInt(s.last.value < cur.value))
    case Greater => Applied(s, BoolToInt(s.last.value > cur.value))
    case Assign =>
      (match cur.handle
       case RegisterHandle(j) =>
         var copied := if s.last.handle.RegisterHandle? then s.registers[s.last.handle.reg]
                       else s.registers[j].(integer := s.last.value);
         Applied(s.(registers := s.registers[j := copied]), cur.value)
       case ElementHandle(_, _) => Applied(WriteHandle(s, cur.handle, s.last.value), cur.value)
       case NoHandle => Applied(Fail(s, AssignToValue), cur.value))
    case Compound(op) =>
      if cur.handle.NoHandle? then Applied(Fail(s, CompoundAssignToValue), cur.value)
      else
        (match Arith(op, s.last.value, cur.value)
         case None => Applied(Fail(s, DivideByZero), cur.value)
         case Some(v) => Applied(WriteHandle(s, cur.handle, v), v))
  }

  /** Whether the source's `*lastRef = !lastValue` has defined behaviour: `lastRef`
      must not be null. */
  predicate UnaryDefined(s: State)
  {
    !s.last.handle.NoHandle?
  }

  /** The unary statement as written: store `!lastValue` through the last operand's
      handle, which C++ dereferences unchecked. */
  function UnaryAsWritten(s: State): (r: State)
    requires Valid(s) && UnaryDefined(s)
    ensures Valid(r)
    ensures ReadHandle(s, s.last.handle).Some? ==> ReadHandle(r, s.last.handle) == Some(LogicalNot(s.last.value))
  {
    WriteHandle(s, s.last.handle, LogicalNot(s.last.value))
  }

  /** The unary statement as the engine performs it: with no handle to store through it
      reports an error instead of dereferencing null; otherwise it is the source's
      statement.  The last operand's value itself is left as it was. */
  function ApplyUnary(s: State): (r: State)
    requires Valid(s)
    ensures Valid(r)
    ensures r.error == if UnaryDefined(s) then s.error else Some(UnaryWithoutTarget)
    ensures !UnaryDefined(s) ==> r == Fail(s, UnaryWithoutTarget)
    ensures UnaryDefined(s) ==> r == UnaryAsWritten(s)
    ensures r.last == s.last && r.pending == s.pending
  {
    if s.last.handle.NoHandle? then Fail(s, UnaryWithoutTarget)
    else UnaryAsWritten(s)
  }

  /** Whole-register assignment makes the two registers share one array: a later store
      into that array through either one is seen through both. */
  lemma {:induction false} AssignSharesArray(s: State, i: RegIndex, j: RegIndex, k: nat, v: int, lastValue: int, curValue: int)
    requires Valid(s) && s.error.None?
    requires s.registers[i].pointsTo.Some? && k < |s.arrays[s.registers[i].pointsTo.value]|
    ensures
      var s0 := s.(last := Operand(lastValue, RegisterHandle(i)));
      var s1 := ApplyPending(s0, Assign, Operand(curValue, RegisterHandle(j))).st;
      var a := s.registers[i].pointsTo.value;
      var s2 := WriteHandle(s1, ElementHandle(a, k), v);
      && s1.error.None?
      && View(s2, j) == View(s2, i)
      && View(s2, j).Some? && k < |View(s2, j).value| && View(s2, j).value[k] == v
  {
    var s0 := s.(last := Operand(lastValue, RegisterHandle(i)));
    var s1 := ApplyPending(s0, Assign, Operand(curValue, RegisterHandle(j))).st;
    var a := s.registers[i].pointsTo.value;
    assert s1.registers[j] == s.registers[i];
    assert s1.registers[i].pointsTo == Some(a);
    assert ReadHandle(s1, ElementHandle(a, k)).Some?;
    var s2 := WriteHandle(s1, ElementHandle(a, k), v);
    assert ReadHandle(s2, ElementHandle(a, k)) == Some(v);
  }
}

=== FILE: programs.dfy ===
/**
 * Whole programs run through the model of `run`: one-row images laid out from a
 * sequence of signals, on which the engine's behaviour is fixed by the code, including
 * the two places where the source evaluates an operation C++ leaves undefined.
 */
module Programs {
  import opened Base
  import opened Signals
  import opened Machine
  import opened Cursor
  import opened Operators
  import opened Grammar
  import opened Interpreter
  import opened Encoding

  /** The pixels of a one-row image showing `code`, one signal per cell. */
  function Paint(code: seq<Signal>): (cells: seq<int>)
    ensures |cells| == |code|
    ensures forall k :: 0 <= k < |code| ==> cells[k] == Rgb(code[k])
  {
    seq(|code|, k requires 0 <= k < |code| => Rgb(code[k]))
  }

  /** The one-row grid showing `code`. */
  function Strip(code: seq<Signal>): (g: Grid)
    ensures ValidGrid(g) && g.width == |code| && g.height == 1
  {
    Grid(|code|, 1, Paint(code))
  }

  /** The strip's cells carry `code` from the top-left corner rightward. */
  lemma StripLaid(code: seq<Signal>)
    ensures Laid(Strip(code), 0, 0, code)
  {
    var g := Strip(code);
    forall k
      ensures CellHolds(g, 0, 0, code, k)
    {
      if 0 <= k < |code| {
        assert CellAt(g, k, 0) == Rgb(code[k]);
        ClassifyRgb(code[k]);
      }
    }
  }

  /** A strip laid out as three consecutive parts. */
  lemma LaidThree(g: Grid, a: seq<Signal>, b: seq<Signal>, c: seq<Signal>)
    requires ValidGrid(g) && Laid(g, 0, 0, a + b + c)
    ensures Laid(g, |a|, 0, b) && Laid(g, |a| + |b|, 0, c)
  {
    LaidParts(g, 0, 0, a + b, c);
    LaidParts(g, 0, 0, a, b);
  }

  /** One instruction of the loop that leaves no error: the loop resumes after the next scan. */
  lemma LoopContinues(s: State, c: Signal, fuel: nat, s1: State, sc: Scan)
    requires LoopReady(s, Some(c)) && s.error.None? && fuel > 0
    requires Dispatch(s, c, fuel) == Done(s1) && s1.error.None?
    requires sc == MoveUntil(s1)
    ensures LoopReady(sc.st, sc.signal)
    ensures Loop(s, Some(c), fuel) == Loop(sc.st, sc.signal, fuel - 1)
  {
  }

  /** The state of a run along a strip: heading right on row 0 with no error. */
  predicate AlongRow(s: State)
  {
    Ready(s) && s.dx == 1 && s.dy == 0 && s.y == 0
  }

  /** A state along a strip, on a cell showing `c`. */
  predicate OnSignal(s: State, c: Signal)
  {
    AlongRow(s) && !OffGrid(s) && SignalAt(s.grid, s.x, s.y) == Some(c)
  }

  /** Cell `x` of row 0 shows `c`. */
  predicate ShowsAt(g: Grid, x: int, c: Signal)
  {
    ValidGrid(g) && InBounds(g, x, 0) && SignalAt(g, x, 0) == Some(c)
  }

  /** The cell `k` of a laid-out strip. */
  lemma LaidCell(g: Grid, x: int, code: seq<Signal>, k: nat)
    requires ValidGrid(g) && Laid(g, x, 0, code) && k < |code|
    ensures ShowsAt(g, x + k, code[k])
  {
    assert CellHolds(g, x, 0, code, k);
  }

  /** The run starts on the first cell of the strip, which shows `c`. */
  lemma RunStarts(s: State, code: seq<Signal>, c: Signal, fuel: nat, s0: State)
    requires Valid(s) && s.error.None? && s.grid == Strip(code) && code != [] && code[0] == c
    requires s0 == Start(s).(x := 0)
    ensures OnSignal(s0, c)
    ensures Run(s, fuel) == Loop(s0, Some(c), fuel)
  {
    StripLaid(code);
    LaidCell(s.grid, 0, code, 0);
    ScanOnto(Start(s), code[0]);
  }

  /** A green instruction reading the literal `v`, no operator pending, followed by the
      signal `next`. */
  lemma LiteralStep(s: State, v: nat, next: Signal, fuel: nat, s1: State)
    requires OnSignal(s, Green) && s.pending.None? && fuel > 0
    requires Laid(s.grid, s.x + 1, 0, EncodeLiteral(v) + [next])
    requires s1 == s.(x := s.x + |EncodeLiteral(v)| + 1, last := Operand(v, NoHandle))
    ensures OnSignal(s1, next)
    ensures Loop(s, Some(Green), fuel) == Loop(s1, Some(next), fuel - 1)
  {
    var n := |EncodeLiteral(v)|;
    LaidParts(s.grid, s.x + 1, 0, EncodeLiteral(v), [next]);
    LiteralRoundTrip(s, v);
    var t := s.(x := s.x + n, last := Operand(v, NoHandle));
    assert ConsumeOperand(s) == t;
    LaidCell(s.grid, s.x + 1 + n, [next], 0);
    ScanOnto(t, next);
    assert t.(x := t.x + 1) == s1;
    LoopContinues(s, Green, fuel, t, Scan(s1, Some(next)));
  }

  /** A blue instruction selecting the binary operator `op` by the signal `c`, followed by
      the signal `next`. */
  lemma BinaryStep(s: State, c: Signal, op: ArithOp, next: Signal, fuel: nat, s1: State)
    requires OnSignal(s, Blue) && fuel > 0 && Op1Of(c) == Binary(op)
    requires ShowsAt(s.grid, s.x + 1, c) && ShowsAt(s.grid, s.x + 2, next)
    requires s1 == s.(x := s.x + 2, pending := Some(Arith(op)))
    ensures OnSignal(s1, next)
    ensures Loop(s, Some(Blue), fuel) == Loop(s1, Some(next), fuel - 1)
  {
    assert SignalAt(s.grid, s.x + 1, 0) == Some(c);
    ScanOnto(s, c);
    var t := s.(x := s.x + 1, pending := Some(Arith(op)));
    assert Tier1Statement(s) == t;
    assert SignalAt(s.grid, s.x + 2, 0) == Some(next);
    ScanOnto(t, next);
    assert t.(x := t.x + 1) == s1;
    LoopContinues(s, Blue, fuel, t, Scan(s1, Some(next)));
  }

  /** A green instruction reading the literal 0 while a division is pending stops the run. */
  lemma ZeroDivisorStep(s: State, fuel: nat, r: State)
    requires OnSignal(s, Green) && s.pending == Some(Arith(Div)) && fuel > 0
    requires ShowsAt(s.grid, s.x + 1, Magenta)
    requires r == s.(x := s.x + 1, pending := None, last := Operand(0, NoHandle), error := Some(DivideByZero))
    ensures Loop(s, Some(Green), fuel) == Done(r)
  {
    assert SignalAt(s.grid, s.x + 1, 0) == Some(Magenta);
    ScanOnto(s, Magenta);
  }

  /** `red <register i>` read by the operand parser. */
  lemma RegisterOperand(s: State, i: RegIndex)
    requires Ready(s) && s.dx == 1 && s.dy == 0
    requires InBounds(s.grid, s.x + 1, s.y) && SignalAt(s.grid, s.x + 1, s.y) == Some(Red)
    requires InBounds(s.grid, s.x + 2, s.y) && SignalAt(s.grid, s.x + 2, s.y) == Some(IndexColor(i))
    ensures ParseVal(s) == ValStep(s.(x := s.x + 2), Operand(s.registers[i].integer, RegisterHandle(i)))
  {
    ScanOnto(s, Red);
    ScanOnto(s.(x := s.x + 1), IndexColor(i));
    IndexColorRoundTrip(i);
  }

  /** A green instruction reading register `i`, no operator pending, followed by `next`. */
  lemma RegisterStep(s: State, i: RegIndex, next: Signal, fuel: nat, s1: State)
    requires OnSignal(s, Green) && s.pending.None? && fuel > 0
    requires ShowsAt(s.grid, s.x + 1, Red) && ShowsAt(s.grid, s.x + 2, IndexColor(i)) && ShowsAt(s.grid, s.x + 3, next)
    requires s1 == s.(x := s.x + 3, last := Operand(s.registers[i].integer, RegisterHandle(i)))
    ensures OnSignal(s1, next)
    ensures Loop(s, Some(Green), fuel) == Loop(s1, Some(next), fuel - 1)
  {
    assert SignalAt(s.grid, s.x + 1, 0) == Some(Red);
    assert SignalAt(s.grid, s.x + 2, 0) == Some(IndexColor(i));
    RegisterOperand(s, i);
    var t := s.(x := s.x + 2, last := Operand(s.registers[i].integer, RegisterHandle(i)));
    assert ConsumeOperand(s) == t;
    assert SignalAt(s.grid, s.x + 3, 0) == Some(next);
    ScanOnto(t, next);
    assert t.(x := t.x + 1) == s1;
    LoopContinues(s, Green, fuel, t, Scan(s1, Some(next)));
  }

  /** A magenta instruction `magenta blue` making assignment pending, followed by `next`. */
  lemma AssignStep(s: State, next: Signal, fuel: nat, s1: State)
    requires OnSignal(s, Magenta) && fuel > 0
    requires ShowsAt(s.grid, s.x + 1, Blue) && ShowsAt(s.grid, s.x + 2, next)
    requires s1 == s.(x := s.x + 2, pending := Some(Assign))
    ensures OnSignal(s1, next)
    ensures Loop(s, Some(Magenta), fuel) == Loop(s1, Some(next), fuel - 1)
  {
    assert SignalAt(s.grid, s.x + 1, 0) == Some(Blue);
    ScanOnto(s, Blue);
    var t := s.(x := s.x + 1, pending := Some(Assign));
    assert ParseOperator2(s) == t;
    assert SignalAt(s.grid, s.x + 2, 0) == Some(next);
    ScanOnto(t, next);
    assert t.(x := t.x + 1) == s1;
    LoopContinues(s, Magenta, fuel, t, Scan(s1, Some(next)));
  }

  /** The last instruction of a strip: green reading register `j` while assignment is
      pending.  The run halts at the right edge with the assignment carried out. */
  lemma AssignToRegisterEnds(s: State, j: RegIndex, fuel: nat, copied: Register, r: State)
    requires OnSignal(s, Green) && s.pending == Some(Assign) && fuel > 0
    requires ShowsAt(s.grid, s.x + 1, Red) && ShowsAt(s.grid, s.x + 2, IndexColor(j)) && s.x + 3 == s.grid.width
    requires copied == if s.last.handle.RegisterHandle? then s.registers[s.last.handle.reg]
                       else s.registers[j].(integer := s.last.value)
    requires r == s.(x := s.x + 3, pending := None, last := Operand(s.registers[j].integer, RegisterHandle(j)),
                     registers := s.registers[j := copied])
    ensures Loop(s, Some(Green), fuel) == Done(r)
  {
    assert SignalAt(s.grid, s.x + 1, 0) == Some(Red);
    assert SignalAt(s.grid, s.x + 2, 0) == Some(IndexColor(j));
    RegisterOperand(s, j);
    var o := Operand(s.registers[j].integer, RegisterHandle(j));
    var t := s.(x := s.x + 2, pending := None, last := o, registers := s.registers[j := copied]);
    assert ConsumeOperand(s) == t;
    assert t.(x := t.x + 1) == r;
    assert MoveUntil(t) == Scan(r, None);
    LoopContinues(s, Green, fuel, t, Scan(r, None));
  }

  /** The program `green <a> blue cyan green magenta`, that is `a / 0`. */
  function DivisionByZeroCode(a: nat): seq<Signal>
  {
    [Green] + (EncodeLiteral(a) + [Blue]) + [Cyan, Green, Magenta]
  }

  /** `a / 0` for any literal `a`: the source evaluates `a / 0` at the second operand; the
      model halts there with `DivideByZero`, with 0 as the last operand and the operator
      consumed. */
  lemma DivisionByZero(s: State, a: nat, fuel: nat)
    requires Valid(s) && s.error.None? && s.pending.None? && s.grid == Strip(DivisionByZeroCode(a))
    requires fuel >= 3
    ensures !ArithDefined(Div, a, 0)
    ensures Run(s, fuel) == Done(Start(s).(x := |EncodeLiteral(a)| + 4, last := Operand(0, NoHandle),
                                            error := Some(DivideByZero)))
  {
    var code := DivisionByZeroCode(a);
    var n := |EncodeLiteral(a)|;
    var tail := [Cyan, Green, Magenta];
    StripLaid(code);
    LaidThree(s.grid, [Green], EncodeLiteral(a) + [Blue], tail);
    var s0 := Start(s).(x := 0);
    RunStarts(s, code, Green, fuel, s0);
    var s1 := s0.(x := n + 1, last := Operand(a, NoHandle));
    LiteralStep(s0, a, Blue, fuel, s1);
    LaidCell(s.grid, n + 2, tail, 0);
    LaidCell(s.grid, n + 2, tail, 1);
    LaidCell(s.grid, n + 2, tail, 2);
    var s2 := s1.(x := n + 3, pending := Some(Arith(Div)));
    BinaryStep(s1, Cyan, Div, Green, fuel - 1, s2);
    var r := Start(s).(x := n + 4, last := Operand(0, NoHandle), error := Some(DivideByZero));
    ZeroDivisorStep(s2, fuel - 1 - 1, r);
  }

  /** The program `green <v> magenta blue green red <register j>`, which stores
      literal `v` into register `j`. */
  function AssignLiteralCode(v: nat, j: RegIndex): seq<Signal>
  {
    [Green] + (EncodeLiteral(v) + [Magenta]) + [Blue, Green, Red, IndexColor(j)]
  }

  /** Storing `v` into register `j`, after the literal: the
      cursor is on the magenta that starts the assignment. */
  lemma AssignLiteralReadsLiteral(s: State, v: nat, j: RegIndex, fuel: nat, s1: State)
    requires Valid(s) && s.error.None? && s.pending.None? && s.grid == Strip(AssignLiteralCode(v, j))
    requires fuel >= 3
    requires s1 == Start(s).(x := |EncodeLiteral(v)| + 1, last := Operand(v, NoHandle))
    ensures OnSignal(s1, Magenta) && ShowsAt(s1.grid, s1.x + 1, Blue) && ShowsAt(s1.grid, s1.x + 2, Green)
    ensures ShowsAt(s1.grid, s1.x + 3, Red) && ShowsAt(s1.grid, s1.x + 4, IndexColor(j))
    ensures s1.x + 5 == s1.grid.width
    ensures Run(s, fuel) == Loop(s1, Some(Magenta), fuel - 1)
  {
    var code := AssignLiteralCode(v, j);
    var n := |EncodeLiteral(v)|;
    var tail := [Blue, Green, Red, IndexColor(j)];
    assert |code| == n + 6;
    StripLaid(code);
    LaidThree(s.grid, [Green], EncodeLiteral(v) + [Magenta], tail);
    var s0 := Start(s).(x := 0);
    RunStarts(s, code, Green, fuel, s0);
    LiteralStep(s0, v, Magenta, fuel, s1);
    LaidCell(s.grid, n + 2, tail, 0);
    LaidCell(s.grid, n + 2, tail, 1);
    LaidCell(s.grid, n + 2, tail, 2);
    LaidCell(s.grid, n + 2, tail, 3);
  }

  /** Storing `v` into register `j`, up to its last instruction:
      the literal has been read and `=` is pending. */
  lemma AssignLiteralReachesAssign(s: State, v: nat, j: RegIndex, fuel: nat, s2: State)
    requires Valid(s) && s.error.None? && s.pending.None? && s.grid == Strip(AssignLiteralCode(v, j))
    requires fuel >= 3
    requires s2 == Start(s).(x := |EncodeLiteral(v)| + 3, pending := Some(Assign), last := Operand(v, NoHandle))
    ensures OnSignal(s2, Green) && ShowsAt(s2.grid, s2.x + 1, Red) && ShowsAt(s2.grid, s2.x + 2, IndexColor(j))
    ensures s2.x + 3 == s2.grid.width
    ensures Run(s, fuel) == Loop(s2, Some(Green), fuel - 2)
  {
    var s1 := Start(s).(x := |EncodeLiteral(v)| + 1, last := Operand(v, NoHandle));
    AssignLiteralReadsLiteral(s, v, j, fuel, s1);
    assert s2 == s1.(x := s1.x + 2, pending := Some(Assign));
    AssignStep(s1, Green, fuel - 1, s2);
    assert Loop(s1, Some(Magenta), fuel - 1) == Loop(s2, Some(Green), fuel - 2);
  }

  /** Storing any literal `v` into any register `j`: register `j` receives `v` and keeps its
      array pointer, nothing else changes, and the value the assignment yields (the last
      operand's value afterwards) is register `j`'s integer from before the assignment.
      The run then leaves the strip's right edge without an error. */
  lemma AssignLiteral(s: State, v: nat, j: RegIndex, fuel: nat)
    requires Valid(s) && s.error.None? && s.pending.None? && s.grid == Strip(AssignLiteralCode(v, j))
    requires fuel >= 3
    ensures var s0 := Start(s);
      Run(s, fuel) == Done(s0.(x := |EncodeLiteral(v)| + 6,
                               registers := s0.registers[j := s0.registers[j].(integer := v)],
                               last := Operand(s0.registers[j].integer, RegisterHandle(j))))
  {
    var start := Start(s);
    var n := |EncodeLiteral(v)|;
    var s2 := start.(x := n + 3, pending := Some(Assign), last := Operand(v, NoHandle));
    AssignLiteralReachesAssign(s, v, j, fuel, s2);
    var copied := start.registers[j].(integer := v);
    var r := start.(x := n + 6, registers := start.registers[j := copied],
                    last := Operand(start.registers[j].integer, RegisterHandle(j)));
    assert copied == s2.registers[j].(integer := s2.last.value);
    assert r == s2.(x := s2.x + 3, pending := None, last := Operand(s2.registers[j].integer, RegisterHandle(j)),
                    registers := s2.registers[j := copied]);
    AssignToRegisterEnds(s2, j, fuel - 2, copied, r);
  }

  /** The program `green red <register i> magenta blue green red <register j>`, which copies
      register `i` into register `j`. */
  function CopyRegisterCode(i: RegIndex, j: RegIndex): seq<Signal>
  {
    [Green, Red, IndexColor(i), Magenta, Blue, Green, Red, IndexColor(j)]
  }

  /** Copying register `i` into register `j`, up to its last
      instruction: register `i` has been read and `=` is pending. */
  lemma CopyRegisterReachesAssign(s: State, i: RegIndex, j: RegIndex, fuel: nat, s2: State)
    requires Valid(s) && s.error.None? && s.pending.None? && s.grid == Strip(CopyRegisterCode(i, j))
    requires fuel >= 3
    requires s2 == Start(s).(x := 5, pending := Some(Assign), last := Operand(Start(s).registers[i].integer, RegisterHandle(i)))
    ensures OnSignal(s2, Green) && ShowsAt(s2.grid, s2.x + 1, Red) && ShowsAt(s2.grid, s2.x + 2, IndexColor(j))
    ensures s2.x + 3 == s2.grid.width
    ensures Run(s, fuel) == Loop(s2, Some(Green), fuel - 2)
  {
    var code := CopyRegisterCode(i, j);
    StripLaid(code);
    LaidCell(s.grid, 0, code, 1);
    LaidCell(s.grid, 0, code, 2);
    LaidCell(s.grid, 0, code, 3);
    LaidCell(s.grid, 0, code, 4);
    LaidCell(s.grid, 0, code, 5);
    LaidCell(s.grid, 0, code, 6);
    LaidCell(s.grid, 0, code, 7);
    var s0 := Start(s).(x := 0);
    RunStarts(s, code, Green, fuel, s0);
    var s1 := s0.(x := 3, last := Operand(s0.registers[i].integer, RegisterHandle(i)));
    RegisterStep(s0, i, Magenta, fuel, s1);
    assert s2 == s1.(x := 5, pending := Some(Assign));
    AssignStep(s1, Green, fuel - 1, s2);
    assert Loop(s0, Some(Green), fuel) == Loop(s1, Some(Magenta), fuel - 1);
    assert Loop(s1, Some(Magenta), fuel - 1) == Loop(s2, Some(Green), fuel - 2);
  }

  /** Copying register `i` into register `j` runs to its end: register
      `j` receives the whole of register `i`. */
  lemma CopyRegisterRun(s: State, i: RegIndex, j: RegIndex, fuel: nat)
    requires Valid(s) && s.error.None? && s.pending.None? && s.grid == Strip(CopyRegisterCode(i, j))
    requires fuel >= 3
    ensures var s0 := Start(s);
      Run(s, fuel) == Done(s0.(x := 8, registers := s0.registers[j := s0.registers[i]],
                               last := Operand(s0.registers[j].integer, RegisterHandle(j))))
  {
    var start := Start(s);
    var s2 := start.(x := 5, pending := Some(Assign), last := Operand(start.registers[i].integer, RegisterHandle(i)));
    CopyRegisterReachesAssign(s, i, j, fuel, s2);
    var r := start.(x := 8, registers := start.registers[j := start.registers[i]],
                    last := Operand(start.registers[j].integer, RegisterHandle(j)));
    assert r == s2.(x := s2.x + 3, pending := None, last := Operand(s2.registers[j].integer, RegisterHandle(j)),
                    registers := s2.registers[j := start.registers[i]]);
    AssignToRegisterEnds(s2, j, fuel - 2, start.registers[i], r);
  }

  /** Copying register `i` into register `j`: the whole register `i`, integer and array pointer, is copied into register
      `j`, so afterwards both registers see the same array. */
  lemma CopyRegister(s: State, i: RegIndex, j: RegIndex, fuel: nat)
    requires Valid(s) && s.error.None? && s.pending.None? && s.grid == Strip(CopyRegisterCode(i, j))
    requires fuel >= 3
    ensures Run(s, fuel).Done? && View(Run(s, fuel).result, j) == View(Run(s, fuel).result, i)
  {
    CopyRegisterRun(s, i, j, fuel);
  }

  /** `blue magenta` with no handle on the last operand: logical not has nothing to store
      into, and the run stops. */
  lemma NotStep(s: State, fuel: nat, r: State)
    requires OnSignal(s, Blue) && s.last.handle.NoHandle? && fuel > 0
    requires ShowsAt(s.grid, s.x + 1, Magenta)
    requires r == Fail(s.(x := s.x + 1), UnaryWithoutTarget)
    ensures !UnaryDefined(s.(x := s.x + 1))
    ensures Loop(s, Some(Blue), fuel) == Done(r)
  {
    assert SignalAt(s.grid, s.x + 1, 0) == Some(Magenta);
    ScanOnto(s, Magenta);
  }

  /** `magenta magenta` with no handle on the last operand: the compound form of logical
      not, which stops the run the same way. */
  lemma CompoundNotStep(s: State, fuel: nat, r: State)
    requires OnSignal(s, Magenta) && s.last.handle.NoHandle? && fuel > 0
    requires ShowsAt(s.grid, s.x + 1, Magenta) && ShowsAt(s.grid, s.x + 2, Magenta)
    requires r == Fail(s.(x := s.x + 2), UnaryWithoutTarget)
    ensures !UnaryDefined(s.(x := s.x + 2))
    ensures Loop(s, Some(Magenta), fuel) == Done(r)
  {
    assert SignalAt(s.grid, s.x + 1, 0) == Some(Magenta);
    assert SignalAt(s.grid, s.x + 2, 0) == Some(Magenta);
    ScanOnto(s, Magenta);
    ScanOnto(s.(x := s.x + 1), Magenta);
  }

  /** `blue magenta`: logical not as the first instruction, when the last operand is the
      cleared one with no handle.  The source stores through a null `lastRef` here; the
      model halts with `UnaryWithoutTarget`. */
  lemma NotWithoutOperand(s: State, fuel: nat)
    requires Valid(s) && s.error.None? && s.grid == Strip([Blue, Magenta])
    requires fuel >= 1
    ensures !UnaryDefined(Start(s).(x := 1))
    ensures Run(s, fuel) == Done(Fail(Start(s).(x := 1), UnaryWithoutTarget))
  {
    var code := [Blue, Magenta];
    StripLaid(code);
    var s0 := Start(s).(x := 0);
    RunStarts(s, code, Blue, fuel, s0);
    LaidCell(s.grid, 0, code, 1);
    assert s0.(x := s0.x + 1) == Start(s).(x := 1);
    NotStep(s0, fuel, Fail(Start(s).(x := 1), UnaryWithoutTarget));
  }

  /** `magenta magenta magenta`: the compound-assignment form of logical not, again with
      no last operand to store through; the source dereferences a null `lastRef`. */
  lemma CompoundNotWithoutOperand(s: State, fuel: nat)
    requires Valid(s) && s.error.None? && s.grid == Strip([Magenta, Magenta, Magenta])
    requires fuel >= 1
    ensures !UnaryDefined(Start(s).(x := 2))
    ensures Run(s, fuel) == Done(Fail(Start(s).(x := 2), UnaryWithoutTarget))
  {
    var code := [Magenta, Magenta, Magenta];
    StripLaid(code);
    var s0 := Start(s).(x := 0);
    RunStarts(s, code, Magenta, fuel, s0);
    LaidCell(s.grid, 0, code, 1);
    LaidCell(s.grid, 0, code, 2);
    assert s0.(x := s0.x + 2) == Start(s).(x := 2);
    CompoundNotStep(s0, fuel, Fail(Start(s).(x := 2), UnaryWithoutTarget));
  }
}

=== FILE: signals.dfy ===
/**
 * The six signal colours of the pixel language and the order the engine numbers them in.
 * Any other 24-bit colour is inert: the cursor walks over it.
 */
module Signals {
  import opened Base

  const RED: int := 0xFF0000
  const YELLOW: int := 0xFFFF00
  const GREEN: int := 0x00FF00
  const CYAN: int := 0x00FFFF
  const BLUE: int := 0x0000FF
  const MAGENTA: int := 0xFF00FF

  datatype Signal = Red | Yellow | Green | Cyan | Blue | Magenta

  /** The 24-bit colour that carries each signal. */
  function Rgb(c: Signal): int
  {
    match c
    case Red => RED
    case Yellow => YELLOW
    case Green => GREEN
    case Cyan => CYAN
    case Blue => BLUE
    case Magenta => MAGENTA
  }

  /** Recognises a decoded pixel colour as a signal, or as inert. */
  function Classify(rgb: int): (r: Option<Signal>)
    ensures r.Some? <==> rgb in {RED, YELLOW, GREEN, CYAN, BLUE, MAGENTA}
    ensures r.Some? ==> Rgb(r.value) == rgb
  {
    if rgb == RED then Some(Red)
    else if rgb == YELLOW then Some(Yellow)
    else if rgb == GREEN then Some(Green)
    else if rgb == CYAN then Some(Cyan)
    else if rgb == BLUE then Some(Blue)
    else if rgb == MAGENTA then Some(Magenta)
    else None
  }

  /** Every signal is recognised as itself. */
  lemma ClassifyRgb(c: Signal)
    ensures Classify(Rgb(c)) == Some(c)
  {
  }

  /** The engine's numbering of the signals; it doubles as a register number (0 to 5). */
  function ColorIndex(c: Signal): (i: nat)
    ensures i < 6
    ensures IndexColor(i) == c
  {
    match c
    case Red => 0
    case Yellow => 1
    case Green => 2
    case Cyan => 3
    case Blue => 4
    case Magenta => 5
  }

  /** The signal that names register `i`; the inverse of `ColorIndex`. */
  function IndexColor(i: nat): (c: Signal)
    requires i < 6
  {
    [Red, Yellow, Green, Cyan, Blue, Magenta][i]
  }

  /** Register numbering is a bijection between the six signals and 0..5. */
  lemma IndexColorRoundTrip(i: nat)
    requires i < 6
    ensures ColorIndex(IndexColor(i)) == i
  {
  }
}
